=== FILE: README.md ===
# SBE intermediate representation: a verified Dafny model

This project models the core of the Simple Binary Encoding (SBE) tool's
intermediate representation (IR) in Dafny, and proves properties of it:

- **IR normalisation** (`Ir`). A message is a flat list of tokens in which
  every structural construct is a `BEGIN_X … END_X` pair. `addMessage` runs
  three passes over the list:
  - type capture copies composites, enums and sets into a name → tokens map;
  - constant-enum compression drops the valid values a constant enum field
    cannot take, and zeroes the encoded lengths;
  - span counting writes `end - begin + 1` into both ends of every pair.

  The processed copy is then stored under the message id.
- **Token-range utilities** (`GenerationUtil`), which the code generators
  use: `collect` and its three variants, `getMessageBody`, `concatTokens`
  and `findEndSignal`.
- **The IR's own binary codecs** (`TokenCodecEncoder`, `TokenCodecDecoder`,
  `FrameCodecDecoder`). Each holds a fixed block of little-endian int32
  fields and one-byte enum codes. Var-data fields follow it, each a uint16
  length and a payload, laid end to end from a moving `limit` cursor. Each
  codec also has its `appendTo` text form.
- **The example token listener** (`ExampleTokenListener`). It synthesises
  constant and not-present values by acting version, matches enum values,
  tests bit-set choices, and keeps a stack of named scopes and a composite
  level across begin/end callbacks.

Files (one module each):

| file | module |
|---|---|
| tokens.dfy | `Tokens`: signals, encodings, tokens |
| capture.dfy | `Capture`: the type-capture scan and the type map it builds |
| compress.dfy | `Compress`: constant-enum compression |
| spans.dfy | `Spans`: span counting |
| ir.dfy | `IrModel`: class `Ir`, namespaces, `addMessage` |
| generation_util.dfy | `GenerationUtil` |
| wire.dfy | `Wire`: int32, uint16 and var-data framing; the text parts `appendTo` builds |
| token_codec_encoder.dfy | `TokenCodecEncoding`: class `TokenCodecEncoder` |
| token_codec_decoder.dfy | `TokenCodecDecoding`: class `TokenCodecDecoder` |
| frame_codec_decoder.dfy | `FrameCodecDecoding`: class `FrameCodecDecoder` |
| listener.dfy | `Listener`: class `ExampleTokenListener` |

Every pass that the source runs as a loop is a Dafny `method` with a loop.
Each is proved equal to a recursive specification function (`Scan`,
`Compress`, `Count`, `WalkEnd`, `EndSignalIndex`, `ChoicesText`, …), and the
properties are proved about those functions as lemmas. Where the source
throws on a missing end token, an unmatched END, a too-short message or an
over-long var-data field, the model returns `None` or `false`. The other
cases in which the source throws (out-of-bounds indices, null constants,
popping an empty scope, a negative length) are excluded by `requires`
clauses or `nat` parameters, each listed under "## Left out".

Three behaviours of the code worth noting:
- `findEndSignal` never inspects the last token.
- `compressConstantEnums` consumes the token after a constant field even
  when it is not an enum.
- `captureTypes` does not rescan the inside of an enum or a set.

## Model

| member | source | states |
|---|---|---|
| IrModel.Ir.constructor | sbe-tool/src/main/java/uk/co/real_logic/sbe/ir/Ir.java:53-79 | The container starts with no messages and no types. Its namespaces are either the one applicable name with dots replaced by underscores (collapse flag set) or the name split on dots. |
| IrModel.SplitOnDotsSpec | sbe-tool/src/main/java/uk/co/real_logic/sbe/ir/Ir.java:77 | No split piece contains a dot. A name that does not end in a dot joins back from its pieces. A name with no dot is its own single namespace. |
| IrModel.FieldsJoin | sbe-tool/src/main/java/uk/co/real_logic/sbe/ir/Ir.java:77 | Splitting on dots loses nothing: joining the pieces with dots gives back the string. |
| IrModel.DropTrailingEmpty | sbe-tool/src/main/java/uk/co/real_logic/sbe/ir/Ir.java:77 | A limit-0 split drops only the empty pieces at the end and keeps a prefix whose last piece is non-empty. |
| IrModel.ReplaceDots | sbe-tool/src/main/java/uk/co/real_logic/sbe/ir/Ir.java:73 | The collapsed namespace has the same length, contains no dot, and keeps every other character. |
| IrModel.Normalise | sbe-tool/src/main/java/uk/co/real_logic/sbe/ir/Ir.java:100-102 | Compression, then span counting, or None where either pass throws. `IrModel.Ir.AddMessage` stores its result. |
| IrModel.Ir.AddMessage | sbe-tool/src/main/java/uk/co/real_logic/sbe/ir/Ir.java:97-106 | The type map gains the captures of the scan over the whole message. The message is stored exactly when capture, compression and counting all succeed, and its value is the compressed-then-counted list. Otherwise the message map is unchanged. |
| IrModel.Ir.GetMessage | sbe-tool/src/main/java/uk/co/real_logic/sbe/ir/Ir.java:114-117 | Returns the stored tokens for a known id, and None (null) exactly for an unknown one. |
| IrModel.Ir.GetType | sbe-tool/src/main/java/uk/co/real_logic/sbe/ir/Ir.java:125-128 | Returns the stored tokens for a known name, and None (null) exactly for an unknown one. |
| IrModel.Ir.ApplicableNamespace | sbe-tool/src/main/java/uk/co/real_logic/sbe/ir/Ir.java:217-220 | The namespace name when there is one, otherwise the package name. |
| IrModel.Ir.CaptureType | sbe-tool/src/main/java/uk/co/real_logic/sbe/ir/Ir.java:308-324 | Returns the first later index whose token has the end signal and the name. It stores the slice from the begin token through that index under the name. It returns None, storing nothing, when the list ends first. |
| IrModel.Ir.CaptureTypes | sbe-tool/src/main/java/uk/co/real_logic/sbe/ir/Ir.java:283-306 | The loop performs exactly the captures of the recursive scan `Capture.Scan`, in order, and stores them into the map. It fails exactly where the scan fails. |
| IrModel.Ir.CaptureAt | sbe-tool/src/main/java/uk/co/real_logic/sbe/ir/Ir.java:287-304 | One loop iteration: the scan over [begin, end] is the captures done so far followed by the scan from the next index. |
| IrModel.Ir.CaptureFound | sbe-tool/src/main/java/uk/co/real_logic/sbe/ir/Ir.java:292-303 | The iteration at a composite, enum or set: the capture is stored, and the scan resumes after the end token or fails. |
| IrModel.Ir.CaptureComposite | sbe-tool/src/main/java/uk/co/real_logic/sbe/ir/Ir.java:292-295 | After a composite, its interior is scanned for nested types and the scan resumes just past its end token. |
| Capture.FindFrom | sbe-tool/src/main/java/uk/co/real_logic/sbe/ir/Ir.java:314-319 | The end search: when it finds an index, that index is at or after the start, within the list, and holds a closing token (matching end signal and name). `FindFromSpec` shows it is the first one. |
| Capture.FindEnd | sbe-tool/src/main/java/uk/co/real_logic/sbe/ir/Ir.java:314-319 | The do-while of captureType starts one past the begin token, so a found end lies strictly after the begin and within the list. |
| Capture.Scan | sbe-tool/src/main/java/uk/co/real_logic/sbe/ir/Ir.java:283-306 | The captures made by the loop of captureTypes over [i, end]: composites, with their interiors rescanned, and whole enums and sets. It fails (ok false) when a type has no end token, keeping the captures made so far. Its properties are stated by `ScanCaptures`, `ScanCovers`, `ScanComposite` and `ScanLeaf`. |
| Capture.FindFromSpec | sbe-tool/src/main/java/uk/co/real_logic/sbe/ir/Ir.java:314-319 | The end search finds the first closing token (matching end signal and name) at or after the start, and finds none only when no such token exists. |
| Capture.ScanCaptures | sbe-tool/src/main/java/uk/co/real_logic/sbe/ir/Ir.java:283-324 | Every capture begins at a type begin token with the type's name. It ends at the first later token with the matching end signal and the same name. It never starts before the scan does. |
| Capture.CompositeCaptures | sbe-tool/src/main/java/uk/co/real_logic/sbe/ir/Ir.java:292-295 | The same for a composite together with the nested types of its interior. |
| Capture.ScanCovers | sbe-tool/src/main/java/uk/co/real_logic/sbe/ir/Ir.java:285-305 | A scan that succeeds leaves no type behind: every composite, enum or set begin token in the range lies inside some capture. |
| Capture.ScanComposite | sbe-tool/src/main/java/uk/co/real_logic/sbe/ir/Ir.java:292-295 | A composite is captured, then its interior only (begin + 1 .. end - 1), then the scan resumes just past its end token. |
| Capture.ScanLeaf | sbe-tool/src/main/java/uk/co/real_logic/sbe/ir/Ir.java:297-303 | An enum or set is captured whole, its interior is not rescanned, and the scan resumes just past its end token. |
| Capture.StoreLastWins | sbe-tool/src/main/java/uk/co/real_logic/sbe/ir/Ir.java:321 | After storing, a captured name holds the slice of the last capture of that name: a later capture overwrites an earlier one. |
| Capture.StoreKeepsOthers | sbe-tool/src/main/java/uk/co/real_logic/sbe/ir/Ir.java:321 | A name that no capture has keeps its old tokens, or stays absent. |
| Capture.StoreAppend | sbe-tool/src/main/java/uk/co/real_logic/sbe/ir/Ir.java:321 | Storing two runs of captures one after the other equals storing their concatenation. |
| Compress.Compress | sbe-tool/src/main/java/uk/co/real_logic/sbe/ir/Ir.java:222-255 | The compression pass as a recursive definition: constant enum fields lose the values that do not match their constant, and other tokens pass through. It is None where the source throws (a constant field at the end of the list, or an enum with no END_ENUM). Its properties are stated by `CompressWithoutConstantFields`, `CompressIdempotent` and the `EnumBody*` lemmas. |
| Compress.EnumBody | sbe-tool/src/main/java/uk/co/real_logic/sbe/ir/Ir.java:236-251 | The inner loop as a recursive definition: when it succeeds it has consumed between 1 token and the whole list. `EnumBodyFailsIff`, `EnumBodyKeeps` and `EnumBodyOrder` state what it keeps. |
| Compress.CompressConstantEnums | sbe-tool/src/main/java/uk/co/real_logic/sbe/ir/Ir.java:222-255 | The iterator walk gives exactly the recursive specification `Compress`, including its failures. |
| Compress.WalkStep | sbe-tool/src/main/java/uk/co/real_logic/sbe/ir/Ir.java:227-253 | One turn of the outer loop either emits a piece and says where the walk resumes, or fails exactly where the specification fails. |
| Compress.CompressEnumBody | sbe-tool/src/main/java/uk/co/real_logic/sbe/ir/Ir.java:236-251 | The inner loop equals `EnumBody`, which fails when the list ends before an END_ENUM. |
| Compress.Constantise | sbe-tool/src/main/java/uk/co/real_logic/sbe/ir/Ir.java:239-240 | A token of a compressed enum gets encoded length 0 and constant presence, and keeps its signal, name and count. |
| Compress.EnumBodyFailsIff | sbe-tool/src/main/java/uk/co/real_logic/sbe/ir/Ir.java:236-251 | The inner loop fails exactly when no END_ENUM follows the BEGIN_ENUM. |
| Compress.EnumBodyKeeps | sbe-tool/src/main/java/uk/co/real_logic/sbe/ir/Ir.java:236-251 | The loop stops at the first END_ENUM, which is kept (constantised) as the last token. Before it, it keeps a value exactly when its name is a suffix of the constant's text, each such value once and in list order (`SuffixNamed`). Every kept token has encoded length 0 and is constant. |
| Compress.EnumBodyOrder | sbe-tool/src/main/java/uk/co/real_logic/sbe/ir/Ir.java:236-251 | The kept tokens are the constantised suffix-named values before the first END_ENUM, in order, followed by that END_ENUM. |
| Compress.CompressWithoutConstantFields | sbe-tool/src/main/java/uk/co/real_logic/sbe/ir/Ir.java:228 | A list with no constant BEGIN_FIELD is left exactly as it is. |
| Compress.CompressIdempotent | sbe-tool/src/main/java/uk/co/real_logic/sbe/ir/Ir.java:222-255 | Compressing an already compressed list changes nothing. |
| Compress.EnumBodyStable | sbe-tool/src/main/java/uk/co/real_logic/sbe/ir/Ir.java:236-251 | A kept enum body passes through the inner loop whole. |
| Spans.Count | sbe-tool/src/main/java/uk/co/real_logic/sbe/ir/Ir.java:257-281 | The span-counting pass as a definition: the pairing over the list's signals, with the written counts applied, or None when it fails. Its properties are stated by `CountPairsEnds`, `CountKeepsShape`, `CountIdempotent`, `CountSucceedsIff` and `CountSpansFit`. |
| Spans.Pairing | sbe-tool/src/main/java/uk/co/real_logic/sbe/ir/Ir.java:259-280 | The per-kind stacks and written counts after the first n tokens, one `Step` per token, or None once an END found no open BEGIN. `PairingInv` and `PairingSucceedsIff` characterise it. |
| Spans.CountComponentTokens | sbe-tool/src/main/java/uk/co/real_logic/sbe/ir/Ir.java:257-281 | The loop over per-kind stacks gives exactly `Count`, including failure on an END with no open BEGIN. |
| Spans.CountTurn | sbe-tool/src/main/java/uk/co/real_logic/sbe/ir/Ir.java:263-279 | One iteration advances the pairing state by one token, or fails exactly where the pairing fails. |
| Spans.CloseComponent | sbe-tool/src/main/java/uk/co/real_logic/sbe/ir/Ir.java:271-279 | An END pops the innermost open BEGIN of its kind and writes `(i - begin) + 1` into both tokens. |
| Spans.CountPairsEnds | sbe-tool/src/main/java/uk/co/real_logic/sbe/ir/Ir.java:271-279 | Every END_X at j gets the count of a BEGIN_X at i = j - count + 1 < j. That BEGIN carries the same count j - i + 1, and the two are a LIFO pair of their kind: the tokens between them balance and never close an outer X. |
| Spans.CountKeepsShape | sbe-tool/src/main/java/uk/co/real_logic/sbe/ir/Ir.java:266-279 | The pass keeps length and signals, changes nothing but componentTokenCount, and leaves every token that is neither BEGIN nor END unchanged. |
| Spans.CountIdempotent | sbe-tool/src/main/java/uk/co/real_logic/sbe/ir/Ir.java:257-281 | Counting an already counted list gives the same list. |
| Spans.CountSucceedsIff | sbe-tool/src/main/java/uk/co/real_logic/sbe/ir/Ir.java:271-274 | The pass fails exactly when some END_X comes with no BEGIN_X left open before it. |
| Spans.PairingSucceedsIff | sbe-tool/src/main/java/uk/co/real_logic/sbe/ir/Ir.java:271-274 | The same on signals, for every prefix. |
| Spans.CountSpansFit | sbe-tool/src/main/java/uk/co/real_logic/sbe/ir/Ir.java:266-279 | In a list where every construct is closed, each BEGIN_X at i gets a count c ≥ 1 with i + c within the list. The token at i + c - 1 is an END_X carrying c. |
| Spans.ClosedSpan | sbe-tool/src/main/java/uk/co/real_logic/sbe/ir/Ir.java:266-279 | The same on signals: in a closed list no BEGIN is left on a stack. |
| Spans.FinalEndPair | sbe-tool/src/main/java/uk/co/real_logic/sbe/ir/Ir.java:271-279 | In the final state the END at j and the BEGIN it pairs with both carry j - i + 1. |
| Spans.WrittenStaysWritten | sbe-tool/src/main/java/uk/co/real_logic/sbe/ir/Ir.java:277-278 | A count once written is never overwritten by a later token. |
| Spans.PairingInv | sbe-tool/src/main/java/uk/co/real_logic/sbe/ir/Ir.java:259-280 | After every prefix, each stack holds exactly the open BEGIN indices of its kind, oldest first. The written counts are those of LIFO pairs. |
| Spans.FailureStays | sbe-tool/src/main/java/uk/co/real_logic/sbe/ir/Ir.java:274 | Once an END finds no open BEGIN, the pass has failed whatever follows. |
| GenerationUtil.Collect | sbe-tool/src/main/java/uk/co/real_logic/sbe/ir/GenerationUtil.java:47-65 | Returns `WalkEnd`: the first construct start without the signal, or the list size. It appends exactly tokens[index..result) in order. It appends nothing when the first token lacks the signal. When a construct runs past the list it fails (None) after appending the tokens up to the end. |
| GenerationUtil.AppendSpan | sbe-tool/src/main/java/uk/co/real_logic/sbe/ir/GenerationUtil.java:58-61 | The inner loop appends tokens[start..limit], or everything up to the end of the list when limit is past it. |
| GenerationUtil.WalkEnd | sbe-tool/src/main/java/uk/co/real_logic/sbe/ir/GenerationUtil.java:49-64 | The walk stops at or after its start, within the list, at a token without the signal or at the end. |
| GenerationUtil.CollectFields | sbe-tool/src/main/java/uk/co/real_logic/sbe/ir/GenerationUtil.java:32-35 | `Collect` with BEGIN_FIELD. |
| GenerationUtil.CollectGroups | sbe-tool/src/main/java/uk/co/real_logic/sbe/ir/GenerationUtil.java:37-40 | `Collect` with BEGIN_GROUP. |
| GenerationUtil.CollectVarData | sbe-tool/src/main/java/uk/co/real_logic/sbe/ir/GenerationUtil.java:42-45 | `Collect` with BEGIN_VAR_DATA. |
| GenerationUtil.CountedSpansFit | sbe-tool/src/main/java/uk/co/real_logic/sbe/ir/GenerationUtil.java:57-61 | After span counting a closed list, every BEGIN's count is at least 1 and its span ends within the list at the END of its kind. |
| GenerationUtil.WalkOverSpans | sbe-tool/src/main/java/uk/co/real_logic/sbe/ir/GenerationUtil.java:49-62 | Over fitting spans, in a list no longer than Integer.MAX_VALUE as every Java list is, the walk of `collect` terminates and never fails. A non-empty collection ends with an END of the kind. |
| GenerationUtil.CollectAfterCount | sbe-tool/src/main/java/uk/co/real_logic/sbe/ir/GenerationUtil.java:32-65 | Collecting fields, groups or var data from a counted, closed message (at most Integer.MAX_VALUE tokens) never runs off the list and stops just past an END token. |
| GenerationUtil.GetMessageBody | sbe-tool/src/main/java/uk/co/real_logic/sbe/ir/GenerationUtil.java:67-70 | The list without its first and last tokens, of size - 2. It is None (the sub-list throws) exactly when there are fewer than two tokens. |
| GenerationUtil.Filter | sbe-tool/src/main/java/uk/co/real_logic/sbe/ir/GenerationUtil.java:82 | Keeps exactly the tokens with the signal. A single token is kept when it has the signal and dropped otherwise, so with `FilterAppend` the order is the list's. |
| GenerationUtil.FilterCounts | sbe-tool/src/main/java/uk/co/real_logic/sbe/ir/GenerationUtil.java:82 | Each token with the signal is kept as often as it occurs in the list. |
| GenerationUtil.ConcatTokensSpec | sbe-tool/src/main/java/uk/co/real_logic/sbe/ir/GenerationUtil.java:77-85 | concatTokens distributes over list concatenation. One token contributes its mapped text when it has the signal and nothing otherwise. The empty list gives "". |
| GenerationUtil.FilterAppend | sbe-tool/src/main/java/uk/co/real_logic/sbe/ir/GenerationUtil.java:82 | Filtering preserves order across concatenation. |
| GenerationUtil.MapJoinAppend | sbe-tool/src/main/java/uk/co/real_logic/sbe/ir/GenerationUtil.java:83-84 | Mapping and joining preserves order across concatenation. |
| GenerationUtil.EndSignalIndex | sbe-tool/src/main/java/uk/co/real_logic/sbe/ir/GenerationUtil.java:87-103 | The answer of findEndSignal as a recursive definition, characterised by `EndSignalIndexSpec`. |
| GenerationUtil.ConcatTokens | sbe-tool/src/main/java/uk/co/real_logic/sbe/ir/GenerationUtil.java:77-85 | concatTokens: the tokens with the signal, mapped, then joined. `ConcatTokensSpec` characterises it. |
| GenerationUtil.FindEndSignal | sbe-tool/src/main/java/uk/co/real_logic/sbe/ir/GenerationUtil.java:87-103 | The scanning loop returns `EndSignalIndex`. |
| GenerationUtil.EndSignalIndexSpec | sbe-tool/src/main/java/uk/co/real_logic/sbe/ir/GenerationUtil.java:87-103 | The result is the smallest index in [start, size - 1) whose signal and name match, or size - 1 when none does. The last token is never inspected. |
| GenerationUtil.EndSignalIndexVsCapture | sbe-tool/src/main/java/uk/co/real_logic/sbe/ir/GenerationUtil.java:87-103 | findEndSignal agrees with the end search of type capture, except that a match on the last token is not seen. |
| TokenCodecEncoding.TokenCodecEncoder.Wrap | sbe-tool/src/main/java/uk/co/real_logic/sbe/ir/generated/TokenCodecEncoder.java:53-65 | After wrap, limit = offset + 24 and encodedLength() = 24. |
| TokenCodecEncoding.TokenCodecEncoder.PutInt32 | sbe-tool/src/main/java/uk/co/real_logic/sbe/ir/generated/TokenCodecEncoder.java:92-96 | The four bytes at the index become the value's little-endian encoding. Nothing else changes (`Splice`). |
| TokenCodecEncoding.TokenCodecEncoder.TokenOffset | sbe-tool/src/main/java/uk/co/real_logic/sbe/ir/generated/TokenCodecEncoder.java:92-96 | Writes the value little-endian at offset + 0, changing no other byte and not the limit. |
| TokenCodecEncoding.TokenCodecEncoder.TokenSize | sbe-tool/src/main/java/uk/co/real_logic/sbe/ir/generated/TokenCodecEncoder.java:114-118 | The same at offset + 4. |
| TokenCodecEncoding.TokenCodecEncoder.FieldId | sbe-tool/src/main/java/uk/co/real_logic/sbe/ir/generated/TokenCodecEncoder.java:136-140 | The same at offset + 8. |
| TokenCodecEncoding.TokenCodecEncoder.TokenVersion | sbe-tool/src/main/java/uk/co/real_logic/sbe/ir/generated/TokenCodecEncoder.java:158-162 | The same at offset + 12. |
| TokenCodecEncoding.TokenCodecEncoder.ComponentTokenCount | sbe-tool/src/main/java/uk/co/real_logic/sbe/ir/generated/TokenCodecEncoder.java:180-184 | The same at offset + 16. |
| TokenCodecEncoding.TokenCodecEncoder.PutCode | sbe-tool/src/main/java/uk/co/real_logic/sbe/ir/generated/TokenCodecEncoder.java:186-205 | One byte, the low eight bits of the code, is written at the index, and nothing else. |
| TokenCodecEncoding.TokenCodecEncoder.Signal | sbe-tool/src/main/java/uk/co/real_logic/sbe/ir/generated/TokenCodecEncoder.java:186-190 | The code's byte at offset + 20. |
| TokenCodecEncoding.TokenCodecEncoder.PrimitiveType | sbe-tool/src/main/java/uk/co/real_logic/sbe/ir/generated/TokenCodecEncoder.java:191-195 | The code's byte at offset + 21. |
| TokenCodecEncoding.TokenCodecEncoder.ByteOrder | sbe-tool/src/main/java/uk/co/real_logic/sbe/ir/generated/TokenCodecEncoder.java:196-200 | The code's byte at offset + 22. |
| TokenCodecEncoding.TokenCodecEncoder.Presence | sbe-tool/src/main/java/uk/co/real_logic/sbe/ir/generated/TokenCodecEncoder.java:201-205 | The code's byte at offset + 23. |
| TokenCodecEncoding.TokenCodecEncoder.PutVarData | sbe-tool/src/main/java/uk/co/real_logic/sbe/ir/generated/TokenCodecEncoder.java:250-264 | A length over 65534 is refused with buffer and limit untouched. Otherwise the uint16 length and the payload are written at the old limit, nothing else changes, and the limit grows by exactly 2 + length. |
| TokenCodecEncoding.EncodeBlock | sbe-tool/src/main/java/uk/co/real_logic/sbe/ir/generated/TokenCodecEncoder.java:92-205 | The 24-byte block holds each int32 little-endian at +0/4/8/12/16 and the four codes at +20..23 (`PutBlock` proves that the setters write exactly these bytes). |
| TokenCodecEncoding.TokenCodecEncoder.PutBlock | sbe-tool/src/main/java/uk/co/real_logic/sbe/ir/generated/TokenCodecEncoder.java:92-205 | The five int32 setters and the four code setters, one after the other, turn the buffer into the old buffer with `EncodeBlock(b)` written at the offset and no other byte changed. |
| TokenCodecEncoding.TokenCodecEncoder.PutInts | sbe-tool/src/main/java/uk/co/real_logic/sbe/ir/generated/TokenCodecEncoder.java:92-184 | The five int32 setters write the 20 bytes of the five little-endian values end to end at the offset, and nothing else. |
| TokenCodecEncoding.TokenCodecEncoder.PutCodes | sbe-tool/src/main/java/uk/co/real_logic/sbe/ir/generated/TokenCodecEncoder.java:186-205 | The four code setters complete the block: the 20 int32 bytes followed by the four code bytes at the offset, nothing else changed. |
| TokenCodecEncoding.TokenCodecEncoder.PutFields | sbe-tool/src/main/java/uk/co/real_logic/sbe/ir/generated/TokenCodecEncoder.java:250-264 | The var-data writers called in declared order on fields that fit leave the block in place and lay the fields' frames end to end right after it; the limit ends just past the last frame. |
| TokenCodecEncoding.TokenCodecEncoder.PutField | sbe-tool/src/main/java/uk/co/real_logic/sbe/ir/generated/TokenCodecEncoder.java:250-264 | One var-data writer after the frames of the earlier fields: the block is kept and the frames grow by exactly the next field's frame. |
| TokenCodecEncoding.NextFrame | sbe-tool/src/main/java/uk/co/real_logic/sbe/ir/generated/TokenCodecEncoder.java:250-264 | Writing the next field's frame at the limit keeps whatever lies before the frames and extends the frames of fields[..i] to those of fields[..i + 1], within the space all fields need. |
| TokenCodecEncoding.TokenCodecEncoder.EncodeToken | sbe-tool/src/main/java/uk/co/real_logic/sbe/ir/generated/TokenCodecEncoder.java:53-264 | Wrap, the nine fixed-field setters and the ten var-data writers in declared order leave the block followed by the fields' frames between the offset and the final limit, and a decoder over that buffer reads back the same block and fields (`ReadsBack`). |
| TokenCodecEncoding.BlockRoundTrip | sbe-tool/src/main/java/uk/co/real_logic/sbe/ir/generated/TokenCodecEncoder.java:92-205 | Decoding an encoded block, wherever it lies in the buffer, gives the block back. |
| TokenCodecEncoding.TokenRoundTrip | sbe-tool/src/main/java/uk/co/real_logic/sbe/ir/generated/TokenCodecEncoder.java:1071-1077 | Bytes holding a block followed by the frames of the ten var-data fields, ending at `end`, decode with block length 24 to the same block and payloads, and the reads end exactly at `end`. The decoder's text shows exactly those values. |
| TokenCodecEncoding.TokenCodecEncoder.AppendTo | sbe-tool/src/main/java/uk/co/real_logic/sbe/ir/generated/TokenCodecEncoder.java:1071-1077 | Appends what a decoder wrapped over the buffer at the offset, with the schema's block length and version, renders. |
| Wire.FramesExtend | sbe-tool/src/main/java/uk/co/real_logic/sbe/ir/generated/TokenCodecEncoder.java:250-264 | Writing one more var-data field at the limit, after the frames of earlier fields, gives the frames of all of them end to end, with no gap or overlap. The bytes before the limit are unchanged. |
| Wire.FramesConcat | sbe-tool/src/main/java/uk/co/real_logic/sbe/ir/generated/TokenCodecEncoder.java:250-264 | The frames of two runs of fields laid one after the other are the frames of their concatenation. |
| Wire.SpliceAdjacent | sbe-tool/src/main/java/uk/co/real_logic/sbe/ir/generated/TokenCodecEncoder.java:92-205 | Two writes side by side, the second starting where the first ends, equal one write of the two pieces joined. |
| Wire.Int32RoundTrip | sbe-tool/src/main/java/uk/co/real_logic/sbe/ir/generated/TokenCodecDecoder.java:112-115 | Reading back a written int32 gives the value. |
| Wire.Int32BytesRoundTrip | sbe-tool/src/main/java/uk/co/real_logic/sbe/ir/generated/TokenCodecDecoder.java:112-115 | Every four bytes are the encoding of the int32 read from them. |
| Wire.GetInt32 | sbe-tool/src/main/java/uk/co/real_logic/sbe/ir/generated/TokenCodecDecoder.java:112-115 | A little-endian getInt: the value whose encoding the four bytes are. |
| Wire.Uint16RoundTrip | sbe-tool/src/main/java/uk/co/real_logic/sbe/ir/generated/TokenCodecDecoder.java:389-393 | Reading back a written uint16 length gives the length. |
| Wire.Uint16BytesRoundTrip | sbe-tool/src/main/java/uk/co/real_logic/sbe/ir/generated/TokenCodecDecoder.java:389-393 | Every two bytes are the encoding of the length read from them. |
| Wire.LEToUint16 | sbe-tool/src/main/java/uk/co/real_logic/sbe/ir/generated/TokenCodecDecoder.java:389-393 | `getShort & 0xFFFF` lies in 0..65535. |
| Wire.Low8 | sbe-tool/src/main/java/uk/co/real_logic/sbe/ir/generated/TokenCodecEncoder.java:186-205 | `(byte)code` keeps the code modulo 256, and a code in 0..255 reads back unchanged. |
| Wire.ReadVarFieldOf | sbe-tool/src/main/java/uk/co/real_logic/sbe/ir/generated/TokenCodecDecoder.java:419-439 | Reading a written var-data field gives its payload and moves the cursor past exactly its 2 + length bytes. |
| Wire.ReadFramesOf | sbe-tool/src/main/java/uk/co/real_logic/sbe/ir/generated/TokenCodecDecoder.java:1226-1263 | Reading n successive fields from their frames gives the payloads back, in order, and ends just past them. |
| Wire.ActingPrefix | sbe-tool/src/main/java/uk/co/real_logic/sbe/ir/generated/FrameCodecDecoder.java:445-457 | The "acting/" prefix is present exactly when the acting value differs from the declared one. |
| Wire.Splice | sbe-tool/src/main/java/uk/co/real_logic/sbe/ir/generated/TokenCodecEncoder.java:92-96 | A write leaves the piece readable at its position and keeps the buffer's length. |
| Wire.SpliceKeeps | sbe-tool/src/main/java/uk/co/real_logic/sbe/ir/generated/TokenCodecEncoder.java:92-96 | A write changes no byte outside the piece. |
| TokenCodecDecoding.TokenCodecDecoder.Wrap | sbe-tool/src/main/java/uk/co/real_logic/sbe/ir/generated/TokenCodecDecoder.java:53-68 | After wrap, limit = offset + actingBlockLength and encodedLength() = actingBlockLength. |
| TokenCodecDecoding.TokenCodecDecoder.TokenOffset | sbe-tool/src/main/java/uk/co/real_logic/sbe/ir/generated/TokenCodecDecoder.java:112-115 | The int32 whose little-endian encoding is at offset + 0; a function, so the limit does not move. |
| TokenCodecDecoding.TokenCodecDecoder.TokenSize | sbe-tool/src/main/java/uk/co/real_logic/sbe/ir/generated/TokenCodecDecoder.java:150-153 | The same at offset + 4. |
| TokenCodecDecoding.TokenCodecDecoder.FieldId | sbe-tool/src/main/java/uk/co/real_logic/sbe/ir/generated/TokenCodecDecoder.java:188-191 | The same at offset + 8. |
| TokenCodecDecoding.TokenCodecDecoder.TokenVersion | sbe-tool/src/main/java/uk/co/real_logic/sbe/ir/generated/TokenCodecDecoder.java:226-229 | The same at offset + 12. |
| TokenCodecDecoding.TokenCodecDecoder.ComponentTokenCount | sbe-tool/src/main/java/uk/co/real_logic/sbe/ir/generated/TokenCodecDecoder.java:264-267 | The same at offset + 16. |
| TokenCodecDecoding.TokenCodecDecoder.CodeAt | sbe-tool/src/main/java/uk/co/real_logic/sbe/ir/generated/TokenCodecDecoder.java:287-290 | `byte & 0xFF`: a raw code in 0..255 whose low eight bits are the byte. |
| TokenCodecDecoding.TokenCodecDecoder.SignalCode | sbe-tool/src/main/java/uk/co/real_logic/sbe/ir/generated/TokenCodecDecoder.java:287-290 | The raw code at offset + 20. |
| TokenCodecDecoding.TokenCodecDecoder.PrimitiveTypeCode | sbe-tool/src/main/java/uk/co/real_logic/sbe/ir/generated/TokenCodecDecoder.java:310-313 | The raw code at offset + 21. |
| TokenCodecDecoding.TokenCodecDecoder.ByteOrderCode | sbe-tool/src/main/java/uk/co/real_logic/sbe/ir/generated/TokenCodecDecoder.java:333-336 | The raw code at offset + 22. |
| TokenCodecDecoding.TokenCodecDecoder.PresenceCode | sbe-tool/src/main/java/uk/co/real_logic/sbe/ir/generated/TokenCodecDecoder.java:356-359 | The raw code at offset + 23. |
| TokenCodecDecoding.TokenCodecDecoder.VarDataLength | sbe-tool/src/main/java/uk/co/real_logic/sbe/ir/generated/TokenCodecDecoder.java:389-393 | nameLength() and the other length getters read the uint16 at the limit, a value in 0..65535, without moving the limit. |
| TokenCodecDecoding.TokenCodecDecoder.GetVarData | sbe-tool/src/main/java/uk/co/real_logic/sbe/ir/generated/TokenCodecDecoder.java:407-417 | getName(dst, dstOffset, length) copies and returns min(length, dataLength) payload bytes into dst at dstOffset, changing nothing else in dst. The limit always moves past the whole field, by 2 + dataLength. |
| TokenCodecDecoding.TokenCodecDecoder.VarData | sbe-tool/src/main/java/uk/co/real_logic/sbe/ir/generated/TokenCodecDecoder.java:419-439 | name() and the other readers return the payload of the field at the limit and move the limit just past it. |
| TokenCodecDecoding.TokenCodecDecoder.AppendFixed | sbe-tool/src/main/java/uk/co/real_logic/sbe/ir/generated/TokenCodecDecoder.java:1182-1224 | Appends the nine fixed fields as decoded from the block. |
| TokenCodecDecoding.TokenCodecDecoder.AppendVarFields | sbe-tool/src/main/java/uk/co/real_logic/sbe/ir/generated/TokenCodecDecoder.java:1226-1263 | Appends the ten var-data fields read in declared order from the limit, each starting where the previous one ended. |
| TokenCodecDecoding.TokenCodecDecoder.AppendTo | sbe-tool/src/main/java/uk/co/real_logic/sbe/ir/generated/TokenCodecDecoder.java:1157-1268 | Reads the var data from offset + actingBlockLength and appends the header with its acting prefixes, then every field. It restores the caller's limit. |
| FrameCodecDecoding.FrameCodecDecoder.Wrap | sbe-tool/src/main/java/uk/co/real_logic/sbe/ir/generated/FrameCodecDecoder.java:53-68 | After wrap, limit = offset + actingBlockLength and encodedLength() = actingBlockLength. |
| FrameCodecDecoding.FrameCodecDecoder.IrId | sbe-tool/src/main/java/uk/co/real_logic/sbe/ir/generated/FrameCodecDecoder.java:112-115 | The int32 whose little-endian encoding is at offset + 0; the limit does not move. |
| FrameCodecDecoding.FrameCodecDecoder.IrVersion | sbe-tool/src/main/java/uk/co/real_logic/sbe/ir/generated/FrameCodecDecoder.java:150-153 | The same at offset + 4. |
| FrameCodecDecoding.FrameCodecDecoder.SchemaVersion | sbe-tool/src/main/java/uk/co/real_logic/sbe/ir/generated/FrameCodecDecoder.java:188-191 | The same at offset + 8. |
| FrameCodecDecoding.FrameCodecDecoder.VarDataLength | sbe-tool/src/main/java/uk/co/real_logic/sbe/ir/generated/FrameCodecDecoder.java:221-225 | packageNameLength() and the others: the uint16 at the limit, which stays put. |
| FrameCodecDecoding.FrameCodecDecoder.GetVarData | sbe-tool/src/main/java/uk/co/real_logic/sbe/ir/generated/FrameCodecDecoder.java:239-249 | getPackageName(dst, dstOffset, length) copies min(length, dataLength) bytes and moves the limit by 2 + dataLength. |
| FrameCodecDecoding.FrameCodecDecoder.VarData | sbe-tool/src/main/java/uk/co/real_logic/sbe/ir/generated/FrameCodecDecoder.java:251-271 | packageName(), namespaceName() and semanticVersion() each consume one length-prefixed field from the limit. |
| FrameCodecDecoding.FrameCodecDecoder.AppendFixed | sbe-tool/src/main/java/uk/co/real_logic/sbe/ir/generated/FrameCodecDecoder.java:461-473 | Appends irId, irVersion and schemaVersion as decoded from the block. |
| FrameCodecDecoding.FrameCodecDecoder.AppendVarFields | sbe-tool/src/main/java/uk/co/real_logic/sbe/ir/generated/FrameCodecDecoder.java:475-484 | Appends packageName, namespaceName and semanticVersion read in that order from the limit. |
| FrameCodecDecoding.FrameCodecDecoder.AppendTo | sbe-tool/src/main/java/uk/co/real_logic/sbe/ir/generated/FrameCodecDecoder.java:436-489 | Reads from the end of the acting block, appends the header with its acting prefixes and every field, and restores the caller's limit. |
| FrameCodecDecoding.EncodeBlock | sbe-tool/src/main/java/uk/co/real_logic/sbe/ir/generated/FrameCodecDecoder.java:112-191 | The 12 bytes holding irId, irVersion and schemaVersion little-endian at +0/4/8. |
| FrameCodecDecoding.FrameRoundTrip | sbe-tool/src/main/java/uk/co/real_logic/sbe/ir/generated/FrameCodecDecoder.java:436-489 | A frame laid out as its block followed by three var-data frames decodes to the same block and payloads. appendTo shows exactly those values. |
| Listener.ConstOrNotPresentValue | sbe-samples/src/main/java/uk/co/real_logic/sbe/examples/ExampleTokenListener.java:231-243 | A constant encoding gives its constant. An optional one gives its null value exactly when the acting version is older than the token's. A required one never gives a value. |
| Listener.ReadEncodingAsLong | sbe-samples/src/main/java/uk/co/real_logic/sbe/examples/ExampleTokenListener.java:219-229 | The synthesised value's long when there is one, otherwise the value read from the buffer. |
| Listener.ReadEncodingAsString | sbe-samples/src/main/java/uk/co/real_logic/sbe/examples/ExampleTokenListener.java:195-217 | The synthesised value's text, or the arrayLength elements joined with ", ". |
| Listener.Elements | sbe-samples/src/main/java/uk/co/real_logic/sbe/examples/ExampleTokenListener.java:208-212 | Array element i, for 0 ≤ i < arrayLength, is read at index + i * elementSize. |
| Listener.FirstMatch | sbe-samples/src/main/java/uk/co/real_logic/sbe/examples/ExampleTokenListener.java:83-90 | The first index in [lo, hi) whose constant equals the value; None exactly when no constant does. |
| Listener.ExampleTokenListener.MatchEnum | sbe-samples/src/main/java/uk/co/real_logic/sbe/examples/ExampleTokenListener.java:82-90 | The loop finds the name of the `FirstMatch` valid value, and nothing when there is none. |
| Listener.ExampleTokenListener.OnEnum | sbe-samples/src/main/java/uk/co/real_logic/sbe/examples/ExampleTokenListener.java:70-97 | Prints one line: the scope, the determined name, "=" and the first matching value's name, or "null" when none matches. |
| Listener.ExampleTokenListener.ChoiceFlags | sbe-samples/src/main/java/uk/co/real_logic/sbe/examples/ExampleTokenListener.java:114-122 | The choice loop writes " name=flag" for every choice, in order (`ChoicesText`). |
| Listener.SingleBitFlag | sbe-samples/src/main/java/uk/co/real_logic/sbe/examples/ExampleTokenListener.java:118-119 | The bit test `(v & (1L << p)) != 0` on the value 2^k is true exactly when p mod 64 = k. |
| Listener.PowerBit | sbe-samples/src/main/java/uk/co/real_logic/sbe/examples/ExampleTokenListener.java:119 | The only bit set in 2^k is bit k. |
| Listener.ExampleTokenListener.OnBitSet | sbe-samples/src/main/java/uk/co/real_logic/sbe/examples/ExampleTokenListener.java:99-125 | Prints one line: the scope, the determined name, ":" and every choice with its flag. |
| Listener.ExampleTokenListener.OnEncoding | sbe-samples/src/main/java/uk/co/real_logic/sbe/examples/ExampleTokenListener.java:54-68 | Prints the scope, then the type's name inside a composite or the field's name outside, then "=" and the value. |
| Listener.ExampleTokenListener.DetermineName | sbe-samples/src/main/java/uk/co/real_logic/sbe/examples/ExampleTokenListener.java:182-193 | The type token's name at `fromIndex` when the composite level exceeds the threshold, otherwise the field's name. |
| Listener.ScopeText | sbe-samples/src/main/java/uk/co/real_logic/sbe/examples/ExampleTokenListener.java:245-252 | printScope: the scope names from the outermost in, one name printing as itself. |
| Listener.ScopeTextAppend | sbe-samples/src/main/java/uk/co/real_logic/sbe/examples/ExampleTokenListener.java:245-252 | Pushing names onto the scope appends their text after the old scope text. |
| Listener.ExampleTokenListener.OnBeginMessage | sbe-samples/src/main/java/uk/co/real_logic/sbe/examples/ExampleTokenListener.java:44-47 | Pushes "name." as a non-composite scope step. |
| Listener.ExampleTokenListener.OnEndMessage | sbe-samples/src/main/java/uk/co/real_logic/sbe/examples/ExampleTokenListener.java:49-52 | Pops the innermost scope. |
| Listener.ExampleTokenListener.OnBeginComposite | sbe-samples/src/main/java/uk/co/real_logic/sbe/examples/ExampleTokenListener.java:127-132 | Raises the level by one and pushes a scope. Once the raised level exceeds 1, the scope is named after the type token; otherwise after the field. |
| Listener.ExampleTokenListener.OnEndComposite | sbe-samples/src/main/java/uk/co/real_logic/sbe/examples/ExampleTokenListener.java:134-139 | Lowers the level by one and pops the innermost scope. |
| Listener.ExampleTokenListener.OnGroupHeader | sbe-samples/src/main/java/uk/co/real_logic/sbe/examples/ExampleTokenListener.java:141-148 | Prints the scope, the group's name, " Group Header : numInGroup=" and the count. |
| Listener.ExampleTokenListener.OnBeginGroup | sbe-samples/src/main/java/uk/co/real_logic/sbe/examples/ExampleTokenListener.java:150-153 | Pushes "name." as a non-composite scope step. |
| Listener.ExampleTokenListener.OnEndGroup | sbe-samples/src/main/java/uk/co/real_logic/sbe/examples/ExampleTokenListener.java:155-158 | Pops the innermost scope. |
| Listener.ExampleTokenListener.OnVarData | sbe-samples/src/main/java/uk/co/real_logic/sbe/examples/ExampleTokenListener.java:160-180 | Throws exactly when the source buffer does not hold the value (`fits` false), for a negative length or one over the 1024-byte scratch buffer, and for a missing or malformed character set name. An unsupported character set returns early with no output. Otherwise it prints the scope, the field's name, "=" and the text. |
| Listener.RunNested | sbe-samples/src/main/java/uk/co/real_logic/sbe/examples/ExampleTokenListener.java:44-52 | Well-nested begin/end callbacks never pop an empty scope. They leave the scopes below untouched, push one name per construct left open, and move the level by the composites opened minus those closed. |
| Listener.BalancedRestores | sbe-samples/src/main/java/uk/co/real_logic/sbe/examples/ExampleTokenListener.java:127-158 | A balanced run of begin/end callbacks leaves the scope stack and the composite level as they were. |
| Listener.LevelCountsOpenComposites | sbe-samples/src/main/java/uk/co/real_logic/sbe/examples/ExampleTokenListener.java:127-139 | From a fresh listener, the composite level equals the number of open composites and the scope holds one name per open construct. |

## Left out

- `IrModel.Ir.AddMessage`: the source compresses and counts the caller's own `messageTokens` list in place, removing tokens from it and rewriting counts, before it stores a copy. The model leaves the caller's sequence unchanged and stores the processed copy. A caller's list that the source leaves half-processed after an exception is not modelled.
- Java object identity and aliasing. The source mutates `Token` objects in place, and `typesByNameMap` shares them with the message list. Tokens are values here, so the type map holds tokens as they were when captured, and later in-place edits by compression and counting do not show through it. The stored message is the processed copy, as in the source.
- `Ir.headerStructure`, `types()`, `messages()` and the plain field accessors: they only return fields.
- The system property that selects collapsed namespaces is the constructor's `collapseNamespaces` parameter. The regular-expression split is modelled as a split on '.' that drops trailing empty pieces.
- Listener I/O: the `PrintWriter` is a sequence of printed lines (`out`), and `printScope` is `ScopeText`.
- Buffer reads in the listener are parameters: `raw` is what `Types.getLong` returns, `element` gives the text `Types.appendAsString` appends for the element at a buffer index, `fits` says whether the source buffer holds `length` bytes at the index, and `decoded` is what decoding the var-data bytes with the field's character set gives (`Decoding`: the text, an unsupported set, or a malformed set name). The character set lookup and the decoding itself are not modelled. `PrimitiveValue` is a text and a long; the applicable null value of an encoding is a field of the encoding.
- Codec text: `appendTo` is modelled as a sequence of parts (`Text`, `Number`, `CodeName`, `Data`). Number-to-decimal formatting, the `SignalCodec.get`-style enum lookup behind a code, and UTF-8 decoding of var data into a `String` are not modelled. Enum getters return the raw code in 0..255.
- The `DirectBuffer` and `String` overloads of the var-data getters and setters are not modelled; the byte-array overloads are. `TokenCodecEncoding.TokenCodecEncoder.PutVarData` stands for all ten byte-array `put*` writers, `GetVarData` for the `get*(byte[], …)` readers, and `VarData` for the `String` readers with the payload bytes in place of the decoded string.
- The codec decoders hold a `seq<byte>` snapshot of the buffer, because they only read it. The encoder writes an `array<byte>` in place.
- Out-of-bounds buffer accesses, which Agrona reports with an exception, are preconditions (`requires`) on the codec members, not modelled error paths.
- `IrModel.Ir.CaptureType` and `IrModel.Ir.CaptureTypes`: the indices are required to lie within the token list, where the source's `List.get` would throw. Both are private, and `addMessage` calls them only with `0` and `size - 1`, which `AddMessage` meets.
- `IrModel.Ir.constructor` and `IrModel.Ir.AddMessage`: the `Verify.notNull` checks on `packageName`, `headerTokens` and `messageTokens` have no counterpart, because a Dafny `string` or `seq` cannot be null.
- `Listener.ExampleTokenListener.OnEnum`, `OnBitSet`, `OnBeginComposite`, `MatchEnum`, `ChoiceFlags` and `DetermineName`, and `Listener.FirstMatch` and `ChoicesText`: the token indices are required to lie within the token list. An index outside it makes `List.get` throw in the source (ExampleTokenListener.java:79, 85, 108, 187). `OnEnum` and `OnBitSet` also require `beginIndex + 1 <= endIndex <= |tokens|`: the range ends at the END token, as the decoder that drives the listener passes it. The source does not throw outside that range. An `endIndex` at or before `beginIndex` prints `name=null` or a bare choice line, as an empty range does. For `onEnum`, an `endIndex` past the list still succeeds when a match comes first. Neither case is modelled.
- `TokenCodecDecoding.TokenCodecDecoder.GetVarData` and `FrameCodecDecoding.FrameCodecDecoder.GetVarData`: these require a non-negative `length`. With a negative length the source first moves the limit past the field and then fails in the byte copy (TokenCodecDecoder.java:410-414, FrameCodecDecoder.java:242-246).
- `GenerationUtil.Collect` (with `CollectFields`, `CollectGroups`, `CollectVarData`) and `GenerationUtil.FindEndSignal`: the start index is a `nat`. A negative index makes `List.get` throw in the source; the model excludes it by its type.
- `Listener.ReadEncodingAsString` and `Listener.ExampleTokenListener.OnEncoding`: `arrayLength` and `elementSize` are parameters. The source derives them from the type token (`typeToken.arrayLength()` and the size of the encoding's primitive type); the model does not tie them to the token.
- The `sbe*` constant getters, the `*MetaAttribute` methods, the `*Id()`/`*CharacterEncoding()` constants and the int32 null/min/max getters are left out: they return fixed constants. The block length, template id, schema id and version are declared as constants (`SbeBlockLength` …), and the int32 null/min/max values as `Wire.Int32NullValue`, `Int32MinValue` and `Int32MaxValue`.
- The ten `appendTo` field writes that the generated code spells out one by one are one loop over the declared field names (`AppendVarFields`).
- `Listener.ExampleTokenListener.OnEndMessage`, `OnEndComposite` and `OnEndGroup`: these require a non-empty scope. A pop on an empty deque throws in the source, and `Listener.Step` models that as a failure for sequences of callbacks (`RunNested` proves well-nested callbacks never reach it).
- `Listener.ExampleTokenListener.OnEnum` and `OnBitSet`: these require every valid value or choice to carry a constant. A missing one is a null dereference in the source, which the model does not reproduce.
- `Listener.ReadEncodingAsString`: requires at least one array element when nothing is synthesised. The source's `setLength(length - 2)` throws on an empty result.
- `TokenCodecEncoding.TokenCodecEncoder.PutVarData`: requires a non-negative length. A negative length fails inside the buffer copy in the source.
- `GenerationUtil.Collect`, `GenerationUtil.WalkEnd` and `GenerationUtil.AppendSpan`: these require `Walkable`, that the jumps terminate, or for `AppendSpan` a `limit` within Integer.MAX_VALUE. The source loops forever on a construct count of zero or less. It also loops forever when `index + tokenCount` passes Integer.MAX_VALUE: the int limit wraps to a negative number, so the inner loop appends nothing and the index never moves. `Walkable` therefore also bounds every jump by Integer.MAX_VALUE (`MaxInt`). `GenerationUtil.WalkOverSpans` proves that every list after span counting meets it.

=== FILE: capture.dfy ===
/**
  Type capture, the first pass of IR normalisation (Ir.captureTypes and
  Ir.captureType).

  A BEGIN_COMPOSITE, BEGIN_ENUM or BEGIN_SET token starts a type. The type
  runs up to and including the first later token that carries the matching
  END signal and the same name, and that slice is stored in the type map
  under the name. Scanning resumes just past the end token; only the
  interior of a composite is scanned again, for nested types.

  `Scan` lists the captures in the order the source performs them, and
  `Store` replays them into a map, so a later capture of a name overwrites
  an earlier one.
 */
module Capture {
  import opened Tokens

  /** One capture: the type's name and the positions of its begin and end tokens. */
  datatype TypeEntry = TypeEntry(name: string, begin: nat, end: nat)

  /** The captures performed, in order, and whether the scan ran to its end. */
  datatype Captured = Captured(entries: seq<TypeEntry>, ok: bool)

  /** The end token of each capturable kind. */
  function EndOf(k: Component): Signal {
    End(k)
  }

  predicate IsTypeKind(k: Component) {
    k == Composite || k == Enum || k == Set
  }

  predicate Closes(t: Token, endSignal: Signal, name: string) {
    t.signal == endSignal && t.name == name
  }

  /** The first index m >= from whose token closes the type, if any. */
  function FindFrom(tokens: seq<Token>, from: nat, endSignal: Signal, name: string): (r: Option<nat>)
    ensures r.Some? ==> from <= r.value < |tokens| && Closes(tokens[r.value], endSignal, name)
    decreases |tokens| - from
  {
    if from >= |tokens| then None
    else if Closes(tokens[from], endSignal, name) then Some(from)
    else FindFrom(tokens, from + 1, endSignal, name)
  }

  /** Where the do-while of captureType stops when started at `index`. */
  function FindEnd(tokens: seq<Token>, index: nat, endSignal: Signal, name: string): (r: Option<nat>)
    ensures r.Some? ==> index < r.value < |tokens|
  {
    FindFrom(tokens, index + 1, endSignal, name)
  }

  /** FindFrom returns the first closing token at or after `from`, or None when there is none. */
  lemma {:induction false} FindFromSpec(tokens: seq<Token>, from: nat, endSignal: Signal, name: string)
    ensures match FindFrom(tokens, from, endSignal, name)
      case Some(m) =>
        && from <= m < |tokens|
        && Closes(tokens[m], endSignal, name)
        && forall j :: from <= j < m ==> !Closes(tokens[j], endSignal, name)
      case None =>
        forall j :: from <= j < |tokens| ==> !Closes(tokens[j], endSignal, name)
    decreases |tokens| - from
  {
    if from < |tokens| && !Closes(tokens[from], endSignal, name) {
      FindFromSpec(tokens, from + 1, endSignal, name);
    }
  }

  /**
    The captures made by the loop of captureTypes over [i, end]. A failed
    search for an end token stops the scan with ok false; the captures
    already made remain.
   */
  function Scan(tokens: seq<Token>, i: nat, end: int): (c: Captured)
    requires end < |tokens|
    decreases |tokens| - i
  {
    if i > end then Captured([], true)
    else if !(tokens[i].signal.Begin? && IsTypeKind(tokens[i].signal.kind)) then Scan(tokens, i + 1, end)
    else
      var k := tokens[i].signal.kind;
      var found := FindEnd(tokens, i, EndOf(k), tokens[i].name);
      if found.None? then Captured([], false)
      else
        var e := found.value;
        var entry := TypeEntry(tokens[i].name, i, e);
        if k == Composite then
          var inner := Scan(tokens, i + 1, e - 1);
          if !inner.ok then Captured([entry] + inner.entries, false)
          else
            var rest := Scan(tokens, e + 1, end);
            Captured([entry] + inner.entries + rest.entries, rest.ok)
        else
          var rest := Scan(tokens, e + 1, end);
          Captured([entry] + rest.entries, rest.ok)
  }

  /** The entry is a well-formed capture: begin token of a type kind, end token the first match after it. */
  ghost predicate IsCapture(tokens: seq<Token>, e: TypeEntry) {
    && e.begin < e.end < |tokens|
    && tokens[e.begin].signal.Begin?
    && IsTypeKind(tokens[e.begin].signal.kind)
    && tokens[e.begin].name == e.name
    && Closes(tokens[e.end], End(tokens[e.begin].signal.kind), e.name)
    && forall j :: e.begin < j < e.end ==> !Closes(tokens[j], End(tokens[e.begin].signal.kind), e.name)
  }

  /** The tokens stored for a capture: the slice from its begin token to its end token inclusive. */
  function Slice(tokens: seq<Token>, e: TypeEntry): (s: seq<Token>)
    requires e.begin <= e.end < |tokens|
    ensures |s| == e.end - e.begin + 1 && s[0] == tokens[e.begin] && s[|s| - 1] == tokens[e.end]
  {
    tokens[e.begin..e.end + 1]
  }

  ghost predicate AllCaptures(tokens: seq<Token>, entries: seq<TypeEntry>) {
    forall x :: 0 <= x < |entries| ==> IsCapture(tokens, entries[x])
  }

  /** No capture of the list begins before position i. */
  ghost predicate StartsFrom(entries: seq<TypeEntry>, i: nat) {
    forall x :: 0 <= x < |entries| ==> i <= entries[x].begin
  }

  /** Every capture the scan makes is well formed and starts no earlier than the scan. */
  lemma {:induction false} ScanCaptures(tokens: seq<Token>, i: nat, end: int)
    requires end < |tokens|
    ensures AllCaptures(tokens, Scan(tokens, i, end).entries)
    ensures StartsFrom(Scan(tokens, i, end).entries, i)
    decreases |tokens| - i, 1
  {
    if i > end {
    } else if !(tokens[i].signal.Begin? && IsTypeKind(tokens[i].signal.kind)) {
      ScanCaptures(tokens, i + 1, end);
      Later(Scan(tokens, i + 1, end).entries, i, i + 1);
    } else {
      var k := tokens[i].signal.kind;
      FindFromSpec(tokens, i + 1, EndOf(k), tokens[i].name);
      var found := FindEnd(tokens, i, EndOf(k), tokens[i].name);
      if found.Some? {
        var e := found.value;
        var entry := TypeEntry(tokens[i].name, i, e);
        assert IsCapture(tokens, entry);
        if k == Composite {
          CompositeCaptures(tokens, i, end, e);
        } else {
          var rest := Scan(tokens, e + 1, end);
          ScanLeaf(tokens, i, end, e);
          ScanCaptures(tokens, e + 1, end);
          Later(rest.entries, i, e + 1);
          Join(tokens, [entry], rest.entries, i);
        }
      }
    }
  }

  /** ScanCaptures for a composite at i whose end token is at e. */
  lemma {:induction false} CompositeCaptures(tokens: seq<Token>, i: nat, end: int, e: nat)
    requires i <= end < |tokens| && tokens[i].signal == Begin(Composite)
    requires FindEnd(tokens, i, EndOf(Composite), tokens[i].name) == Some(e)
    requires IsCapture(tokens, TypeEntry(tokens[i].name, i, e))
    ensures AllCaptures(tokens, Scan(tokens, i, end).entries)
    ensures StartsFrom(Scan(tokens, i, end).entries, i)
    decreases |tokens| - i, 0
  {
    var entry := TypeEntry(tokens[i].name, i, e);
    var rest := Scan(tokens, e + 1, end);
    ScanComposite(tokens, i, end, e);
    var inner := Scan(tokens, i + 1, e - 1);
    ScanCaptures(tokens, i + 1, e - 1);
    Later(inner.entries, i, i + 1);
    Join(tokens, [entry], inner.entries, i);
    if inner.ok {
      ScanCaptures(tokens, e + 1, end);
      Later(rest.entries, i, e + 1);
      Join(tokens, [entry] + inner.entries, rest.entries, i);
    }
  }

  lemma Later(entries: seq<TypeEntry>, i: nat, j: nat)
    requires i <= j && StartsFrom(entries, j)
    ensures StartsFrom(entries, i)
  {
  }

  lemma Join(tokens: seq<Token>, a: seq<TypeEntry>, b: seq<TypeEntry>, i: nat)
    requires AllCaptures(tokens, a) && AllCaptures(tokens, b)
    requires StartsFrom(a, i) && StartsFrom(b, i)
    ensures AllCaptures(tokens, a + b) && StartsFrom(a + b, i)
  {
    assert forall x :: |a| <= x < |a + b| ==> (a + b)[x] == b[x - |a|];
  }

  /** Index j lies inside some capture of the list. */
  ghost predicate Covered(entries: seq<TypeEntry>, j: nat) {
    exists x :: 0 <= x < |entries| && entries[x].begin <= j <= entries[x].end
  }

  /**
    A scan that runs to its end leaves no type behind: every BEGIN_COMPOSITE,
    BEGIN_ENUM or BEGIN_SET in the range lies within some capture (its own,
    or that of an enclosing enum or set).
   */
  lemma {:induction false} ScanCovers(tokens: seq<Token>, i: nat, end: int, j: nat)
    requires end < |tokens|
    requires Scan(tokens, i, end).ok
    requires i <= j <= end && tokens[j].signal.Begin? && IsTypeKind(tokens[j].signal.kind)
    ensures Covered(Scan(tokens, i, end).entries, j)
    decreases |tokens| - i
  {
    var c := Scan(tokens, i, end);
    if !(tokens[i].signal.Begin? && IsTypeKind(tokens[i].signal.kind)) {
      ScanCovers(tokens, i + 1, end, j);
    } else {
      var k := tokens[i].signal.kind;
      var e := FindEnd(tokens, i, EndOf(k), tokens[i].name).value;
      var entry := TypeEntry(tokens[i].name, i, e);
      if j <= e {
        assert c.entries[0] == entry;
      } else {
        var rest := Scan(tokens, e + 1, end);
        ScanCovers(tokens, e + 1, end, j);
        if k == Composite {
          var inner := Scan(tokens, i + 1, e - 1);
          CoveredShift(rest.entries, [entry] + inner.entries, j);
          assert c.entries == ([entry] + inner.entries) + rest.entries;
        } else {
          CoveredShift(rest.entries, [entry], j);
        }
      }
    }
  }

  lemma CoveredShift(entries: seq<TypeEntry>, front: seq<TypeEntry>, j: nat)
    requires Covered(entries, j)
    ensures Covered(front + entries, j)
  {
    var x :| 0 <= x < |entries| && entries[x].begin <= j <= entries[x].end;
    assert (front + entries)[|front| + x] == entries[x];
  }

  // ---------------------------------------------------------------------
  // Replaying the captures into the name -> tokens map.

  /** The capture names a slice of the token list (every capture the scan makes does: ScanCaptures). */
  predicate InList(tokens: seq<Token>, e: TypeEntry) {
    e.begin <= e.end < |tokens|
  }

  /**
    The type map after the captures, in order; a capture that names no slice
    of the list (the scan makes none) is passed over.
   */
  function Store(types: map<string, seq<Token>>, tokens: seq<Token>, entries: seq<TypeEntry>): map<string, seq<Token>>
    decreases |entries|
  {
    if entries == [] then types
    else
      var last := entries[|entries| - 1];
      var before := Store(types, tokens, entries[..|entries| - 1]);
      if InList(tokens, last) then before[last.name := Slice(tokens, last)] else before
  }

  /** Storing two runs of captures one after the other is storing their concatenation. */
  lemma {:induction false} StoreAppend(types: map<string, seq<Token>>, tokens: seq<Token>, a: seq<TypeEntry>, b: seq<TypeEntry>)
    ensures Store(types, tokens, a + b) == Store(Store(types, tokens, a), tokens, b)
    decreases |b|
  {
    if b == [] {
      assert a + b == a;
    } else {
      var front := b[..|b| - 1];
      assert (a + b)[..|a + b| - 1] == a + front;
      assert (a + b)[|a + b| - 1] == b[|b| - 1];
      StoreAppend(types, tokens, a, front);
    }
  }

  /** Storing one more capture writes its slice under its name. */
  lemma StoreOne(types: map<string, seq<Token>>, tokens: seq<Token>, done: seq<TypeEntry>, entry: TypeEntry)
    requires InList(tokens, entry)
    ensures Store(types, tokens, done + [entry]) == Store(types, tokens, done)[entry.name := Slice(tokens, entry)]
  {
    assert (done + [entry])[..|done|] == done;
  }

  /** No capture after position x has the same name. */
  ghost predicate LastOf(entries: seq<TypeEntry>, x: nat)
    requires x < |entries|
  {
    forall y :: x < y < |entries| ==> entries[y].name != entries[x].name
  }

  /** After storing, a captured name holds the slice of the LAST capture of that name. */
  lemma {:induction false} StoreLastWins(types: map<string, seq<Token>>, tokens: seq<Token>, entries: seq<TypeEntry>, x: nat)
    requires x < |entries| && LastOf(entries, x) && InList(tokens, entries[x])
    ensures entries[x].name in Store(types, tokens, entries)
    ensures Store(types, tokens, entries)[entries[x].name] == Slice(tokens, entries[x])
    decreases |entries|
  {
    var front := entries[..|entries| - 1];
    if x < |entries| - 1 {
      assert entries[|entries| - 1].name != entries[x].name;
      assert front[x] == entries[x];
      StoreLastWins(types, tokens, front, x);
    }
  }

  /** A name that no capture has keeps its old tokens, or stays absent. */
  lemma {:induction false} StoreKeepsOthers(types: map<string, seq<Token>>, tokens: seq<Token>, entries: seq<TypeEntry>, name: string)
    requires forall x :: 0 <= x < |entries| ==> entries[x].name != name
    ensures name in Store(types, tokens, entries) <==> name in types
    ensures name in types ==> Store(types, tokens, entries)[name] == types[name]
    decreases |entries|
  {
    if entries != [] {
      StoreKeepsOthers(types, tokens, entries[..|entries| - 1], name);
    }
  }

  // ---------------------------------------------------------------------
  // One step of the scan, for the loop that performs it.

  /** The scan over [b, end] is `done` followed by the scan over [i, end]. */
  predicate Resumes(tokens: seq<Token>, b: nat, end: int, done: seq<TypeEntry>, i: nat)
    requires end < |tokens|
  {
    var whole := Scan(tokens, b, end);
    var rest := Scan(tokens, i, end);
    whole.entries == done + rest.entries && whole.ok == rest.ok
  }

  lemma ScanSkip(tokens: seq<Token>, i: nat, end: int)
    requires end < |tokens| && i <= end
    requires !(tokens[i].signal.Begin? && IsTypeKind(tokens[i].signal.kind))
    ensures Scan(tokens, i, end) == Scan(tokens, i + 1, end)
  {
  }

  lemma ScanMissing(tokens: seq<Token>, i: nat, end: int)
    requires end < |tokens| && i <= end
    requires tokens[i].signal.Begin? && IsTypeKind(tokens[i].signal.kind)
    requires FindEnd(tokens, i, End(tokens[i].signal.kind), tokens[i].name).None?
    ensures Scan(tokens, i, end) == Captured([], false)
  {
  }

  /** After an enum or set, the scan resumes past its end token. */
  lemma ScanLeaf(tokens: seq<Token>, i: nat, end: int, e: nat)
    requires end < |tokens| && i <= end
    requires tokens[i].signal.Begin? && IsTypeKind(tokens[i].signal.kind) && tokens[i].signal.kind != Composite
    requires FindEnd(tokens, i, End(tokens[i].signal.kind), tokens[i].name) == Some(e)
    ensures Scan(tokens, i, end).entries == [TypeEntry(tokens[i].name, i, e)] + Scan(tokens, e + 1, end).entries
    ensures Scan(tokens, i, end).ok == Scan(tokens, e + 1, end).ok
  {
  }

  /** After a composite, the scan covers its interior, then resumes past its end token. */
  lemma ScanComposite(tokens: seq<Token>, i: nat, end: int, e: nat)
    requires end < |tokens| && i <= end
    requires tokens[i].signal == Begin(Composite)
    requires FindEnd(tokens, i, End(Composite), tokens[i].name) == Some(e)
    ensures var inner := Scan(tokens, i + 1, e - 1);
      && (inner.ok ==> Scan(tokens, i, end).entries == [TypeEntry(tokens[i].name, i, e)] + inner.entries + Scan(tokens, e + 1, end).entries)
      && (inner.ok ==> Scan(tokens, i, end).ok == Scan(tokens, e + 1, end).ok)
      && (!inner.ok ==> Scan(tokens, i, end) == Captured([TypeEntry(tokens[i].name, i, e)] + inner.entries, false))
  {
  }

  lemma ResumeFails(tokens: seq<Token>, b: nat, end: int, done: seq<TypeEntry>, i: nat, extra: seq<TypeEntry>)
    requires end < |tokens|
    requires Resumes(tokens, b, end, done, i)
    requires Scan(tokens, i, end) == Captured(extra, false)
    ensures Scan(tokens, b, end) == Captured(done + extra, false)
  {
  }

  lemma ResumeAfter(tokens: seq<Token>, b: nat, end: int, done: seq<TypeEntry>, step: seq<TypeEntry>, i: nat, j: nat)
    requires end < |tokens|
    requires Resumes(tokens, b, end, done, i)
    requires Scan(tokens, i, end).entries == step + Scan(tokens, j, end).entries
    requires Scan(tokens, i, end).ok == Scan(tokens, j, end).ok
    ensures Resumes(tokens, b, end, done + step, j)
  {
    Chain(Scan(tokens, b, end), Scan(tokens, i, end), Scan(tokens, j, end), done, step);
  }

  /** Resuming twice: the captures before the first point, then those between the two. */
  lemma Chain(whole: Captured, mid: Captured, rest: Captured, done: seq<TypeEntry>, step: seq<TypeEntry>)
    requires whole.entries == done + mid.entries && whole.ok == mid.ok
    requires mid.entries == step + rest.entries && mid.ok == rest.ok
    ensures whole.entries == (done + step) + rest.entries && whole.ok == rest.ok
  {
  }

  // Steps of the loop of captureTypes, stated on Resumes alone.

  lemma StepSkip(tokens: seq<Token>, b: nat, end: int, done: seq<TypeEntry>, i: nat)
    requires end < |tokens| && i <= end
    requires Resumes(tokens, b, end, done, i)
    requires !(tokens[i].signal.Begin? && IsTypeKind(tokens[i].signal.kind))
    ensures Resumes(tokens, b, end, done, i + 1)
  {
    ScanSkip(tokens, i, end);
  }

  lemma StepMissing(tokens: seq<Token>, b: nat, end: int, done: seq<TypeEntry>, i: nat)
    requires end < |tokens| && i <= end
    requires Resumes(tokens, b, end, done, i)
    requires tokens[i].signal.Begin? && IsTypeKind(tokens[i].signal.kind)
    requires FindEnd(tokens, i, End(tokens[i].signal.kind), tokens[i].name).None?
    ensures Scan(tokens, b, end) == Captured(done, false)
  {
    ScanMissing(tokens, i, end);
    ResumeFails(tokens, b, end, done, i, []);
    assert done + [] == done;
  }

  lemma StepLeaf(tokens: seq<Token>, b: nat, end: int, done: seq<TypeEntry>, i: nat, e: nat)
    requires end < |tokens| && i <= end
    requires Resumes(tokens, b, end, done, i)
    requires tokens[i].signal.Begin? && IsTypeKind(tokens[i].signal.kind) && tokens[i].signal.kind != Composite
    requires FindEnd(tokens, i, End(tokens[i].signal.kind), tokens[i].name) == Some(e)
    ensures Resumes(tokens, b, end, done + [TypeEntry(tokens[i].name, i, e)], e + 1)
  {
    ScanLeaf(tokens, i, end, e);
    ResumeAfter(tokens, b, end, done, [TypeEntry(tokens[i].name, i, e)], i, e + 1);
  }

  lemma StepComposite(tokens: seq<Token>, b: nat, end: int, done: seq<TypeEntry>, i: nat, e: nat, inner: Captured)
    requires end < |tokens| && i <= end
    requires Resumes(tokens, b, end, done, i)
    requires tokens[i].signal == Begin(Composite)
    requires FindEnd(tokens, i, End(Composite), tokens[i].name) == Some(e)
    requires inner == Scan(tokens, i + 1, e - 1)
    ensures inner.ok ==> Resumes(tokens, b, end, done + [TypeEntry(tokens[i].name, i, e)] + inner.entries, e + 1)
    ensures !inner.ok ==> Scan(tokens, b, end) == Captured(done + [TypeEntry(tokens[i].name, i, e)] + inner.entries, false)
  {
    var entry := TypeEntry(tokens[i].name, i, e);
    ScanComposite(tokens, i, end, e);
    Assoc(done, [entry], inner.entries);
    if inner.ok {
      ResumeAfter(tokens, b, end, done, [entry] + inner.entries, i, e + 1);
    } else {
      ResumeFails(tokens, b, end, done, i, [entry] + inner.entries);
    }
  }

  lemma Assoc(a: seq<TypeEntry>, b: seq<TypeEntry>, c: seq<TypeEntry>)
    ensures a + (b + c) == a + b + c
  {
  }

  lemma ResumeStart(tokens: seq<Token>, b: nat, end: int)
    requires end < |tokens|
    ensures Resumes(tokens, b, end, [], b)
  {
    assert [] + Scan(tokens, b, end).entries == Scan(tokens, b, end).entries;
  }

  lemma ResumeDone(tokens: seq<Token>, b: nat, end: int, done: seq<TypeEntry>, i: nat)
    requires end < |tokens| && i > end
    requires Resumes(tokens, b, end, done, i)
    ensures Scan(tokens, b, end) == Captured(done, true)
  {
    assert done + [] == done;
  }

  /** The state after a composite and its interior have been captured. */
  lemma AfterComposite(tokens: seq<Token>, b: nat, end: int, done: seq<TypeEntry>, i: nat, e: nat,
                       types0: map<string, seq<Token>>, typesNow: map<string, seq<Token>>)
    requires end < |tokens| && i <= end
    requires Resumes(tokens, b, end, done, i)
    requires tokens[i].signal == Begin(Composite)
    requires FindEnd(tokens, i, End(Composite), tokens[i].name) == Some(e)
    requires typesNow == Store(Store(types0, tokens, done + [TypeEntry(tokens[i].name, i, e)]), tokens, Scan(tokens, i + 1, e - 1).entries)
    ensures var all := done + [TypeEntry(tokens[i].name, i, e)] + Scan(tokens, i + 1, e - 1).entries;
      && typesNow == Store(types0, tokens, all)
      && (Scan(tokens, i + 1, e - 1).ok ==> Resumes(tokens, b, end, all, e + 1))
      && (!Scan(tokens, i + 1, e - 1).ok ==> Scan(tokens, b, end) == Captured(all, false))
  {
    StepComposite(tokens, b, end, done, i, e, Scan(tokens, i + 1, e - 1));
    StoreAppend(types0, tokens, done + [TypeEntry(tokens[i].name, i, e)], Scan(tokens, i + 1, e - 1).entries);
  }
}

=== FILE: compress.dfy ===
/**
  Constant-enum compression, the second pass of IR normalisation
  (Ir.compressConstantEnums).

  When a BEGIN_FIELD token with constant presence is followed by a
  BEGIN_ENUM, the field's value is fixed, so the enum carries no bytes: the
  BEGIN_ENUM and every token through the END_ENUM get encoded length 0, the
  tokens after the BEGIN_ENUM are marked constant, and the valid values whose
  name is not a suffix of the constant's text are removed. The END_ENUM is
  never removed.

  The pass walks the list with one iterator. The token after a constant
  BEGIN_FIELD is always consumed, so when it is not a BEGIN_ENUM the walk
  resumes after it. Running out of tokens where the walk expects one, and a
  constant field without a constant value, are failures.
 */
module Compress {
  import opened Tokens

  /** A token of a compressed constant enum: no encoded length, constant presence. */
  function Constantise(t: Token): (c: Token)
    ensures c.signal == t.signal && c.name == t.name
    ensures c.encodedLength == 0 && c.encoding.presence == Constant
    ensures c.componentTokenCount == t.componentTokenCount
  {
    t.(encodedLength := 0, encoding := t.encoding.(presence := Constant))
  }

  /** What the inner loop keeps of an enum body, and how many tokens it consumed. */
  datatype Body = Body(kept: seq<Token>, used: nat)

  /**
    The inner loop over the tokens after a BEGIN_ENUM, up to and including
    the END_ENUM; None when the list ends first.
   */
  function EnumBody(s: seq<Token>, valueRef: string): (r: Option<Body>)
    ensures r.Some? ==> 1 <= r.value.used <= |s|
    decreases |s|
  {
    if s == [] then None
    else
      var x := Constantise(s[0]);
      if s[0].signal == End(Enum) then Some(Body([x], 1))
      else Extend(if EndsWith(valueRef, s[0].name) then [x] else [], 1, EnumBody(s[1..], valueRef))
  }

  /** Puts tokens kept and consumed earlier in front of the outcome of the rest of the loop. */
  function Extend(kept: seq<Token>, used: nat, r: Option<Body>): (e: Option<Body>)
    ensures e.Some? <==> r.Some?
    ensures r.Some? ==> e.value.used == used + r.value.used
  {
    match r
    case None => None
    case Some(b) => Some(Body(kept + b.kept, used + b.used))
  }

  /** Puts output tokens in front of the outcome of the rest of the walk. */
  function Prepend(out: seq<Token>, r: Option<seq<Token>>): (p: Option<seq<Token>>)
    ensures p.Some? <==> r.Some?
  {
    match r
    case None => None
    case Some(u) => Some(out + u)
  }

  /** The tokens emitted for a constant field followed by an enum, before the rest of the walk. */
  predicate ConstantEnumField(t: seq<Token>)
  {
    |t| >= 2 && t[0].signal == Begin(Field) && IsConstantEncoding(t[0]) && t[1].signal == Begin(Enum)
  }

  /** The whole pass: the compressed list, or None where the source throws. */
  function Compress(t: seq<Token>): Option<seq<Token>>
    decreases |t|
  {
    if t == [] then Some([])
    else if !(t[0].signal == Begin(Field) && IsConstantEncoding(t[0])) then Prepend([t[0]], Compress(t[1..]))
    else if |t| == 1 then None
    else if t[1].signal != Begin(Enum) then Prepend(t[..2], Compress(t[2..]))
    else if t[0].encoding.constValue.None? then None
    else
      match EnumBody(t[2..], t[0].encoding.constValue.value.text)
      case None => None
      case Some(b) => Prepend([t[0], t[1].(encodedLength := 0)] + b.kept, Compress(t[2 + b.used..]))
  }

  // ---------------------------------------------------------------------
  // The pass as the source runs it.

  /**
    Ir.compressConstantEnums: one walk with an iterator; a removal through
    the iterator is a token not copied to the output.
   */
  method CompressConstantEnums(tokens: seq<Token>) returns (r: Option<seq<Token>>)
    ensures r == Compress(tokens)
  {
    var out: seq<Token> := [];
    var i := 0;
    assert tokens[i..] == tokens;
    PrependNothing(Compress(tokens));
    while i < |tokens|
      invariant 0 <= i <= |tokens|
      invariant Compress(tokens) == Prepend(out, Compress(tokens[i..]))
      decreases |tokens| - i
    {
      var piece, next := WalkStep(tokens, i);
      if piece.None? {
        return None;
      }
      PrependPrepend(out, piece.value, Compress(tokens[next..]));
      out := out + piece.value;
      i := next;
    }
    r := Some(out);
    assert out + [] == out;
  }

  /**
    One turn of the walk from tokens[i]: the tokens it leaves in the list
    and where the walk resumes, or None where the source throws.
   */
  method WalkStep(tokens: seq<Token>, i: nat) returns (piece: Option<seq<Token>>, next: nat)
    requires i < |tokens|
    ensures piece.Some? ==> i < next <= |tokens| && Compress(tokens[i..]) == Prepend(piece.value, Compress(tokens[next..]))
    ensures piece.None? ==> Compress(tokens[i..]) == None
  {
    ghost var rest := tokens[i..];
    var token := tokens[i];
    next := i + 1;
    if !(token.signal == Begin(Field) && IsConstantEncoding(token)) {
      assert rest[1..] == tokens[next..];
      return Some([token]), next;
    }
    if next >= |tokens| {
      return None, next;
    }
    var nextToken := tokens[next];
    next := next + 1;
    assert rest[..2] == [token, nextToken] && rest[2..] == tokens[next..];
    if nextToken.signal != Begin(Enum) {
      return Some([token, nextToken]), next;
    }
    if token.encoding.constValue.None? {
      return None, next;
    }
    var valueRef := token.encoding.constValue.value.text;
    var body := CompressEnumBody(tokens, next, valueRef);
    if body.None? {
      return None, next;
    }
    next := next + body.value.used;
    EnumStep(rest, tokens[next..]);
    piece := Some([token, nextToken.(encodedLength := 0)] + body.value.kept);
  }

  /** How the walk continues after a constant field and its enum. */
  lemma EnumStep(rest: seq<Token>, after: seq<Token>)
    requires ConstantEnumField(rest) && rest[0].encoding.constValue.Some?
    requires EnumBody(rest[2..], rest[0].encoding.constValue.value.text).Some?
    requires after == rest[2 + EnumBody(rest[2..], rest[0].encoding.constValue.value.text).value.used..]
    ensures Compress(rest) == Prepend([rest[0], rest[1].(encodedLength := 0)] + EnumBody(rest[2..], rest[0].encoding.constValue.value.text).value.kept, Compress(after))
  {
  }

  /**
    The inner loop of Ir.compressConstantEnums, from just after a BEGIN_ENUM
    through the END_ENUM: every token is made constant with encoded length 0,
    and a value whose name is not a suffix of the constant is removed.
   */
  method CompressEnumBody(tokens: seq<Token>, start: nat, valueRef: string) returns (r: Option<Body>)
    requires start <= |tokens|
    ensures r == EnumBody(tokens[start..], valueRef)
  {
    var kept: seq<Token> := [];
    var i := start;
    ExtendNothing(EnumBody(tokens[start..], valueRef));
    while true
      invariant start <= i <= |tokens|
      invariant EnumBody(tokens[start..], valueRef) == Extend(kept, i - start, EnumBody(tokens[i..], valueRef))
      decreases |tokens| - i
    {
      if i >= |tokens| {
        assert EnumBody(tokens[i..], valueRef) == None;
        return None;
      }
      assert tokens[i..][1..] == tokens[i + 1..];
      var nextToken := Constantise(tokens[i]);
      i := i + 1;
      if nextToken.signal == End(Enum) {
        kept := kept + [nextToken];
        return Some(Body(kept, i - start));
      }
      // a value whose name is not a suffix of the constant is removed
      if EndsWith(valueRef, nextToken.name) {
        ExtendExtend(kept, [nextToken], i - 1 - start, 1, EnumBody(tokens[i..], valueRef));
        kept := kept + [nextToken];
      } else {
        ExtendExtend(kept, [], i - 1 - start, 1, EnumBody(tokens[i..], valueRef));
        assert kept + [] == kept;
      }
    }
  }

  lemma PrependNothing(r: Option<seq<Token>>)
    ensures Prepend([], r) == r
  {
    if r.Some? {
      assert [] + r.value == r.value;
    }
  }

  lemma ExtendNothing(r: Option<Body>)
    ensures Extend([], 0, r) == r
  {
    if r.Some? {
      assert [] + r.value.kept == r.value.kept;
    }
  }

  lemma PrependPrepend(a: seq<Token>, b: seq<Token>, r: Option<seq<Token>>)
    ensures Prepend(a, Prepend(b, r)) == Prepend(a + b, r)
  {
    if r.Some? {
      assert a + (b + r.value) == (a + b) + r.value;
    }
  }

  lemma ExtendExtend(a: seq<Token>, b: seq<Token>, m: nat, n: nat, r: Option<Body>)
    ensures Extend(a, m, Extend(b, n, r)) == Extend(a + b, m + n, r)
  {
    if r.Some? {
      assert a + (b + r.value.kept) == (a + b) + r.value.kept;
    }
  }

  // ---------------------------------------------------------------------
  // Properties.

  /** The inner loop fails exactly when no END_ENUM follows. */
  lemma {:induction false} EnumBodyFailsIff(s: seq<Token>, valueRef: string)
    ensures EnumBody(s, valueRef).None? <==> forall j :: 0 <= j < |s| ==> s[j].signal != End(Enum)
    decreases |s|
  {
    if s != [] && s[0].signal != End(Enum) {
      EnumBodyFailsIff(s[1..], valueRef);
      assert forall j :: 1 <= j < |s| ==> s[j] == s[1..][j - 1];
    }
  }

  /**
    The valid values among `values` whose name is a suffix of the constant,
    constantised, in their order.
   */
  function SuffixNamed(values: seq<Token>, valueRef: string): (r: seq<Token>)
    ensures |r| <= |values|
    ensures forall y :: 0 <= y < |r| ==> EndsWith(valueRef, r[y].name)
    decreases |values|
  {
    if values == [] then []
    else (if EndsWith(valueRef, values[0].name) then [Constantise(values[0])] else []) + SuffixNamed(values[1..], valueRef)
  }

  /**
    What the inner loop keeps of s[..used]: the END_ENUM at used - 1 (the
    first one), last; before it, exactly the tokens whose name is a suffix of
    the constant, in order and each once; all of them with encoded length 0
    and constant.
   */
  lemma EnumBodyKeeps(s: seq<Token>, valueRef: string)
    requires EnumBody(s, valueRef).Some?
    ensures var b := EnumBody(s, valueRef).value;
      && |b.kept| >= 1
      && s[b.used - 1].signal == End(Enum)
      && (forall j :: 0 <= j < b.used - 1 ==> s[j].signal != End(Enum))
      && b.kept == SuffixNamed(s[..b.used - 1], valueRef) + [Constantise(s[b.used - 1])]
      && (forall y :: 0 <= y < |b.kept| ==> b.kept[y].encodedLength == 0 && b.kept[y].encoding.presence == Constant)
      && (forall y :: 0 <= y < |b.kept| - 1 ==> EndsWith(valueRef, b.kept[y].name) && b.kept[y].signal != End(Enum))
      && (forall j :: 0 <= j < b.used - 1 && EndsWith(valueRef, s[j].name) ==> Constantise(s[j]) in b.kept[..|b.kept| - 1])
  {
    EnumBodyShape(s, valueRef);
    EnumBodyOrder(s, valueRef);
  }

  /** EnumBodyKeeps without the order of the kept values. */
  lemma {:induction false} EnumBodyShape(s: seq<Token>, valueRef: string)
    requires EnumBody(s, valueRef).Some?
    ensures var b := EnumBody(s, valueRef).value;
      && |b.kept| >= 1
      && s[b.used - 1].signal == End(Enum)
      && (forall j :: 0 <= j < b.used - 1 ==> s[j].signal != End(Enum))
      && b.kept[|b.kept| - 1] == Constantise(s[b.used - 1])
      && (forall y :: 0 <= y < |b.kept| ==> b.kept[y].encodedLength == 0 && b.kept[y].encoding.presence == Constant)
      && (forall y :: 0 <= y < |b.kept| - 1 ==> EndsWith(valueRef, b.kept[y].name) && b.kept[y].signal != End(Enum))
      && (forall j :: 0 <= j < b.used - 1 && EndsWith(valueRef, s[j].name) ==> Constantise(s[j]) in b.kept[..|b.kept| - 1])
    decreases |s|
  {
    var b := EnumBody(s, valueRef).value;
    if s[0].signal != End(Enum) {
      var tail := s[1..];
      EnumBodyShape(tail, valueRef);
      var bt := EnumBody(tail, valueRef).value;
      assert forall j :: 1 <= j < |s| ==> s[j] == tail[j - 1];
      var front := if EndsWith(valueRef, s[0].name) then [Constantise(s[0])] else [];
      assert b.kept == front + bt.kept;
      assert b.kept[..|b.kept| - 1] == front + bt.kept[..|bt.kept| - 1];
      forall j | 0 <= j < b.used - 1 && EndsWith(valueRef, s[j].name)
        ensures Constantise(s[j]) in b.kept[..|b.kept| - 1]
      {
        if j > 0 {
          assert Constantise(tail[j - 1]) in bt.kept[..|bt.kept| - 1];
        }
      }
    }
  }

  /**
    The inner loop keeps, in order, the suffix-named values before the first
    END_ENUM, then that END_ENUM.
   */
  lemma {:induction false} EnumBodyOrder(s: seq<Token>, valueRef: string)
    requires EnumBody(s, valueRef).Some?
    ensures var b := EnumBody(s, valueRef).value;
      b.kept == SuffixNamed(s[..b.used - 1], valueRef) + [Constantise(s[b.used - 1])]
    decreases |s|
  {
    var b := EnumBody(s, valueRef).value;
    if s[0].signal == End(Enum) {
      assert s[..b.used - 1] == [];
    } else {
      var tail := s[1..];
      EnumBodyOrder(tail, valueRef);
      var bt := EnumBody(tail, valueRef).value;
      var front := if EndsWith(valueRef, s[0].name) then [Constantise(s[0])] else [];
      assert b.kept == front + bt.kept;
      assert s[..b.used - 1][0] == s[0];
      assert s[..b.used - 1][1..] == tail[..bt.used - 1];
      assert s[b.used - 1] == tail[bt.used - 1];
    }
  }

  /** A list with no constant BEGIN_FIELD is left exactly as it is. */
  lemma {:induction false} CompressWithoutConstantFields(t: seq<Token>)
    requires forall j :: 0 <= j < |t| ==> !(t[j].signal == Begin(Field) && IsConstantEncoding(t[j]))
    ensures Compress(t) == Some(t)
    decreases |t|
  {
    if t != [] {
      CompressWithoutConstantFields(t[1..]);
      assert [t[0]] + t[1..] == t;
    }
  }

  /** The body the inner loop keeps is itself a complete enum body that the loop keeps whole. */
  lemma {:induction false} EnumBodyStable(kept: seq<Token>, more: seq<Token>, valueRef: string)
    requires |kept| >= 1 && kept[|kept| - 1].signal == End(Enum)
    requires forall y :: 0 <= y < |kept| ==> kept[y] == Constantise(kept[y])
    requires forall y :: 0 <= y < |kept| - 1 ==> EndsWith(valueRef, kept[y].name) && kept[y].signal != End(Enum)
    ensures EnumBody(kept + more, valueRef) == Some(Body(kept, |kept|))
    decreases |kept|
  {
    var s := kept + more;
    if |kept| == 1 {
      assert kept == [kept[0]];
    } else {
      assert s[1..] == kept[1..] + more;
      EnumBodyStable(kept[1..], more, valueRef);
      assert [kept[0]] + kept[1..] == kept;
    }
  }

  /** Compressing an already compressed list changes nothing. */
  lemma {:induction false} CompressIdempotent(t: seq<Token>)
    requires Compress(t).Some?
    ensures Compress(Compress(t).value) == Compress(t)
    decreases |t|
  {
    if t == [] {
    } else if !(t[0].signal == Begin(Field) && IsConstantEncoding(t[0])) {
      CompressIdempotent(t[1..]);
      IdempotentPlain(t);
    } else if t[1].signal != Begin(Enum) {
      CompressIdempotent(t[2..]);
      IdempotentOther(t);
    } else {
      var b := EnumBody(t[2..], t[0].encoding.constValue.value.text).value;
      CompressIdempotent(t[2 + b.used..]);
      IdempotentEnum(t);
    }
  }

  lemma IdempotentPlain(t: seq<Token>)
    requires t != [] && !(t[0].signal == Begin(Field) && IsConstantEncoding(t[0]))
    requires Compress(t[1..]).Some? && Compress(Compress(t[1..]).value) == Compress(t[1..])
    ensures Compress(Compress(t).value) == Compress(t)
  {
    var u := Compress(t).value;
    assert u[0] == t[0] && u[1..] == Compress(t[1..]).value;
  }

  lemma IdempotentOther(t: seq<Token>)
    requires |t| >= 2 && t[0].signal == Begin(Field) && IsConstantEncoding(t[0]) && t[1].signal != Begin(Enum)
    requires Compress(t[2..]).Some? && Compress(Compress(t[2..]).value) == Compress(t[2..])
    ensures Compress(Compress(t).value) == Compress(t)
  {
    var u := Compress(t).value;
    assert u[..2] == t[..2] && u[2..] == Compress(t[2..]).value;
  }

  lemma IdempotentEnum(t: seq<Token>)
    requires ConstantEnumField(t) && t[0].encoding.constValue.Some?
    requires EnumBody(t[2..], t[0].encoding.constValue.value.text).Some?
    requires var b := EnumBody(t[2..], t[0].encoding.constValue.value.text).value;
      Compress(t[2 + b.used..]).Some? && Compress(Compress(t[2 + b.used..]).value) == Compress(t[2 + b.used..])
    ensures Compress(t).Some?
    ensures Compress(Compress(t).value) == Compress(t)
  {
    var valueRef := t[0].encoding.constValue.value.text;
    var b := EnumBody(t[2..], valueRef).value;
    var rest := Compress(t[2 + b.used..]).value;
    var head := [t[0], t[1].(encodedLength := 0)];
    EnumStep(t, t[2 + b.used..]);
    KeptIsConstant(t[2..], valueRef);
    EnumBodyStable(b.kept, rest, valueRef);
    Recompress(head + b.kept + rest, head, b.kept, rest, valueRef);
  }

  /** A compressed constant enum field, followed by anything, is walked past in one step and kept whole. */
  lemma Recompress(u: seq<Token>, head: seq<Token>, kept: seq<Token>, rest: seq<Token>, valueRef: string)
    requires u == head + kept + rest && |head| == 2
    requires head[0].signal == Begin(Field) && IsConstantEncoding(head[0]) && head[0].encoding.constValue.Some?
    requires valueRef == head[0].encoding.constValue.value.text
    requires head[1].signal == Begin(Enum) && head[1].encodedLength == 0
    requires EnumBody(kept + rest, valueRef) == Some(Body(kept, |kept|))
    ensures Compress(u) == Prepend(head + kept, Compress(rest))
  {
    assert u[2..] == kept + rest;
    assert u[2 + |kept|..] == rest;
    assert [u[0], u[1].(encodedLength := 0)] == head;
    EnumStep(u, rest);
  }

  lemma KeptIsConstant(s: seq<Token>, valueRef: string)
    requires EnumBody(s, valueRef).Some?
    ensures var kept := EnumBody(s, valueRef).value.kept;
      && |kept| >= 1 && kept[|kept| - 1].signal == End(Enum)
      && (forall y :: 0 <= y < |kept| ==> kept[y] == Constantise(kept[y]))
      && (forall y :: 0 <= y < |kept| - 1 ==> EndsWith(valueRef, kept[y].name) && kept[y].signal != End(Enum))
  {
    EnumBodyKeeps(s, valueRef);
    var kept := EnumBody(s, valueRef).value.kept;
    forall y | 0 <= y < |kept| ensures kept[y] == Constantise(kept[y]) {
    }
  }
}

=== FILE: frame_codec_decoder.dfy ===
/**
  The decoder of the frame that heads a serialised IR (FrameCodecDecoder):
  a 12-byte block of three little-endian int32 fields, followed by three
  var-data fields read one after the other from a moving `limit` cursor.
 */
module FrameCodecDecoding {
  import opened Wire

  const SbeBlockLength: int := 12
  const SbeTemplateId: int := 1
  const SbeSchemaId: int := 1
  const SbeSchemaVersion: int := 0

  /** The fixed block of a frame, field by field. */
  datatype FrameBlock = FrameBlock(irId: int32, irVersion: int32, schemaVersion: int32)

  /** The block read at `at`: int32s at +0, +4 and +8. */
  function DecodeBlock(bytes: seq<byte>, at: int): FrameBlock
    requires 0 <= at && at + SbeBlockLength <= |bytes|
  {
    FrameBlock(
      LEToInt32(bytes[at..at + 4]),
      LEToInt32(bytes[at + 4..at + 8]),
      LEToInt32(bytes[at + 8..at + 12]))
  }

  /** The fixed fields as appendTo writes them. */
  function FixedText(b: FrameBlock): seq<Part> {
    Field("irId", Number(b.irId as int))
    + Field("irVersion", Number(b.irVersion as int))
    + Field("schemaVersion", Number(b.schemaVersion as int))
  }

  /** The var-data fields in their declared order. */
  const VarDataNames: seq<string> := ["packageName", "namespaceName", "semanticVersion"]

  /** What appendTo writes for a frame block and its var-data fields. */
  function FrameText(actingVersion: int, actingBlockLength: int, b: FrameBlock, fields: seq<seq<byte>>): seq<Part>
    requires |fields| == |VarDataNames|
  {
    Header("FrameCodec", SbeTemplateId, SbeSchemaId, SbeSchemaVersion, SbeBlockLength, actingVersion, actingBlockLength)
    + FixedText(b) + VarText(VarDataNames, fields, |VarDataNames|)
  }

  /** What appendTo writes for the frame at `offset` read with the given acting block length and version. */
  function Rendered(bytes: seq<byte>, offset: int, actingBlockLength: int, actingVersion: int): seq<Part>
    requires 0 <= offset && offset + SbeBlockLength <= |bytes|
    requires FieldsFit(bytes, offset + actingBlockLength, |VarDataNames|)
  {
    FrameText(actingVersion, actingBlockLength, DecodeBlock(bytes, offset),
      ReadFields(bytes, offset + actingBlockLength, |VarDataNames|).0)
  }

  /** The 12 bytes of a frame block in the layout the decoder reads. */
  function EncodeBlock(b: FrameBlock): (r: seq<byte>)
    ensures |r| == SbeBlockLength
    ensures r[0..4] == Int32ToLE(b.irId) && r[4..8] == Int32ToLE(b.irVersion)
    ensures r[8..12] == Int32ToLE(b.schemaVersion)
  {
    Int32ToLE(b.irId) + Int32ToLE(b.irVersion) + Int32ToLE(b.schemaVersion)
  }

  /**
    A frame laid out as its block followed by the frames of its three
    var-data fields decodes to the same block and fields, and appendTo shows
    exactly those values.
   */
  lemma FrameRoundTrip(bytes: seq<byte>, at: int, b: FrameBlock, fields: seq<seq<byte>>)
    requires |fields| == |VarDataNames| && AllFit(fields)
    requires 0 <= at && at + SbeBlockLength + |Frames(fields)| <= |bytes|
    requires bytes[at..at + SbeBlockLength] == EncodeBlock(b)
    requires bytes[at + SbeBlockLength..at + SbeBlockLength + |Frames(fields)|] == Frames(fields)
    ensures DecodeBlock(bytes, at) == b
    ensures FieldsFit(bytes, at + SbeBlockLength, |VarDataNames|)
    ensures ReadFields(bytes, at + SbeBlockLength, |VarDataNames|) == (fields, at + SbeBlockLength + |Frames(fields)|)
    ensures Rendered(bytes, at, SbeBlockLength, SbeSchemaVersion) == FrameText(SbeSchemaVersion, SbeBlockLength, b, fields)
  {
    SubSlice(bytes, at, SbeBlockLength, 0, 4);
    SubSlice(bytes, at, SbeBlockLength, 4, 8);
    SubSlice(bytes, at, SbeBlockLength, 8, 12);
    Int32RoundTrip(b.irId);
    Int32RoundTrip(b.irVersion);
    Int32RoundTrip(b.schemaVersion);
    ReadFramesOf(bytes, at + SbeBlockLength, fields);
  }

  class FrameCodecDecoder {
    var buffer: seq<byte>
    var offset: int
    var limit: int
    var actingBlockLength: int
    var actingVersion: int

    constructor()
      ensures buffer == [] && offset == 0 && limit == 0
      ensures actingBlockLength == 0 && actingVersion == 0
    {
      buffer := [];
      offset := 0;
      limit := 0;
      actingBlockLength := 0;
      actingVersion := 0;
    }

    /** FrameCodecDecoder.wrap: the var data starts just past the acting block. */
    method Wrap(buffer: seq<byte>, offset: int, actingBlockLength: int, actingVersion: int)
      modifies this
      ensures this.buffer == buffer && this.offset == offset
      ensures this.actingBlockLength == actingBlockLength && this.actingVersion == actingVersion
      ensures limit == offset + actingBlockLength
      ensures EncodedLength() == actingBlockLength
    {
      this.buffer := buffer;
      this.offset := offset;
      this.actingBlockLength := actingBlockLength;
      this.actingVersion := actingVersion;
      limit := offset + actingBlockLength;
    }

    function EncodedLength(): int
      reads this
    {
      limit - offset
    }

    function IrId(): (r: int32)
      reads this
      requires 0 <= offset && offset + 4 <= |buffer|
      ensures Int32ToLE(r) == buffer[offset..offset + 4]
    {
      GetInt32(buffer, offset)
    }

    function IrVersion(): (r: int32)
      reads this
      requires 0 <= offset + 4 && offset + 8 <= |buffer|
      ensures Int32ToLE(r) == buffer[offset + 4..offset + 8]
    {
      GetInt32(buffer, offset + 4)
    }

    function SchemaVersion(): (r: int32)
      reads this
      requires 0 <= offset + 8 && offset + 12 <= |buffer|
      ensures Int32ToLE(r) == buffer[offset + 8..offset + 12]
    {
      GetInt32(buffer, offset + 8)
    }

    /** packageNameLength() and the other *Length(): the uint16 header at the cursor, which stays put. */
    function VarDataLength(): (r: int)
      reads this
      requires 0 <= limit && limit + HeaderLength <= |buffer|
      ensures 0 <= r < 0x1_0000 && Uint16ToLE(r) == buffer[limit..limit + HeaderLength]
    {
      Uint16BytesRoundTrip(buffer[limit..limit + HeaderLength]);
      LEToUint16(buffer[limit..limit + HeaderLength])
    }

    /**
      getPackageName(dst, dstOffset, length) and the other get*(byte[], ...):
      copies min(length, dataLength) payload bytes, and moves the cursor
      past the whole field whatever was copied.
     */
    method GetVarData(dst: array<byte>, dstOffset: int, length: int) returns (bytesCopied: int)
      requires 0 <= length && 0 <= limit && limit + HeaderLength <= |buffer|
      requires limit + HeaderLength + Min(length, VarDataLength()) <= |buffer|
      requires 0 <= dstOffset && dstOffset + Min(length, VarDataLength()) <= dst.Length
      modifies this`limit, dst
      ensures bytesCopied == Min(length, LEToUint16(buffer[old(limit)..old(limit) + HeaderLength])) && 0 <= bytesCopied
      ensures limit == old(limit) + HeaderLength + LEToUint16(buffer[old(limit)..old(limit) + HeaderLength])
      ensures dst[..] == Splice(old(dst[..]), dstOffset, buffer[old(limit) + HeaderLength..old(limit) + HeaderLength + bytesCopied])
    {
      ghost var original := dst[..];
      var headerLength := HeaderLength;
      var start := limit;
      var dataLength := VarDataLength();
      bytesCopied := Min(length, dataLength);
      limit := start + headerLength + dataLength;
      var from := start + headerLength;
      var k := 0;
      while k < bytesCopied
        invariant 0 <= k <= bytesCopied
        invariant limit == start + headerLength + dataLength
        invariant forall i :: dstOffset <= i < dstOffset + k ==> dst[i] == buffer[from + (i - dstOffset)]
        invariant forall i :: 0 <= i < dst.Length && !(dstOffset <= i < dstOffset + k) ==> dst[i] == original[i]
      {
        dst[dstOffset + k] := buffer[from + k];
        k := k + 1;
      }
      SpliceOf(original, dstOffset, buffer[from..from + bytesCopied], dst[..]);
    }

    /**
      packageName() and the other var-data readers: the payload of the field
      at the cursor, with the cursor moved just past it.
     */
    method VarData() returns (value: seq<byte>)
      requires VarFieldFits(buffer, limit)
      modifies this`limit
      ensures (value, limit) == ReadVarField(buffer, old(limit))
    {
      var headerLength := HeaderLength;
      var start := limit;
      var dataLength := VarDataLength();
      limit := start + headerLength + dataLength;
      value := buffer[start + headerLength..start + headerLength + dataLength];
    }

    /** The fixed fields of appendTo, read from the block. */
    method AppendFixed(builder: Builder)
      requires 0 <= offset && offset + SbeBlockLength <= |buffer|
      modifies builder
      ensures builder.parts == old(builder.parts) + FixedText(DecodeBlock(buffer, offset))
    {
      var text := Field("irId", Number(IrId() as int));
      text := text + Field("irVersion", Number(IrVersion() as int));
      text := text + Field("schemaVersion", Number(SchemaVersion() as int));
      builder.parts := builder.parts + text;
    }

    /**
      The var-data fields of appendTo, read in their declared order from the
      cursor; only the last one has no separator after it.
     */
    method AppendVarFields(builder: Builder)
      requires FieldsFit(buffer, limit, |VarDataNames|)
      modifies this`limit, builder
      ensures builder.parts == old(builder.parts) + VarText(VarDataNames, ReadFields(buffer, old(limit), |VarDataNames|).0, |VarDataNames|)
    {
      ghost var start := limit;
      ghost var fields := ReadFields(buffer, start, |VarDataNames|).0;
      ghost var starts := Starts(buffer, start, |VarDataNames|);
      var i := 0;
      while i < |VarDataNames|
        invariant 0 <= i <= |VarDataNames|
        invariant limit == starts[i]
        invariant builder.parts == old(builder.parts) + VarText(VarDataNames, fields, i)
      {
        FieldAt(buffer, start, |VarDataNames|, i);
        var name := VarDataNames[i];
        var value := VarData();
        var piece := if i + 1 == |VarDataNames| then LastField(name, Data(value)) else Field(name, Data(value));
        VarTextGrows(old(builder.parts), VarDataNames, fields, i);
        builder.parts := builder.parts + piece;
        i := i + 1;
      }
    }

    /**
      FrameCodecDecoder.appendTo: reads the var data from the acting block's
      end, writes the header and every field, and puts the caller's cursor
      back.
     */
    method AppendTo(builder: Builder)
      requires 0 <= offset && offset + SbeBlockLength <= |buffer|
      requires FieldsFit(buffer, offset + actingBlockLength, |VarDataNames|)
      modifies this`limit, builder
      ensures limit == old(limit)
      ensures builder.parts == old(builder.parts) + Rendered(buffer, offset, actingBlockLength, actingVersion)
    {
      ghost var before := builder.parts;
      var originalLimit := limit;
      limit := offset + actingBlockLength;
      var header := Header("FrameCodec", SbeTemplateId, SbeSchemaId, SbeSchemaVersion, SbeBlockLength,
                           actingVersion, actingBlockLength);
      builder.parts := builder.parts + header;
      AppendFixed(builder);
      AppendVarFields(builder);
      ghost var fixed := FixedText(DecodeBlock(buffer, offset));
      Regroup(before, header, fixed);
      Regroup(before, header + fixed,
        VarText(VarDataNames, ReadFields(buffer, offset + actingBlockLength, |VarDataNames|).0, |VarDataNames|));
      limit := originalLimit;
    }
  }
}

=== FILE: generation_util.dfy ===
/**
  The token-range utilities the code generators share (GenerationUtil):
  collecting consecutive constructs of one signal, the body of a message,
  concatenating mapped tokens of one signal and finding an end token.
 */
module GenerationUtil {
  import opened Tokens
  import Spans
  import Capture

  /** A caller's list that `collect` appends to in place. */
  class TokenList {
    var items: seq<Token>

    constructor()
      ensures items == []
    {
      items := [];
    }
  }

  // ---------------------------------------------------------------------
  // collect

  /** Integer.MAX_VALUE: Java list sizes and indices are ints. */
  const MaxInt: int := 0x7fff_ffff

  /**
    The walk of `collect` from `index` terminates: every construct it jumps
    over has a positive token count, and the int `index + tokenCount` does
    not overflow. (A count of zero or less, or a sum past Integer.MAX_VALUE,
    which wraps to a negative limit, makes the source loop forever.)
   */
  predicate Walkable(signal: Signal, tokens: seq<Token>, index: nat)
    decreases |tokens| - index
  {
    || index >= |tokens|
    || tokens[index].signal != signal
    || (&& tokens[index].componentTokenCount >= 1
        && index + tokens[index].componentTokenCount <= MaxInt
        && (|| index + tokens[index].componentTokenCount > |tokens|
            || Walkable(signal, tokens, index + tokens[index].componentTokenCount)))
  }

  /**
    Where the walk of `collect` stops: the first construct start that lacks
    the signal, or the end of the list; None where a construct's count runs
    past the end of the list (the source then fails on the list access).
   */
  function WalkEnd(signal: Signal, tokens: seq<Token>, index: nat): (r: Option<nat>)
    requires Walkable(signal, tokens, index)
    ensures r.Some? ==> index <= r.value && (index <= |tokens| ==> r.value <= |tokens|)
    ensures r.Some? && r.value < |tokens| ==> tokens[r.value].signal != signal
    decreases |tokens| - index
  {
    if index >= |tokens| || tokens[index].signal != signal then Some(index)
    else if index + tokens[index].componentTokenCount > |tokens| then None
    else WalkEnd(signal, tokens, index + tokens[index].componentTokenCount)
  }

  /** The tokens from `from` up to `to`, or nothing when `from` is past the end. */
  function Taken(tokens: seq<Token>, from: nat, to: nat): seq<Token> {
    if from <= to <= |tokens| then tokens[from..to] else []
  }

  /**
    GenerationUtil.collect: appends the consecutive constructs with `signal`
    starting at `index` to `collected` and returns the index just past them.
    On a construct that runs past the end of the list the source fails after
    appending the tokens up to the end; that outcome is None.
   */
  method Collect(signal: Signal, tokens: seq<Token>, index: nat, collected: TokenList) returns (r: Option<nat>)
    requires Walkable(signal, tokens, index)
    modifies collected
    ensures r == WalkEnd(signal, tokens, index)
    ensures r.Some? ==> collected.items == old(collected.items) + Taken(tokens, index, r.value)
    ensures r.None? ==> collected.items == old(collected.items) + tokens[index..]
    ensures index < |tokens| && tokens[index].signal != signal ==> collected.items == old(collected.items)
  {
    var i := index;
    while i < |tokens|
      invariant index <= i
      invariant index <= |tokens| ==> i <= |tokens|
      invariant index > |tokens| ==> i == index
      invariant Walkable(signal, tokens, i)
      invariant WalkEnd(signal, tokens, i) == WalkEnd(signal, tokens, index)
      invariant collected.items == old(collected.items) + Taken(tokens, index, i)
      decreases |tokens| - i
    {
      var token := tokens[i];
      if signal != token.signal {
        break;
      }
      var tokenCount := token.componentTokenCount;
      var start := i;
      var limit := i + tokenCount;
      var reached := AppendSpan(tokens, start, limit, collected);
      WalkStep(signal, tokens, index, start);
      if !reached {
        Assoc(old(collected.items), Taken(tokens, index, start), tokens[start..]);
        return None;
      }
      Assoc(old(collected.items), Taken(tokens, index, start), tokens[start..limit]);
      i := limit;
    }
    r := Some(i);
  }

  lemma Assoc(a: seq<Token>, b: seq<Token>, c: seq<Token>)
    ensures a + b + c == a + (b + c)
  {
  }

  /** One construct of the walk: where it continues, or how it fails, and what has been taken. */
  lemma WalkStep(signal: Signal, tokens: seq<Token>, index: nat, i: nat)
    requires index <= i < |tokens| && tokens[i].signal == signal && Walkable(signal, tokens, i)
    ensures var limit := i + tokens[i].componentTokenCount;
      && (limit > |tokens| ==> WalkEnd(signal, tokens, i) == None && Taken(tokens, index, i) + tokens[i..] == tokens[index..])
      && (limit <= |tokens| ==>
            && Walkable(signal, tokens, limit)
            && WalkEnd(signal, tokens, limit) == WalkEnd(signal, tokens, i)
            && Taken(tokens, index, i) + tokens[i..limit] == Taken(tokens, index, limit))
  {
    assert tokens[index..i] + tokens[i..] == tokens[index..];
    var limit := i + tokens[i].componentTokenCount;
    if limit <= |tokens| {
      assert tokens[index..i] + tokens[i..limit] == tokens[index..limit];
    }
  }

  /**
    The inner loop of `collect`: appends tokens[start..limit] one at a time,
    failing at the end of the list when the construct runs past it. `limit`
    is an int, so it lies within Integer.MAX_VALUE.
   */
  method AppendSpan(tokens: seq<Token>, start: nat, limit: int, collected: TokenList) returns (reached: bool)
    requires start < |tokens| && start < limit <= MaxInt
    modifies collected
    ensures reached <==> limit <= |tokens|
    ensures reached ==> collected.items == old(collected.items) + tokens[start..limit]
    ensures !reached ==> collected.items == old(collected.items) + tokens[start..]
  {
    var i := start;
    while i < limit
      invariant start <= i <= |tokens| && i <= limit
      invariant collected.items == old(collected.items) + tokens[start..i]
      decreases limit - i
    {
      if i >= |tokens| {
        return false;
      }
      collected.items := collected.items + [tokens[i]];
      assert tokens[start..i + 1] == tokens[start..i] + [tokens[i]];
      i := i + 1;
    }
    reached := true;
  }

  /** GenerationUtil.collectFields: `collect` with BEGIN_FIELD. */
  method CollectFields(tokens: seq<Token>, index: nat, fields: TokenList) returns (r: Option<nat>)
    requires Walkable(Begin(Field), tokens, index)
    modifies fields
    ensures r == WalkEnd(Begin(Field), tokens, index)
    ensures r.Some? ==> fields.items == old(fields.items) + Taken(tokens, index, r.value)
    ensures r.None? ==> fields.items == old(fields.items) + tokens[index..]
  {
    r := Collect(Begin(Field), tokens, index, fields);
  }

  /** GenerationUtil.collectGroups: `collect` with BEGIN_GROUP. */
  method CollectGroups(tokens: seq<Token>, index: nat, groups: TokenList) returns (r: Option<nat>)
    requires Walkable(Begin(Group), tokens, index)
    modifies groups
    ensures r == WalkEnd(Begin(Group), tokens, index)
    ensures r.Some? ==> groups.items == old(groups.items) + Taken(tokens, index, r.value)
    ensures r.None? ==> groups.items == old(groups.items) + tokens[index..]
  {
    r := Collect(Begin(Group), tokens, index, groups);
  }

  /** GenerationUtil.collectVarData: `collect` with BEGIN_VAR_DATA. */
  method CollectVarData(tokens: seq<Token>, index: nat, varData: TokenList) returns (r: Option<nat>)
    requires Walkable(Begin(VarData), tokens, index)
    modifies varData
    ensures r == WalkEnd(Begin(VarData), tokens, index)
    ensures r.Some? ==> varData.items == old(varData.items) + Taken(tokens, index, r.value)
    ensures r.None? ==> varData.items == old(varData.items) + tokens[index..]
  {
    r := Collect(Begin(VarData), tokens, index, varData);
  }

  /**
    Every BEGIN token's count is at least one, its span lies within the list
    and ends in the END token of its kind: what span counting establishes.
   */
  ghost predicate SpansFit(u: seq<Token>) {
    forall i :: 0 <= i < |u| && u[i].signal.Begin? ==>
      && 1 <= u[i].componentTokenCount
      && i + u[i].componentTokenCount <= |u|
      && u[i + u[i].componentTokenCount - 1].signal == End(u[i].signal.kind)
  }

  /** A counted list in which every construct is closed has fitting spans. */
  lemma CountedSpansFit(tokens: seq<Token>)
    requires Spans.Count(tokens).Some? && Spans.Closed(Signals(tokens))
    ensures SpansFit(Spans.Count(tokens).value)
  {
    var u := Spans.Count(tokens).value;
    Spans.CountKeepsShape(tokens);
    forall i | 0 <= i < |u| && u[i].signal.Begin?
      ensures 1 <= u[i].componentTokenCount
      ensures i + u[i].componentTokenCount <= |u|
      ensures u[i + u[i].componentTokenCount - 1].signal == End(u[i].signal.kind)
    {
      assert Signals(u)[i] == Signals(tokens)[i];
      Spans.CountSpansFit(tokens, i);
      var last := i + u[i].componentTokenCount - 1;
      assert Signals(u)[last] == Signals(tokens)[last];
    }
  }

  /**
    Over fitting spans, collecting BEGIN constructs terminates and succeeds,
    and a non-empty collection ends with the END token of the construct kind.
   */
  lemma {:induction false} WalkOverSpans(k: Component, u: seq<Token>, index: nat)
    requires SpansFit(u) && |u| <= MaxInt
    ensures Walkable(Begin(k), u, index)
    ensures WalkEnd(Begin(k), u, index).Some?
    ensures var r := WalkEnd(Begin(k), u, index).value;
      index < r ==> u[r - 1].signal == End(k)
    decreases |u| - index
  {
    if index < |u| && u[index].signal == Begin(k) {
      var next := index + u[index].componentTokenCount;
      WalkOverSpans(k, u, next);
    }
  }

  /**
    Collecting fields, groups or var data from a message list after span
    counting never runs off the list, and stops just past an END token.
   */
  lemma CollectAfterCount(tokens: seq<Token>, k: Component, index: nat)
    requires Spans.Count(tokens).Some? && Spans.Closed(Signals(tokens)) && |tokens| <= MaxInt
    ensures var u := Spans.Count(tokens).value;
      && Walkable(Begin(k), u, index)
      && WalkEnd(Begin(k), u, index).Some?
      && (index < WalkEnd(Begin(k), u, index).value ==> u[WalkEnd(Begin(k), u, index).value - 1].signal == End(k))
  {
    CountedSpansFit(tokens);
    WalkOverSpans(k, Spans.Count(tokens).value, index);
  }

  // ---------------------------------------------------------------------
  // getMessageBody

  /**
    GenerationUtil.getMessageBody: the list without its first and last
    tokens; None where the sub-list bounds are invalid (fewer than two tokens).
   */
  function GetMessageBody(tokens: seq<Token>): (r: Option<seq<Token>>)
    ensures r.Some? <==> |tokens| >= 2
    ensures r.Some? ==> |r.value| == |tokens| - 2 && tokens == [tokens[0]] + r.value + [tokens[|tokens| - 1]]
  {
    if |tokens| < 2 then None else Some(tokens[1..|tokens| - 1])
  }

  // ---------------------------------------------------------------------
  // concatTokens

  /** The tokens with the signal, in order. */
  function Filter(tokens: seq<Token>, signal: Signal): (r: seq<Token>)
    ensures |r| <= |tokens|
    ensures forall t :: t in r <==> t in tokens && t.signal == signal
    ensures |tokens| == 1 ==> r == if tokens[0].signal == signal then tokens else []
    decreases |tokens|
  {
    if tokens == [] then []
    else (if tokens[0].signal == signal then [tokens[0]] else []) + Filter(tokens[1..], signal)
  }

  /** Filtering keeps each token with the signal as often as it occurs. */
  lemma {:induction false} FilterCounts(tokens: seq<Token>, signal: Signal, t: Token)
    requires t.signal == signal
    ensures multiset(Filter(tokens, signal))[t] == multiset(tokens)[t]
    decreases |tokens|
  {
    if tokens != [] {
      assert tokens == [tokens[0]] + tokens[1..];
      FilterCounts(tokens[1..], signal, t);
    }
  }

  /** The mapped tokens joined with no separator. */
  function MapJoin(tokens: seq<Token>, mapper: Token -> string): string
    decreases |tokens|
  {
    if tokens == [] then "" else mapper(tokens[0]) + MapJoin(tokens[1..], mapper)
  }

  /** GenerationUtil.concatTokens: the tokens with the signal, mapped, then joined. */
  function ConcatTokens(tokens: seq<Token>, signal: Signal, mapper: Token -> string): string {
    MapJoin(Filter(tokens, signal), mapper)
  }

  /** GenerationUtil.concatEncodingTokens: concatTokens over ENCODING tokens. */
  function ConcatEncodingTokens(tokens: seq<Token>, mapper: Token -> string): string {
    ConcatTokens(tokens, EncodingSignal, mapper)
  }

  lemma {:induction false} FilterAppend(a: seq<Token>, b: seq<Token>, signal: Signal)
    ensures Filter(a + b, signal) == Filter(a, signal) + Filter(b, signal)
    decreases |a|
  {
    if a != [] {
      assert (a + b)[1..] == a[1..] + b;
      FilterAppend(a[1..], b, signal);
    } else {
      assert a + b == b;
    }
  }

  lemma {:induction false} MapJoinAppend(a: seq<Token>, b: seq<Token>, mapper: Token -> string)
    ensures MapJoin(a + b, mapper) == MapJoin(a, mapper) + MapJoin(b, mapper)
    decreases |a|
  {
    if a != [] {
      assert (a + b)[1..] == a[1..] + b;
      MapJoinAppend(a[1..], b, mapper);
    } else {
      assert a + b == b;
    }
  }

  /**
    concatTokens distributes over list concatenation, a single token
    contributes its mapped text when it has the signal and nothing otherwise.
   */
  lemma ConcatTokensSpec(a: seq<Token>, b: seq<Token>, t: Token, signal: Signal, mapper: Token -> string)
    ensures ConcatTokens(a + b, signal, mapper) == ConcatTokens(a, signal, mapper) + ConcatTokens(b, signal, mapper)
    ensures ConcatTokens([t], signal, mapper) == if t.signal == signal then mapper(t) else ""
    ensures ConcatTokens([], signal, mapper) == ""
  {
    FilterAppend(a, b, signal);
    MapJoinAppend(Filter(a, signal), Filter(b, signal), mapper);
    assert [t][1..] == [];
    if t.signal == signal {
      assert Filter([t], signal) == [t];
      assert MapJoin([t], mapper) == mapper(t) + "";
    }
  }

  // ---------------------------------------------------------------------
  // findEndSignal

  predicate Matches(t: Token, signal: Signal, name: string) {
    t.signal == signal && t.name == name
  }

  /** The answer of findEndSignal: the first match in [i, size - 1), else size - 1. */
  function EndSignalIndex(tokens: seq<Token>, i: nat, signal: Signal, name: string): int
    decreases |tokens| - i
  {
    if i + 1 >= |tokens| then |tokens| - 1
    else if Matches(tokens[i], signal, name) then i
    else EndSignalIndex(tokens, i + 1, signal, name)
  }

  /**
    findEndSignal returns the smallest index in [start, size - 1) whose
    token has the signal and the name, and size - 1 when there is none: the
    last token is never inspected.
   */
  lemma {:induction false} EndSignalIndexSpec(tokens: seq<Token>, start: nat, signal: Signal, name: string)
    ensures var r := EndSignalIndex(tokens, start, signal, name);
      || (&& start <= r < |tokens| - 1
          && Matches(tokens[r], signal, name)
          && forall j :: start <= j < r ==> !Matches(tokens[j], signal, name))
      || (&& r == |tokens| - 1
          && forall j :: start <= j < |tokens| - 1 ==> !Matches(tokens[j], signal, name))
    decreases |tokens| - start
  {
    if start + 1 < |tokens| && !Matches(tokens[start], signal, name) {
      EndSignalIndexSpec(tokens, start + 1, signal, name);
    }
  }

  /**
    findEndSignal agrees with the end-token search of type capture, except
    that a match on the last token is not seen and an empty list gives -1.
   */
  lemma {:induction false} EndSignalIndexVsCapture(tokens: seq<Token>, start: nat, signal: Signal, name: string)
    ensures EndSignalIndex(tokens, start, signal, name) ==
      match Capture.FindFrom(tokens, start, signal, name)
      case Some(m) => if m < |tokens| - 1 then m else |tokens| - 1
      case None => |tokens| - 1
    decreases |tokens| - start
  {
    if start + 1 < |tokens| && !Matches(tokens[start], signal, name) {
      EndSignalIndexVsCapture(tokens, start + 1, signal, name);
    }
  }

  /** GenerationUtil.findEndSignal. */
  method FindEndSignal(tokens: seq<Token>, startIndex: nat, signal: Signal, name: string) returns (result: int)
    ensures result == EndSignalIndex(tokens, startIndex, signal, name)
  {
    result := |tokens| - 1;
    var i := startIndex;
    var endIndex := |tokens| - 1;
    while i < endIndex
      invariant startIndex <= i
      invariant EndSignalIndex(tokens, i, signal, name) == EndSignalIndex(tokens, startIndex, signal, name)
      decreases endIndex - i
    {
      var token := tokens[i];
      if signal == token.signal && name == token.name {
        result := i;
        break;
      }
      i := i + 1;
    }
  }
}

=== FILE: ir.dfy ===
/**
  The intermediate representation container (class Ir): schema identity,
  the header tokens, the namespaces for generated code, the messages by id
  and the types by name.

  Adding a message runs three passes over its tokens: type capture (which
  writes the type map), constant-enum compression and span counting. The
  processed copy is stored under the message id.
 */
module IrModel {
  import opened Tokens
  import Capture
  import Compress
  import Spans

  // ---------------------------------------------------------------------
  // Namespace splitting.

  /** The pieces of s between dots, empty pieces included; one more piece than there are dots. */
  function Fields(s: string): (parts: seq<string>)
    ensures |parts| >= 1
    decreases |s|
  {
    if s == [] then [[]]
    else
      var rest := Fields(s[1..]);
      if s[0] == '.' then [[]] + rest else [[s[0]] + rest[0]] + rest[1..]
  }

  /** The pieces joined back with a dot between neighbours. */
  function JoinDots(parts: seq<string>): string
    requires |parts| >= 1
    decreases |parts|
  {
    if |parts| == 1 then parts[0] else parts[0] + "." + JoinDots(parts[1..])
  }

  /** Splitting on dots loses nothing: joining the pieces gives back the string, and no piece has a dot. */
  lemma {:induction false} FieldsJoin(s: string)
    ensures JoinDots(Fields(s)) == s
    ensures forall p :: 0 <= p < |Fields(s)| ==> '.' !in Fields(s)[p]
    decreases |s|
  {
    if s != [] {
      var rest := Fields(s[1..]);
      FieldsJoin(s[1..]);
      if s[0] == '.' {
        assert Fields(s)[1..] == rest;
      } else {
        assert Fields(s)[1..] == rest[1..];
        if |rest| == 1 {
          assert JoinDots(Fields(s)) == [s[0]] + rest[0];
        } else {
          assert JoinDots(rest) == rest[0] + "." + JoinDots(rest[1..]);
        }
        forall p | 0 <= p < |Fields(s)| ensures '.' !in Fields(s)[p] {
          if p > 0 {
            assert Fields(s)[p] == rest[p];
          }
        }
      }
      assert [s[0]] + s[1..] == s;
    }
  }

  /** Drops the empty pieces at the end, as a split with limit 0 does. */
  function DropTrailingEmpty(parts: seq<string>): (r: seq<string>)
    ensures |r| <= |parts| && r == parts[..|r|]
    ensures r != [] ==> r[|r| - 1] != []
    ensures forall p :: |r| <= p < |parts| ==> parts[p] == []
    decreases |parts|
  {
    if parts == [] || parts[|parts| - 1] != [] then parts
    else DropTrailingEmpty(parts[..|parts| - 1])
  }

  /**
    A regular-expression split on "\\." with limit 0: a string without a dot
    is its own single piece (even when empty); otherwise the pieces between
    dots, without the empty ones at the end.
   */
  function SplitOnDots(s: string): seq<string> {
    if '.' !in s then [s] else DropTrailingEmpty(Fields(s))
  }

  /** Every dot replaced by an underscore. */
  function ReplaceDots(s: string): (r: string)
    ensures |r| == |s| && '.' !in r
    ensures forall c :: 0 <= c < |s| && s[c] != '.' ==> r[c] == s[c]
  {
    seq(|s|, c requires 0 <= c < |s| => if s[c] == '.' then '_' else s[c])
  }

  /** The namespaces for generated code: one collapsed name, or the dot-separated pieces. */
  function Namespaces(applicable: string, collapse: bool): seq<string> {
    if collapse then [ReplaceDots(applicable)] else SplitOnDots(applicable)
  }

  /**
    The split namespaces have no dots; unless the name ends in a dot they
    join back to the name, and a name without dots is the only namespace.
   */
  lemma SplitOnDotsSpec(s: string)
    ensures forall p :: 0 <= p < |SplitOnDots(s)| ==> '.' !in SplitOnDots(s)[p]
    ensures (s == [] || s[|s| - 1] != '.') ==> |SplitOnDots(s)| >= 1 && JoinDots(SplitOnDots(s)) == s
    ensures '.' !in s ==> SplitOnDots(s) == [s]
  {
    FieldsJoin(s);
    if '.' in s && s[|s| - 1] != '.' {
      LastFieldNonEmpty(s);
    }
  }

  lemma {:induction false} LastFieldNonEmpty(s: string)
    requires s != [] && s[|s| - 1] != '.'
    ensures Fields(s)[|Fields(s)| - 1] != []
    decreases |s|
  {
    if |s| > 1 {
      LastFieldNonEmpty(s[1..]);
    }
  }

  // ---------------------------------------------------------------------
  // The passes of addMessage after capture.

  /** Compression, then span counting; None where either pass throws. */
  function Normalise(t: seq<Token>): Option<seq<Token>> {
    match Compress.Compress(t)
    case None => None
    case Some(u) => Spans.Count(u)
  }

  /** The applicable namespace: the namespace name if there is one, else the package name. */
  function Applicable(packageName: string, namespaceName: Option<string>): string {
    if namespaceName.Some? then namespaceName.value else packageName
  }

  class Ir {
    const packageName: string
    const namespaceName: Option<string>
    const id: int
    const version: int
    const semanticVersion: Option<string>
    const headerTokens: seq<Token>
    const namespaces: seq<string>
    var messagesById: map<int, seq<Token>>
    var typesByName: map<string, seq<Token>>

    /**
      A new container with no messages and no types. `collapseNamespaces`
      stands for the system property that selects one collapsed namespace.
     */
    constructor(packageName: string, namespaceName: Option<string>, id: int, version: int,
                semanticVersion: Option<string>, headerTokens: seq<Token>, collapseNamespaces: bool)
      ensures this.packageName == packageName && this.namespaceName == namespaceName
      ensures this.id == id && this.version == version && this.semanticVersion == semanticVersion
      ensures this.headerTokens == headerTokens
      ensures namespaces == Namespaces(Applicable(packageName, namespaceName), collapseNamespaces)
      ensures messagesById == map[] && typesByName == map[]
    {
      this.packageName := packageName;
      this.namespaceName := namespaceName;
      this.id := id;
      this.version := version;
      this.semanticVersion := semanticVersion;
      this.headerTokens := headerTokens;
      var applicable := if namespaceName.None? then packageName else namespaceName.value;
      if collapseNamespaces {
        this.namespaces := [ReplaceDots(applicable)];
      } else {
        this.namespaces := SplitOnDots(applicable);
      }
      messagesById := map[];
      typesByName := map[];
    }

    /** The namespace name, or the package name when there is none. */
    function ApplicableNamespace(): (r: string)
      ensures namespaceName.None? ==> r == packageName
      ensures namespaceName.Some? ==> r == namespaceName.value
    {
      if namespaceName.None? then packageName else namespaceName.value
    }

    /** The tokens of a message; None (the source's null) for an unknown id. */
    function GetMessage(messageId: int): (r: Option<seq<Token>>)
      reads this
      ensures r.Some? <==> messageId in messagesById
      ensures r.Some? ==> r.value == messagesById[messageId]
    {
      if messageId in messagesById then Some(messagesById[messageId]) else None
    }

    /** The tokens of a type; None (the source's null) for an unknown name. */
    function GetType(name: string): (r: Option<seq<Token>>)
      reads this
      ensures r.Some? <==> name in typesByName
      ensures r.Some? ==> r.value == typesByName[name]
    {
      if name in typesByName then Some(typesByName[name]) else None
    }

    /**
      Ir.captureType: grows the type from the begin token at `index` up to
      and including the first later token with `endSignal` and `name`, stores
      it under `name` and returns the end index; None where the source runs
      off the end of the list.
     */
    method CaptureType(tokens: seq<Token>, index: nat, endSignal: Signal, name: string) returns (r: Option<nat>)
      requires index < |tokens|
      modifies this`typesByName
      ensures r == Capture.FindEnd(tokens, index, endSignal, name)
      ensures r.Some? ==> typesByName == old(typesByName)[name := tokens[index..r.value + 1]]
      ensures r.None? ==> typesByName == old(typesByName)
    {
      var typeTokens := [tokens[index]];
      var i := index;
      while true
        invariant index <= i < |tokens|
        invariant typeTokens == tokens[index..i + 1]
        invariant Capture.FindEnd(tokens, index, endSignal, name) == Capture.FindFrom(tokens, i + 1, endSignal, name)
        decreases |tokens| - i
      {
        if i + 1 >= |tokens| {
          return None;
        }
        i := i + 1;
        var token := tokens[i];
        assert tokens[index..i + 1] == tokens[index..i] + [token];
        typeTokens := typeTokens + [token];
        if token.signal == endSignal && token.name == name {
          assert Capture.FindEnd(tokens, index, endSignal, name) == Some(i);
          break;
        }
      }
      typesByName := typesByName[name := typeTokens];
      r := Some(i);
    }

    /**
      Ir.captureTypes over [beginIndex, endIndex]: captures composites, enums
      and sets, recursing into the interior of composites. Returns false
      where the source throws; the types stored before that remain.
     */
    method CaptureTypes(tokens: seq<Token>, beginIndex: nat, endIndex: int) returns (ok: bool)
      requires beginIndex <= |tokens| && endIndex < |tokens|
      modifies this`typesByName
      ensures ok == Capture.Scan(tokens, beginIndex, endIndex).ok
      ensures typesByName == Capture.Store(old(typesByName), tokens, Capture.Scan(tokens, beginIndex, endIndex).entries)
      decreases |tokens| - beginIndex, 3
    {
      ghost var types0 := typesByName;
      ghost var done: seq<Capture.TypeEntry> := [];
      var i := beginIndex;
      Capture.ResumeStart(tokens, beginIndex, endIndex);
      while i <= endIndex
        invariant beginIndex <= i <= |tokens|
        invariant typesByName == Capture.Store(types0, tokens, done)
        invariant Capture.Resumes(tokens, beginIndex, endIndex, done, i)
        decreases |tokens| - i
      {
        var next, stepOk;
        next, stepOk, done := CaptureAt(tokens, beginIndex, endIndex, i, done, types0);
        if !stepOk {
          return false;
        }
        i := next;
      }
      Capture.ResumeDone(tokens, beginIndex, endIndex, done, i);
      ok := true;
    }

    /**
      One iteration of the loop of captureTypes, at index i of the scan over
      [b, end]: a token that begins no type is passed over; a type is
      captured, and the interior of a composite is scanned for nested types.
      `done` (ghost) holds the captures made so far.
     */
    method CaptureAt(tokens: seq<Token>, b: nat, end: int, i: nat, ghost done: seq<Capture.TypeEntry>,
                     ghost types0: map<string, seq<Token>>)
      returns (next: nat, ok: bool, ghost done': seq<Capture.TypeEntry>)
      requires b <= i <= end < |tokens|
      requires Capture.Resumes(tokens, b, end, done, i)
      requires typesByName == Capture.Store(types0, tokens, done)
      modifies this`typesByName
      ensures typesByName == Capture.Store(types0, tokens, done')
      ensures ok ==> i < next <= |tokens| && Capture.Resumes(tokens, b, end, done', next)
      ensures !ok ==> Capture.Scan(tokens, b, end) == Capture.Captured(done', false)
      decreases |tokens| - i, 2
    {
      var token := tokens[i];
      if !(token.signal.Begin? && Capture.IsTypeKind(token.signal.kind)) {
        Capture.StepSkip(tokens, b, end, done, i);
        return i + 1, true, done;
      }
      next, ok, done' := CaptureFound(tokens, b, end, i, done, types0);
    }

    /**
      The loop of captureTypes at a token that begins a composite, an enum
      or a set: the type is captured up to its end token, or the scan fails
      when there is none.
     */
    method CaptureFound(tokens: seq<Token>, b: nat, end: int, i: nat, ghost done: seq<Capture.TypeEntry>,
                        ghost types0: map<string, seq<Token>>)
      returns (next: nat, ok: bool, ghost done': seq<Capture.TypeEntry>)
      requires b <= i <= end < |tokens|
      requires tokens[i].signal.Begin? && Capture.IsTypeKind(tokens[i].signal.kind)
      requires Capture.Resumes(tokens, b, end, done, i)
      requires typesByName == Capture.Store(types0, tokens, done)
      modifies this`typesByName
      ensures typesByName == Capture.Store(types0, tokens, done')
      ensures ok ==> i < next <= |tokens| && Capture.Resumes(tokens, b, end, done', next)
      ensures !ok ==> Capture.Scan(tokens, b, end) == Capture.Captured(done', false)
      decreases |tokens| - i, 1
    {
      var token := tokens[i];
      var k := token.signal.kind;
      var found := CaptureType(tokens, i, End(k), token.name);
      if found.None? {
        Capture.StepMissing(tokens, b, end, done, i);
        return i, false, done;
      }
      var e := found.value;
      var entry := Capture.TypeEntry(token.name, i, e);
      Capture.StoreOne(types0, tokens, done, entry);
      if k == Composite {
        next, ok, done' := CaptureComposite(tokens, b, end, i, e, done, types0);
        return;
      }
      Capture.StepLeaf(tokens, b, end, done, i, e);
      return e + 1, true, done + [entry];
    }

    /**
      The composite case of the loop of captureTypes: the composite at i,
      whose end token is at e, is already stored; its interior is scanned
      for nested types and the loop resumes after e.
     */
    method CaptureComposite(tokens: seq<Token>, b: nat, end: int, i: nat, e: nat, ghost done: seq<Capture.TypeEntry>,
                            ghost types0: map<string, seq<Token>>)
      returns (next: nat, ok: bool, ghost done': seq<Capture.TypeEntry>)
      requires b <= i <= end < |tokens|
      requires Capture.Resumes(tokens, b, end, done, i)
      requires tokens[i].signal == Begin(Composite)
      requires Capture.FindEnd(tokens, i, End(Composite), tokens[i].name) == Some(e)
      requires typesByName == Capture.Store(types0, tokens, done + [Capture.TypeEntry(tokens[i].name, i, e)])
      modifies this`typesByName
      ensures typesByName == Capture.Store(types0, tokens, done')
      ensures ok ==> i < next <= |tokens| && Capture.Resumes(tokens, b, end, done', next)
      ensures !ok ==> Capture.Scan(tokens, b, end) == Capture.Captured(done', false)
      decreases |tokens| - i, 0
    {
      ghost var stored := typesByName;
      var innerOk := CaptureTypes(tokens, i + 1, e - 1);
      assert typesByName == Capture.Store(stored, tokens, Capture.Scan(tokens, i + 1, e - 1).entries);
      Capture.AfterComposite(tokens, b, end, done, i, e, types0, typesByName);
      done' := done + [Capture.TypeEntry(tokens[i].name, i, e)] + Capture.Scan(tokens, i + 1, e - 1).entries;
      return e + 1, innerOk, done';
    }

    /**
      Ir.addMessage: captures the message's types into the type map, then
      compresses constant enums and counts spans, and stores the result under
      the id. Returns false where a pass throws; the message is then not
      stored, while the types captured before the failure remain.
     */
    method AddMessage(messageId: int, messageTokens: seq<Token>) returns (ok: bool)
      modifies this
      ensures var c := Capture.Scan(messageTokens, 0, |messageTokens| - 1);
        && typesByName == Capture.Store(old(typesByName), messageTokens, c.entries)
        && ok == (c.ok && Normalise(messageTokens).Some?)
        && messagesById == if ok then old(messagesById)[messageId := Normalise(messageTokens).value] else old(messagesById)
    {
      var captured := CaptureTypes(messageTokens, 0, |messageTokens| - 1);
      if !captured {
        return false;
      }
      var compressed := Compress.CompressConstantEnums(messageTokens);
      if compressed.None? {
        return false;
      }
      var counted := Spans.CountComponentTokens(compressed.value);
      if counted.None? {
        return false;
      }
      messagesById := messagesById[messageId := counted.value];
      ok := true;
    }
  }
}

=== FILE: listener.dfy ===
/**
  The example token listener (ExampleTokenListener): the callbacks an
  on-the-fly decoder drives while it walks a message. The listener keeps a
  stack of named scopes and a count of open composites, and prints one line
  per field. Values that would be read from the buffer arrive already
  decoded: `raw` is what a primitive read gives, `element` the text of the
  array element at a buffer index, `decoded` what decoding the var-data
  bytes with the field's character set gives.
 */
module Listener {
  import opened Tokens

  // ---------------------------------------------------------------------
  // Values synthesised from the IR instead of read from the buffer.

  /**
    constOrNotPresentValue: a constant encoding gives its constant; an
    optional field added after the acting version gives its null value; a
    value that is in the buffer gives nothing.
   */
  function ConstOrNotPresentValue(token: Token, actingVersion: int): (r: Option<PrimitiveValue>)
    ensures token.encoding.presence == Required ==> r == None
    ensures token.encoding.presence == Constant ==> r == token.encoding.constValue
    ensures token.encoding.presence == Optional ==> (r.Some? <==> actingVersion < token.version)
    ensures token.encoding.presence == Optional && r.Some? ==> r.value == token.encoding.nullValue
  {
    if IsConstantEncoding(token) then token.encoding.constValue
    else if IsOptionalEncoding(token) && actingVersion < token.version then Some(token.encoding.nullValue)
    else None
  }

  /** readEncodingAsLong: the synthesised value when there is one, otherwise the value read. */
  function ReadEncodingAsLong(token: Token, actingVersion: int, raw: int): (r: int)
    ensures ConstOrNotPresentValue(token, actingVersion).None? ==> r == raw
    ensures ConstOrNotPresentValue(token, actingVersion).Some? ==> r == ConstOrNotPresentValue(token, actingVersion).value.longValue
  {
    match ConstOrNotPresentValue(token, actingVersion)
    case Some(v) => v.longValue
    case None => raw
  }

  // ---------------------------------------------------------------------
  // Array values.

  /** The texts of the n array elements, element i read at index + i * elementSize. */
  function Elements(element: int -> string, index: int, elementSize: int, n: nat): (r: seq<string>)
    ensures |r| == n
    ensures forall i :: 0 <= i < n ==> r[i] == element(index + i * elementSize)
  {
    seq(n, i requires 0 <= i < n => element(index + i * elementSize))
  }

  /** The texts joined with ", " between them. */
  function Joined(xs: seq<string>): string
    decreases |xs|
  {
    if |xs| == 0 then ""
    else if |xs| == 1 then xs[0]
    else Joined(xs[..|xs| - 1]) + ", " + xs[|xs| - 1]
  }

  /** One more element read is one more entry in the list of element texts. */
  lemma ElementsStep(element: int -> string, index: int, elementSize: int, n: nat)
    ensures Elements(element, index, elementSize, n + 1)
         == Elements(element, index, elementSize, n) + [element(index + n * elementSize)]
  {
    var a := Elements(element, index, elementSize, n + 1);
    var b := Elements(element, index, elementSize, n) + [element(index + n * elementSize)];
    assert |a| == |b|;
    forall i | 0 <= i < n + 1
      ensures a[i] == b[i]
    {
    }
  }

  /** What readEncodingAsString gives when nothing is synthesised. */
  function ArrayText(element: int -> string, index: int, elementSize: int, n: nat): string {
    Joined(Elements(element, index, elementSize, n))
  }

  /**
    readEncodingAsString: the synthesised value's text, or the elements
    joined with ", ". The trailing separator is cut off at the end, which
    throws for an empty array, so at least one element is needed then.
   */
  method ReadEncodingAsString(typeToken: Token, actingVersion: int, index: int, elementSize: int,
                              arrayLength: nat, element: int -> string) returns (r: string)
    requires ConstOrNotPresentValue(typeToken, actingVersion).None? ==> arrayLength >= 1
    ensures ConstOrNotPresentValue(typeToken, actingVersion).Some? ==> r == ConstOrNotPresentValue(typeToken, actingVersion).value.text
    ensures ConstOrNotPresentValue(typeToken, actingVersion).None? ==> r == ArrayText(element, index, elementSize, arrayLength)
  {
    var synthesised := ConstOrNotPresentValue(typeToken, actingVersion);
    if synthesised.Some? {
      return synthesised.value.text;
    }
    var sb := "";
    var i := 0;
    while i < arrayLength
      invariant 0 <= i <= arrayLength
      invariant i == 0 ==> sb == ""
      invariant i > 0 ==> sb == Joined(Elements(element, index, elementSize, i)) + ", "
    {
      JoinedStep(element, index, elementSize, i);
      sb := sb + element(index + i * elementSize) + ", ";
      i := i + 1;
    }
    r := sb[..|sb| - 2];
    Trim(Joined(Elements(element, index, elementSize, arrayLength)), r, sb);
  }

  /** Appending one element's text and a separator extends the joined text by that element. */
  lemma JoinedStep(element: int -> string, index: int, elementSize: int, i: nat)
    ensures Joined(Elements(element, index, elementSize, i + 1)) + ", "
         == (if i == 0 then "" else Joined(Elements(element, index, elementSize, i)) + ", ")
            + element(index + i * elementSize) + ", "
  {
    ElementsStep(element, index, elementSize, i);
    var xs := Elements(element, index, elementSize, i + 1);
    assert xs[..i] == Elements(element, index, elementSize, i);
  }

  /** Cutting the trailing ", " leaves the joined text. */
  lemma Trim(joined: string, r: string, sb: string)
    requires sb == joined + ", " && r == sb[..|sb| - 2]
    ensures r == joined
  {
    assert sb[..|sb| - 2] == joined;
  }

  // ---------------------------------------------------------------------
  // Enum values and bit sets.

  /** Every token in tokens[lo..hi] carries a constant (the IR gives each valid value and choice one). */
  predicate AllConstant(tokens: seq<Token>, lo: int, hi: int)
    requires 0 <= lo <= hi <= |tokens|
  {
    forall i :: lo <= i < hi ==> tokens[i].encoding.constValue.Some?
  }

  /** The index of the first token in tokens[lo..hi] whose constant is v, if any. */
  function FirstMatch(tokens: seq<Token>, lo: int, hi: int, v: int): (r: Option<int>)
    requires 0 <= lo <= hi <= |tokens| && AllConstant(tokens, lo, hi)
    ensures r.Some? ==> lo <= r.value < hi && tokens[r.value].encoding.constValue.value.longValue == v
    ensures r.Some? ==> forall i :: lo <= i < r.value ==> tokens[i].encoding.constValue.value.longValue != v
    ensures r.None? ==> forall i :: lo <= i < hi ==> tokens[i].encoding.constValue.value.longValue != v
    decreases hi - lo
  {
    if lo == hi then None
    else if tokens[lo].encoding.constValue.value.longValue == v then Some(lo)
    else FirstMatch(tokens, lo + 1, hi, v)
  }

  /** Java's long shift and mask: whether bit (position mod 64) of the two's complement value is set. */
  function Flag(value: int, bitPosition: int): bool {
    Bit(value % Pow2(64), bitPosition % 64)
  }

  /** Bit n of a natural number, counting from the least significant. */
  function Bit(x: nat, n: nat): bool
    decreases n
  {
    if n == 0 then x % 2 == 1 else Bit(x / 2, n - 1)
  }

  function Pow2(n: nat): (r: nat)
    ensures r >= 1
  {
    if n == 0 then 1 else 2 * Pow2(n - 1)
  }

  lemma {:induction false} Pow2Grows(a: nat, b: nat)
    requires a < b
    ensures Pow2(a) < Pow2(b)
    decreases b
  {
    if a < b - 1 {
      Pow2Grows(a, b - 1);
    }
  }

  /** The only bit set in 2^k is bit k. */
  lemma {:induction false} PowerBit(k: nat, n: nat)
    ensures Bit(Pow2(k), n) <==> n == k
    decreases n
  {
    if n > 0 && k > 0 {
      PowerBit(k - 1, n - 1);
    } else if n > 0 {
      assert Pow2(k) / 2 == 0;
      ZeroBit(n - 1);
    }
  }

  lemma {:induction false} ZeroBit(n: nat)
    ensures !Bit(0, n)
    decreases n
  {
    if n > 0 {
      ZeroBit(n - 1);
    }
  }

  /**
    The flag test picks out exactly one bit: the value with only bit k set
    has its flag set at position k (and every position congruent to it
    modulo 64) and clear everywhere else.
   */
  lemma SingleBitFlag(k: nat, position: int)
    requires k < 64
    ensures Flag(Pow2(k), position) <==> position % 64 == k
  {
    Pow2Grows(k, 64);
    ModSmall(Pow2(k), Pow2(64));
    PowerBit(k, position % 64);
  }

  lemma ModSmall(x: nat, m: nat)
    requires x < m
    ensures x % m == x
  {
  }

  function BoolText(b: bool): string {
    if b then "true" else "false"
  }

  /** The choices of tokens[lo..hi] as onBitSet prints them: " name=flag" for each, in order. */
  function ChoicesText(tokens: seq<Token>, lo: int, hi: int, value: int): string
    requires 0 <= lo <= hi <= |tokens| && AllConstant(tokens, lo, hi)
    decreases hi - lo
  {
    if lo == hi then ""
    else
      ChoicesText(tokens, lo, hi - 1, value)
      + " " + tokens[hi - 1].name + "=" + BoolText(Flag(value, tokens[hi - 1].encoding.constValue.value.longValue))
  }

  // ---------------------------------------------------------------------
  // The scope stack and the composite level.

  /** A begin callback pushes a scope name, an end callback pops one; composites also move the level. */
  datatype ScopeEvent = Enter(name: string, composite: bool) | Leave(composite: bool)

  datatype ScopeState = ScopeState(scope: seq<string>, level: int)

  /** One callback's effect; a pop on an empty scope throws. */
  function Step(s: ScopeState, e: ScopeEvent): Option<ScopeState> {
    match e
    case Enter(name, composite) =>
      Some(ScopeState(s.scope + [name], if composite then s.level + 1 else s.level))
    case Leave(composite) =>
      if s.scope == [] then None
      else Some(ScopeState(s.scope[..|s.scope| - 1], if composite then s.level - 1 else s.level))
  }

  /** The effect of a run of callbacks, or None if one of them throws. */
  function Run(s: ScopeState, events: seq<ScopeEvent>): Option<ScopeState>
    decreases |events|
  {
    if events == [] then Some(s)
    else
      match Step(s, events[0])
      case None => None
      case Some(t) => Run(t, events[1..])
  }

  /**
    The kinds of the constructs still open after the events, starting from
    `open`, or None when an end does not match the innermost open begin.
   */
  function Nesting(open: seq<bool>, events: seq<ScopeEvent>): Option<seq<bool>>
    decreases |events|
  {
    if events == [] then Some(open)
    else
      match events[0]
      case Enter(_, composite) => Nesting(open + [composite], events[1..])
      case Leave(composite) =>
        if open != [] && open[|open| - 1] == composite then Nesting(open[..|open| - 1], events[1..]) else None
  }

  /** Every end matches the innermost open begin of its kind, and nothing is left open. */
  predicate Balanced(events: seq<ScopeEvent>) {
    Nesting([], events) == Some([])
  }

  /** The number of composites among the open constructs. */
  function Composites(open: seq<bool>): nat
    decreases |open|
  {
    if open == [] then 0
    else Composites(open[..|open| - 1]) + (if open[|open| - 1] then 1 else 0)
  }

  /**
    Well-nested callbacks never pop an empty scope; they leave the scope
    below the open constructs untouched, push one name per construct still
    open, and move the level by the composites opened minus those closed.
   */
  lemma {:induction false} RunNested(s: ScopeState, events: seq<ScopeEvent>, open: seq<bool>, open': seq<bool>)
    requires Nesting(open, events) == Some(open')
    requires |open| <= |s.scope|
    ensures Run(s, events).Some?
    ensures |Run(s, events).value.scope| == |s.scope| - |open| + |open'|
    ensures Run(s, events).value.scope[..|s.scope| - |open|] == s.scope[..|s.scope| - |open|]
    ensures Run(s, events).value.level == s.level - Composites(open) + Composites(open')
    decreases |events|
  {
    if events != [] {
      var base := |s.scope| - |open|;
      match events[0]
      case Enter(name, composite) =>
        var t := Step(s, events[0]).value;
        var open1 := open + [composite];
        assert open1[..|open1| - 1] == open;
        RunNested(t, events[1..], open1, open');
        assert t.scope[..base] == s.scope[..base];
      case Leave(composite) =>
        var t := Step(s, events[0]).value;
        var open1 := open[..|open| - 1];
        RunNested(t, events[1..], open1, open');
        assert t.scope[..base] == s.scope[..base];
    }
  }

  /** A balanced run of begin/end callbacks leaves the scope stack and the composite level as they were. */
  lemma BalancedRestores(s: ScopeState, events: seq<ScopeEvent>)
    requires Balanced(events)
    ensures Run(s, events) == Some(s)
  {
    RunNested(s, events, [], []);
    var t := Run(s, events).value;
    assert t.scope == t.scope[..|s.scope|];
    assert s.scope == s.scope[..|s.scope|];
  }

  /**
    From a fresh listener, after well-nested callbacks the composite level
    is the number of composites still open and the scope holds one name per
    open construct.
   */
  lemma LevelCountsOpenComposites(events: seq<ScopeEvent>, open: seq<bool>)
    requires Nesting([], events) == Some(open)
    ensures Run(ScopeState([], 0), events).Some?
    ensures Run(ScopeState([], 0), events).value.level == Composites(open)
    ensures |Run(ScopeState([], 0), events).value.scope| == |open|
  {
    RunNested(ScopeState([], 0), events, [], open);
  }

  // ---------------------------------------------------------------------
  // Printing.

  /** printScope: the scope names from the outermost in. */
  function ScopeText(scope: seq<string>): (r: string)
    ensures |scope| == 1 ==> r == scope[0]
    decreases |scope|
  {
    if scope == [] then "" else ScopeText(scope[..|scope| - 1]) + scope[|scope| - 1]
  }

  /** The scope text of a stack with more names pushed is the old text followed by theirs. */
  lemma {:induction false} ScopeTextAppend(a: seq<string>, b: seq<string>)
    ensures ScopeText(a + b) == ScopeText(a) + ScopeText(b)
    decreases |b|
  {
    if b == [] {
      assert a + b == a;
    } else {
      var front := b[..|b| - 1];
      assert (a + b)[..|a + b| - 1] == a + front;
      ScopeTextAppend(a, front);
    }
  }

  function DigitsText(n: nat): string
    decreases n
  {
    if n < 10 then ["0123456789"[n]] else DigitsText(n / 10) + ["0123456789"[n % 10]]
  }

  /** Integer.toString. */
  function IntText(n: int): string {
    if n < 0 then "-" + DigitsText(-n) else DigitsText(n)
  }

  /** The size of the scratch buffer onVarData copies a value into. */
  const TempBufferLength: int := 1024

  /**
    What `new String(bytes, 0, length, charsetName)` gives for a character
    set name: the text, UnsupportedEncodingException for a well-formed name
    the runtime does not support, or IllegalCharsetNameException for a
    malformed name.
   */
  datatype Decoding = Decoded(text: string) | Unsupported | IllegalName

  class ExampleTokenListener {
    var compositeLevel: int
    /** namedScope, the innermost scope last. */
    var namedScope: seq<string>
    /** The lines printed so far. */
    var out: seq<string>

    constructor()
      ensures compositeLevel == 0 && namedScope == [] && out == []
    {
      compositeLevel := 0;
      namedScope := [];
      out := [];
    }

    function State(): ScopeState
      reads this
    {
      ScopeState(namedScope, compositeLevel)
    }

    /** determineName: inside more composites than the threshold, the type's own name. */
    function DetermineName(thresholdLevel: int, fieldToken: Token, tokens: seq<Token>, fromIndex: int): (r: string)
      reads this
      requires compositeLevel > thresholdLevel ==> 0 <= fromIndex < |tokens|
      ensures compositeLevel > thresholdLevel ==> r == tokens[fromIndex].name
      ensures compositeLevel <= thresholdLevel ==> r == fieldToken.name
    {
      if compositeLevel > thresholdLevel then tokens[fromIndex].name else fieldToken.name
    }

    method OnBeginMessage(token: Token)
      modifies this`namedScope
      ensures Step(old(State()), Enter(token.name + ".", false)) == Some(State())
    {
      namedScope := namedScope + [token.name + "."];
    }

    method OnEndMessage(token: Token)
      requires namedScope != []
      modifies this`namedScope
      ensures Step(old(State()), Leave(false)) == Some(State())
    {
      namedScope := namedScope[..|namedScope| - 1];
    }

    /** onEncoding: scope, then the type's name inside a composite or the field's name outside, then the value. */
    method OnEncoding(fieldToken: Token, typeToken: Token, actingVersion: int, index: int, elementSize: int,
                      arrayLength: nat, element: int -> string)
      requires ConstOrNotPresentValue(typeToken, actingVersion).None? ==> arrayLength >= 1
      modifies this`out
      ensures var value := match ConstOrNotPresentValue(typeToken, actingVersion)
                           case Some(v) => v.text
                           case None => ArrayText(element, index, elementSize, arrayLength);
              out == old(out) + [ScopeText(namedScope) + (if compositeLevel > 0 then typeToken.name else fieldToken.name) + "=" + value]
    {
      var value := ReadEncodingAsString(typeToken, actingVersion, index, elementSize, arrayLength, element);
      var name := if compositeLevel > 0 then typeToken.name else fieldToken.name;
      out := out + [ScopeText(namedScope) + name + "=" + value];
    }

    /**
      The enum match of onEnum: the name of the first valid value in
      tokens[lo..hi] whose constant is the value, or None (printed "null").
     */
    method MatchEnum(tokens: seq<Token>, lo: int, hi: int, encodedValue: int) returns (value: Option<string>)
      requires 0 <= lo <= hi <= |tokens| && AllConstant(tokens, lo, hi)
      ensures value.Some? <==> FirstMatch(tokens, lo, hi, encodedValue).Some?
      ensures value.Some? ==> value.value == tokens[FirstMatch(tokens, lo, hi, encodedValue).value].name
    {
      value := None;
      var i := lo;
      while i < hi
        invariant lo <= i <= hi
        invariant FirstMatch(tokens, i, hi, encodedValue) == FirstMatch(tokens, lo, hi, encodedValue)
      {
        if encodedValue == tokens[i].encoding.constValue.value.longValue {
          value := Some(tokens[i].name);
          break;
        }
        i := i + 1;
      }
    }

    /** onEnum: the field's name and the name of the first valid value matching the decoded value. */
    method OnEnum(fieldToken: Token, tokens: seq<Token>, beginIndex: int, endIndex: int, actingVersion: int, raw: int)
      requires 0 <= beginIndex && beginIndex + 1 < |tokens| && beginIndex + 1 <= endIndex <= |tokens|
      requires AllConstant(tokens, beginIndex + 1, endIndex)
      modifies this`out
      ensures var m := FirstMatch(tokens, beginIndex + 1, endIndex, ReadEncodingAsLong(tokens[beginIndex + 1], actingVersion, raw));
              out == old(out) + [ScopeText(namedScope) + DetermineName(0, fieldToken, tokens, beginIndex) + "="
                                 + (if m.Some? then tokens[m.value].name else "null")]
    {
      var typeToken := tokens[beginIndex + 1];
      var encodedValue := ReadEncodingAsLong(typeToken, actingVersion, raw);
      var value := MatchEnum(tokens, beginIndex + 1, endIndex, encodedValue);
      var text := if value.Some? then value.value else "null";
      out := out + [ScopeText(namedScope) + DetermineName(0, fieldToken, tokens, beginIndex) + "=" + text];
    }

    /** The choice loop of onBitSet: each choice's name and whether its bit is set, in order. */
    method ChoiceFlags(tokens: seq<Token>, lo: int, hi: int, encodedValue: int) returns (text: string)
      requires 0 <= lo <= hi <= |tokens| && AllConstant(tokens, lo, hi)
      ensures text == ChoicesText(tokens, lo, hi, encodedValue)
    {
      text := "";
      var i := lo;
      while i < hi
        invariant lo <= i <= hi
        invariant text == ChoicesText(tokens, lo, i, encodedValue)
      {
        var bitPosition := tokens[i].encoding.constValue.value.longValue;
        var flag := Flag(encodedValue, bitPosition);
        text := text + " " + tokens[i].name + "=" + BoolText(flag);
        i := i + 1;
      }
    }

    /** onBitSet: the field's name, then every choice with its flag. */
    method OnBitSet(fieldToken: Token, tokens: seq<Token>, beginIndex: int, endIndex: int, actingVersion: int, raw: int)
      requires 0 <= beginIndex && beginIndex + 1 < |tokens| && beginIndex + 1 <= endIndex <= |tokens|
      requires AllConstant(tokens, beginIndex + 1, endIndex)
      modifies this`out
      ensures out == old(out) + [ScopeText(namedScope) + DetermineName(0, fieldToken, tokens, beginIndex) + ":"
                                 + ChoicesText(tokens, beginIndex + 1, endIndex,
                                     ReadEncodingAsLong(tokens[beginIndex + 1], actingVersion, raw))]
    {
      var typeToken := tokens[beginIndex + 1];
      var encodedValue := ReadEncodingAsLong(typeToken, actingVersion, raw);
      var choices := ChoiceFlags(tokens, beginIndex + 1, endIndex, encodedValue);
      out := out + [ScopeText(namedScope) + DetermineName(0, fieldToken, tokens, beginIndex) + ":" + choices];
    }

    /** onBeginComposite: one more open composite, and a scope named after the type once nested. */
    method OnBeginComposite(fieldToken: Token, tokens: seq<Token>, fromIndex: int, toIndex: int)
      requires compositeLevel >= 1 ==> 0 <= fromIndex < |tokens|
      modifies this`compositeLevel, this`namedScope
      ensures Step(old(State()), Enter(
                (if old(compositeLevel) + 1 > 1 then tokens[fromIndex].name else fieldToken.name) + ".", true))
              == Some(State())
    {
      compositeLevel := compositeLevel + 1;
      namedScope := namedScope + [DetermineName(1, fieldToken, tokens, fromIndex) + "."];
    }

    method OnEndComposite(fieldToken: Token, tokens: seq<Token>, fromIndex: int, toIndex: int)
      requires namedScope != []
      modifies this`compositeLevel, this`namedScope
      ensures Step(old(State()), Leave(true)) == Some(State())
    {
      compositeLevel := compositeLevel - 1;
      namedScope := namedScope[..|namedScope| - 1];
    }

    method OnGroupHeader(token: Token, numInGroup: int)
      modifies this`out
      ensures out == old(out) + [ScopeText(namedScope) + token.name + " Group Header : numInGroup=" + IntText(numInGroup)]
    {
      out := out + [ScopeText(namedScope) + token.name + " Group Header : numInGroup=" + IntText(numInGroup)];
    }

    method OnBeginGroup(token: Token, groupIndex: int, numInGroup: int)
      modifies this`namedScope
      ensures Step(old(State()), Enter(token.name + ".", false)) == Some(State())
    {
      namedScope := namedScope + [token.name + "."];
    }

    method OnEndGroup(token: Token, groupIndex: int, numInGroup: int)
      requires namedScope != []
      modifies this`namedScope
      ensures Step(old(State()), Leave(false)) == Some(State())
    {
      namedScope := namedScope[..|namedScope| - 1];
    }

    /**
      onVarData: copying the value into the 1024-byte scratch buffer throws
      when the source buffer does not hold `length` bytes at the index
      (`fits` is false), for a negative length or for one over 1024; a
      missing or malformed character set name throws; an unsupported
      character set returns early with nothing printed.
     */
    method OnVarData(fieldToken: Token, fits: bool, length: int, typeToken: Token, decoded: Decoding) returns (thrown: bool)
      modifies this`out
      ensures thrown <==> !fits || length < 0 || length > TempBufferLength
                          || typeToken.encoding.characterEncoding.None? || decoded.IllegalName?
      ensures thrown || !decoded.Decoded? ==> out == old(out)
      ensures !thrown && decoded.Decoded? ==> out == old(out) + [ScopeText(namedScope) + fieldToken.name + "=" + decoded.text]
    {
      if !fits || length < 0 || length > TempBufferLength {
        return true;
      }
      if typeToken.encoding.characterEncoding.None? || decoded.IllegalName? {
        return true;
      }
      if decoded.Unsupported? {
        return false;
      }
      out := out + [ScopeText(namedScope) + fieldToken.name + "=" + decoded.text];
      thrown := false;
    }
  }
}

=== FILE: spans.dfy ===
/**
  Span counting, the third pass of IR normalisation (Ir.countComponentTokens).

  One stack of begin indices is kept per structural kind. A BEGIN_X pushes its
  index on the X stack; an END_X pops the most recent open BEGIN_X and writes
  `end - begin + 1` as the componentTokenCount of both tokens. Pairing is by
  kind only (names are not compared), and an END_X with no open BEGIN_X is a
  failure (in the source a null map entry or a pop on an empty deque).

  The pass is specified in two layers: `Pairing` runs the stacks over the
  signals alone and records the counts it writes, and `Count` applies those
  counts to the tokens. Because the writes depend only on the signals, and the
  pass changes no signal, running it twice changes nothing.
 */
module Spans {
  import opened Tokens

  /** The per-kind stacks (top at the end) and the counts written so far, by token index. */
  datatype PairState = PairState(stacks: map<Component, seq<nat>>, counts: map<nat, int>)

  /** The stack of kind `k`; a kind never pushed has no deque yet, which reads as empty. */
  function Stack(s: PairState, k: Component): seq<nat> {
    if k in s.stacks then s.stacks[k] else []
  }

  function Top(st: seq<nat>): nat
    requires st != []
  {
    st[|st| - 1]
  }

  /** Processing of the token with signal `sigs[i]`. */
  function Step(sigs: seq<Signal>, i: nat, s: PairState): Option<PairState>
    requires i < |sigs|
  {
    match sigs[i]
    case Begin(k) => Some(s.(stacks := s.stacks[k := Stack(s, k) + [i]]))
    case End(k) =>
      if Stack(s, k) == [] then None
      else
        var st := Stack(s, k);
        var b := Top(st);
        var c := (i - b) + 1;
        Some(PairState(s.stacks[k := st[..|st| - 1]], s.counts[b := c][i := c]))
    case _ => Some(s)
  }

  /** The state after the first `n` tokens, or None once an END found no open BEGIN. */
  function Pairing(sigs: seq<Signal>, n: nat): Option<PairState>
    requires n <= |sigs|
  {
    if n == 0 then Some(PairState(map[], map[]))
    else
      match Pairing(sigs, n - 1)
      case None => None
      case Some(s) => Step(sigs, n - 1, s)
  }

  /** The tokens with the written counts applied. */
  function Apply(tokens: seq<Token>, counts: map<nat, int>): (r: seq<Token>)
    ensures |r| == |tokens|
  {
    seq(|tokens|, i requires 0 <= i < |tokens| =>
      if i in counts then tokens[i].(componentTokenCount := counts[i]) else tokens[i])
  }

  /** The outcome of the whole pass over a token list. */
  function Count(tokens: seq<Token>): Option<seq<Token>> {
    match Pairing(Signals(tokens), |tokens|)
    case None => None
    case Some(s) => Some(Apply(tokens, s.counts))
  }

  // ---------------------------------------------------------------------
  // Per-kind balance: the independent description of LIFO pairing.

  function Delta(sig: Signal, k: Component): int {
    if sig == Begin(k) then 1 else if sig == End(k) then -1 else 0
  }

  /** Number of BEGIN_k minus number of END_k among sigs[a..b). */
  function Balance(sigs: seq<Signal>, k: Component, a: nat, b: nat): int
    requires a <= b <= |sigs|
    decreases b
  {
    if a == b then 0 else Balance(sigs, k, a, b - 1) + Delta(sigs[b - 1], k)
  }

  /** No prefix of sigs[a..n) closes more k-constructs than it opens. */
  ghost predicate NonNegFrom(sigs: seq<Signal>, k: Component, a: nat, n: nat)
    requires a <= n <= |sigs|
  {
    forall m :: a <= m <= n ==> Balance(sigs, k, a, m) >= 0
  }

  /**
    BEGIN_k at i and END_k at j are a LIFO pair: the tokens strictly between
    them open and close as many k-constructs as each other, and never close
    one that was opened before i.
   */
  ghost predicate Matched(sigs: seq<Signal>, k: Component, i: nat, j: nat)
    requires i < j <= |sigs|
  {
    Balance(sigs, k, i + 1, j) == 0 && NonNegFrom(sigs, k, i + 1, j)
  }

  // ---------------------------------------------------------------------
  // Invariants of the pairing state.

  ghost predicate Increasing(st: seq<nat>) {
    forall t, u :: 0 <= t < u < |st| ==> st[t] < st[u]
  }

  /** The entry at depth t of the k stack, after n tokens. */
  ghost predicate EntryInv(sigs: seq<Signal>, n: nat, s: PairState, k: Component, t: nat)
    requires n <= |sigs|
    requires t < |Stack(s, k)|
  {
    var st := Stack(s, k);
    && st[t] < n
    && sigs[st[t]] == Begin(k)
    && st[t] !in s.counts
    && Balance(sigs, k, st[t] + 1, n) == |st| - 1 - t
    && NonNegFrom(sigs, k, st[t] + 1, n)
  }

  /** The k stack after n tokens holds exactly the open BEGIN_k indices, oldest first. */
  ghost predicate StackInv(sigs: seq<Signal>, n: nat, s: PairState, k: Component)
    requires n <= |sigs|
  {
    && |Stack(s, k)| == Balance(sigs, k, 0, n)
    && Increasing(Stack(s, k))
    && forall t :: 0 <= t < |Stack(s, k)| ==> EntryInv(sigs, n, s, k, t)
  }

  ghost predicate StacksInv(sigs: seq<Signal>, n: nat, s: PairState)
    requires n <= |sigs|
  {
    forall k :: StackInv(sigs, n, s, k)
  }

  /** What the written counts say after n tokens. */
  ghost predicate CountsInv(sigs: seq<Signal>, n: nat, s: PairState)
    requires n <= |sigs|
  {
    && (forall j :: j in s.counts ==> j < n && (sigs[j].Begin? || sigs[j].End?))
    && (forall j :: j in s.counts && sigs[j].End? ==> PairWritten(sigs, s, j))
    && (forall i :: 0 <= i < n && sigs[i].Begin? ==> BeginAccounted(sigs, n, s, i))
  }

  /** The END at j carries the count of its LIFO-matched BEGIN, which carries it too. */
  ghost predicate PairWritten(sigs: seq<Signal>, s: PairState, j: nat)
    requires j < |sigs| && j in s.counts && sigs[j].End?
  {
    var i := j - s.counts[j] + 1;
    && 0 <= i < j
    && sigs[i] == Begin(sigs[j].kind)
    && i in s.counts && s.counts[i] == s.counts[j]
    && Matched(sigs, sigs[j].kind, i, j)
  }

  /** The BEGIN at i is still open, or has been given a span that ends within the first n tokens. */
  ghost predicate BeginAccounted(sigs: seq<Signal>, n: nat, s: PairState, i: nat)
    requires n <= |sigs| && i < |sigs| && sigs[i].Begin?
  {
    || i in Stack(s, sigs[i].kind)
    || (&& i in s.counts && 1 <= s.counts[i] && i + s.counts[i] <= n
        && SpanEnd(sigs, s, i))
  }

  /** The token closing the span written at BEGIN i is an END of its kind carrying the same count. */
  ghost predicate SpanEnd(sigs: seq<Signal>, s: PairState, i: nat)
    requires i < |sigs| && sigs[i].Begin?
    requires i in s.counts && 1 <= s.counts[i] && i + s.counts[i] <= |sigs|
  {
    var j := i + s.counts[i] - 1;
    sigs[j] == End(sigs[i].kind) && j in s.counts && s.counts[j] == s.counts[i]
  }

  lemma BalanceStep(sigs: seq<Signal>, k: Component, a: nat, n: nat)
    requires a <= n < |sigs|
    ensures Balance(sigs, k, a, n + 1) == Balance(sigs, k, a, n) + Delta(sigs[n], k)
  {
  }

  lemma NonNegExtend(sigs: seq<Signal>, k: Component, a: nat, n: nat)
    requires a <= n < |sigs|
    requires NonNegFrom(sigs, k, a, n)
    requires Balance(sigs, k, a, n + 1) >= 0
    ensures NonNegFrom(sigs, k, a, n + 1)
  {
  }

  /** How one step changes the k stack and the counts. */
  lemma StepShape(sigs: seq<Signal>, n: nat, s: PairState, k: Component)
    requires n < |sigs|
    requires Step(sigs, n, s).Some?
    ensures var s' := Step(sigs, n, s).value;
      && (sigs[n] == Begin(k) ==> Stack(s', k) == Stack(s, k) + [n])
      && (sigs[n] == End(k) ==> Stack(s, k) != [] && Stack(s', k) == Stack(s, k)[..|Stack(s, k)| - 1])
      && (sigs[n] != Begin(k) && sigs[n] != End(k) ==> Stack(s', k) == Stack(s, k))
      && (!sigs[n].End? ==> s'.counts == s.counts)
  {
  }

  /** The indices a step writes: the END itself and the BEGIN it pops. */
  lemma StepWrites(sigs: seq<Signal>, n: nat, s: PairState)
    requires n < |sigs|
    requires Step(sigs, n, s).Some?
    ensures var s' := Step(sigs, n, s).value;
      forall x :: x in s'.counts ==>
        || (x in s.counts && s'.counts[x] == s.counts[x])
        || x == n
        || (sigs[n].End? && Stack(s, sigs[n].kind) != [] && x == Top(Stack(s, sigs[n].kind)))
  {
  }

  /** An entry that stays on its stack keeps its invariant. */
  lemma StepKeepsOldEntry(sigs: seq<Signal>, n: nat, s: PairState, k: Component, t: nat)
    requires n < |sigs|
    requires Step(sigs, n, s).Some?
    requires t < |Stack(s, k)| && EntryInv(sigs, n, s, k, t)
    requires sigs[n] == End(k) ==> t < |Stack(s, k)| - 1
    requires n !in s.counts
    requires sigs[n].End? ==> Top(Stack(s, sigs[n].kind)) != Stack(s, k)[t]
    ensures t < |Stack(Step(sigs, n, s).value, k)|
    ensures Stack(Step(sigs, n, s).value, k)[t] == Stack(s, k)[t]
    ensures EntryInv(sigs, n + 1, Step(sigs, n, s).value, k, t)
  {
    var st0 := Stack(s, k);
    StepShape(sigs, n, s, k);
    StepWrites(sigs, n, s);
    BalanceStep(sigs, k, st0[t] + 1, n);
    NonNegExtend(sigs, k, st0[t] + 1, n);
  }

  /** The entry a BEGIN pushes satisfies the invariant. */
  lemma StepNewEntry(sigs: seq<Signal>, n: nat, s: PairState, k: Component)
    requires n < |sigs| && sigs[n] == Begin(k)
    requires n !in s.counts
    ensures |Stack(Step(sigs, n, s).value, k)| == |Stack(s, k)| + 1
    ensures EntryInv(sigs, n + 1, Step(sigs, n, s).value, k, |Stack(s, k)|)
  {
    StepShape(sigs, n, s, k);
    assert Balance(sigs, k, n + 1, n + 1) == 0;
  }

  lemma StepKeepsEntry(sigs: seq<Signal>, n: nat, s: PairState, k: Component, t: nat)
    requires n < |sigs|
    requires StackInv(sigs, n, s, k) && ReadyFor(sigs, n, s)
    requires Step(sigs, n, s).Some?
    requires t < |Stack(Step(sigs, n, s).value, k)|
    ensures EntryInv(sigs, n + 1, Step(sigs, n, s).value, k, t)
  {
    var st0 := Stack(s, k);
    StepShape(sigs, n, s, k);
    if t < |st0| {
      assert EntryInv(sigs, n, s, k, t);
      if sigs[n] == End(k) {
        assert t < |st0| - 1;
        assert st0[t] < Top(st0);
      }
      StepKeepsOldEntry(sigs, n, s, k, t);
    } else {
      StepNewEntry(sigs, n, s, k);
    }
  }

  /** What a step relies on: the current index is unwritten, and an END finds an open BEGIN of its kind on top. */
  ghost predicate ReadyFor(sigs: seq<Signal>, n: nat, s: PairState)
    requires n < |sigs|
  {
    && n !in s.counts
    && (sigs[n].End? && Stack(s, sigs[n].kind) != [] ==>
          var b := Top(Stack(s, sigs[n].kind));
          b < n && sigs[b] == Begin(sigs[n].kind) && b !in s.counts
          && Balance(sigs, sigs[n].kind, b + 1, n) == 0 && NonNegFrom(sigs, sigs[n].kind, b + 1, n))
  }

  lemma InvReady(sigs: seq<Signal>, n: nat, s: PairState)
    requires n < |sigs|
    requires StacksInv(sigs, n, s) && CountsInv(sigs, n, s)
    ensures ReadyFor(sigs, n, s)
  {
    if sigs[n].End? && Stack(s, sigs[n].kind) != [] {
      var k := sigs[n].kind;
      assert StackInv(sigs, n, s, k);
      assert EntryInv(sigs, n, s, k, |Stack(s, k)| - 1);
    }
  }

  lemma StepKeepsStackInv(sigs: seq<Signal>, n: nat, s: PairState, k: Component)
    requires n < |sigs|
    requires StackInv(sigs, n, s, k) && ReadyFor(sigs, n, s)
    requires Step(sigs, n, s).Some?
    ensures StackInv(sigs, n + 1, Step(sigs, n, s).value, k)
  {
    var s' := Step(sigs, n, s).value;
    StepShape(sigs, n, s, k);
    BalanceStep(sigs, k, 0, n);
    if sigs[n] == Begin(k) && Stack(s, k) != [] {
      assert EntryInv(sigs, n, s, k, |Stack(s, k)| - 1);
    }
    var next := n + 1;
    forall t | 0 <= t < |Stack(s', k)| ensures EntryInv(sigs, next, s', k, t) {
      StepKeepsEntry(sigs, n, s, k, t);
    }
  }

  lemma StepKeepsStacksInv(sigs: seq<Signal>, n: nat, s: PairState)
    requires n < |sigs|
    requires StacksInv(sigs, n, s) && CountsInv(sigs, n, s)
    requires Step(sigs, n, s).Some?
    ensures StacksInv(sigs, n + 1, Step(sigs, n, s).value)
  {
    InvReady(sigs, n, s);
    var s', next := Step(sigs, n, s).value, n + 1;
    forall k ensures StackInv(sigs, next, s', k) {
      assert StackInv(sigs, n, s, k);
      StepKeepsStackInv(sigs, n, s, k);
    }
  }

  /** A count already written keeps its value through a step. */
  lemma StepKeepsWritten(sigs: seq<Signal>, n: nat, s: PairState, j: nat)
    requires n < |sigs|
    requires ReadyFor(sigs, n, s)
    requires Step(sigs, n, s).Some?
    requires j in s.counts
    ensures j in Step(sigs, n, s).value.counts
    ensures Step(sigs, n, s).value.counts[j] == s.counts[j]
  {
  }

  lemma StepKeepsPairs(sigs: seq<Signal>, n: nat, s: PairState)
    requires n < |sigs|
    requires CountsInv(sigs, n, s) && ReadyFor(sigs, n, s)
    requires Step(sigs, n, s).Some?
    ensures var s' := Step(sigs, n, s).value;
      forall j :: j in s'.counts && j < |sigs| && sigs[j].End? ==> PairWritten(sigs, s', j)
  {
    var s' := Step(sigs, n, s).value;
    StepWrites(sigs, n, s);
    forall j | j in s'.counts && j < |sigs| && sigs[j].End? ensures PairWritten(sigs, s', j) {
      if j == n {
        NewPairWritten(sigs, n, s);
      } else {
        assert j in s.counts;
        OldPairKept(sigs, n, s, j);
      }
    }
  }

  /** The END just processed carries the count of the BEGIN it popped, which carries it too. */
  lemma NewPairWritten(sigs: seq<Signal>, n: nat, s: PairState)
    requires n < |sigs| && sigs[n].End?
    requires ReadyFor(sigs, n, s)
    requires Step(sigs, n, s).Some?
    ensures n in Step(sigs, n, s).value.counts
    ensures PairWritten(sigs, Step(sigs, n, s).value, n)
  {
  }

  /** A pair written before the step stays written. */
  lemma OldPairKept(sigs: seq<Signal>, n: nat, s: PairState, j: nat)
    requires n < |sigs|
    requires ReadyFor(sigs, n, s)
    requires Step(sigs, n, s).Some?
    requires j < |sigs| && j in s.counts && sigs[j].End? && PairWritten(sigs, s, j)
    ensures j in Step(sigs, n, s).value.counts
    ensures PairWritten(sigs, Step(sigs, n, s).value, j)
  {
    var i := j - s.counts[j] + 1;
    StepKeepsWritten(sigs, n, s, j);
    StepKeepsWritten(sigs, n, s, i);
  }

  lemma StepKeepsBegin(sigs: seq<Signal>, n: nat, s: PairState, i: nat)
    requires n < |sigs|
    requires ReadyFor(sigs, n, s)
    requires Step(sigs, n, s).Some?
    requires i <= n && sigs[i].Begin?
    requires i < n ==> BeginAccounted(sigs, n, s, i)
    ensures BeginAccounted(sigs, n + 1, Step(sigs, n, s).value, i)
  {
    var s' := Step(sigs, n, s).value;
    var ki := sigs[i].kind;
    var st := Stack(s, ki);
    StepShape(sigs, n, s, ki);
    if i == n {
      assert Stack(s', ki)[|st|] == i;
    } else if i in s.counts && 1 <= s.counts[i] && i + s.counts[i] <= n && SpanEnd(sigs, s, i) {
      StepKeepsWritten(sigs, n, s, i);
      StepKeepsWritten(sigs, n, s, i + s.counts[i] - 1);
    } else if sigs[n] == End(ki) {
      var t :| 0 <= t < |st| && st[t] == i;
      if t < |st| - 1 {
        assert Stack(s', ki)[t] == i;
      } else {
        assert i == Top(st);
      }
    } else {
      var t :| 0 <= t < |st| && st[t] == i;
      assert Stack(s', ki)[t] == i;
    }
  }

  lemma StepKeepsCountsInv(sigs: seq<Signal>, n: nat, s: PairState)
    requires n < |sigs|
    requires CountsInv(sigs, n, s) && ReadyFor(sigs, n, s)
    requires Step(sigs, n, s).Some?
    ensures CountsInv(sigs, n + 1, Step(sigs, n, s).value)
  {
    var s' := Step(sigs, n, s).value;
    StepWrites(sigs, n, s);
    StepKeepsPairs(sigs, n, s);
    forall i | 0 <= i < n + 1 && sigs[i].Begin? ensures BeginAccounted(sigs, n + 1, s', i) {
      StepKeepsBegin(sigs, n, s, i);
    }
  }

  /** The invariants hold of every state the pass reaches. */
  lemma {:induction false} PairingInv(sigs: seq<Signal>, n: nat)
    requires n <= |sigs|
    requires Pairing(sigs, n).Some?
    ensures StacksInv(sigs, n, Pairing(sigs, n).value)
    ensures CountsInv(sigs, n, Pairing(sigs, n).value)
  {
    if n > 0 {
      PairingInv(sigs, n - 1);
      var s := Pairing(sigs, n - 1).value;
      InvReady(sigs, n - 1, s);
      StepKeepsStacksInv(sigs, n - 1, s);
      StepKeepsCountsInv(sigs, n - 1, s);
    } else {
      assert forall k :: Stack(Pairing(sigs, 0).value, k) == [];
    }
  }

  /** Once an END has found no open BEGIN the pass has failed for good. */
  lemma {:induction false} FailureStays(sigs: seq<Signal>, n: nat, m: nat)
    requires n <= m <= |sigs|
    requires Pairing(sigs, n).None?
    ensures Pairing(sigs, m).None?
    decreases m - n
  {
    if n < m {
      FailureStays(sigs, n + 1, m);
    }
  }

  lemma ApplyWrite(tokens: seq<Token>, counts: map<nat, int>, j: nat, c: int)
    requires j < |tokens|
    ensures Apply(tokens, counts[j := c]) == Apply(tokens, counts)[j := Apply(tokens, counts)[j].(componentTokenCount := c)]
  {
  }

  /** What one turn of the pass needs: the next state is one step on, and an END's open BEGIN lies before it. */
  lemma PassStep(sigs: seq<Signal>, i: nat, s: PairState)
    requires i < |sigs|
    requires Pairing(sigs, i) == Some(s)
    ensures Pairing(sigs, i + 1) == Step(sigs, i, s)
    ensures sigs[i].End? && Stack(s, sigs[i].kind) != [] ==> Top(Stack(s, sigs[i].kind)) < i
  {
    PairingInv(sigs, i);
    InvReady(sigs, i, s);
  }

  // ---------------------------------------------------------------------
  // The pass itself, as the source runs it.

  /**
    Ir.countComponentTokens: a single pass with one stack per kind. Returns
    None where the source throws on an unmatched END.
   */
  method CountComponentTokens(tokens: seq<Token>) returns (r: Option<seq<Token>>)
    ensures r == Count(tokens)
  {
    var stacks: map<Component, seq<nat>> := map[];
    ghost var counts: map<nat, int> := map[];
    var toks := tokens;
    var i := 0;
    CountStarts(tokens);
    while i < |toks|
      invariant Counted(tokens, i, stacks, counts, toks)
    {
      var ok;
      ok, stacks, counts, toks := CountTurn(tokens, i, stacks, counts, toks);
      if !ok {
        CountFails(tokens, i + 1);
        return None;
      }
      i := i + 1;
    }
    CountDone(tokens, PairState(stacks, counts));
    r := Some(toks);
  }

  /** The pass has processed the first i tokens into these stacks and these written tokens. */
  ghost predicate Counted(tokens: seq<Token>, i: int, stacks: map<Component, seq<nat>>, counts: map<nat, int>, toks: seq<Token>) {
    && 0 <= i <= |tokens| == |toks|
    && Pairing(Signals(tokens), i) == Some(PairState(stacks, counts))
    && toks == Apply(tokens, counts)
  }

  lemma CountStarts(tokens: seq<Token>)
    ensures Counted(tokens, 0, map[], map[], tokens)
  {
    ApplyNothing(tokens);
  }

  lemma ApplyNothing(tokens: seq<Token>)
    ensures Apply(tokens, map[]) == tokens
  {
    var u := Apply(tokens, map[]);
    assert forall x :: 0 <= x < |tokens| ==> u[x] == tokens[x];
  }

  lemma CountFails(tokens: seq<Token>, n: nat)
    requires n <= |tokens| && Pairing(Signals(tokens), n).None?
    ensures Count(tokens) == None
  {
    FailureStays(Signals(tokens), n, |tokens|);
  }

  lemma CountDone(tokens: seq<Token>, s: PairState)
    requires Pairing(Signals(tokens), |tokens|) == Some(s)
    ensures Count(tokens) == Some(Apply(tokens, s.counts))
  {
  }

  /**
    One turn of the pass, on the token at i: a BEGIN_k is pushed on the k
    stack, an END_k closes the innermost open BEGIN_k (false, the source's
    exception, when there is none), anything else is passed over.
   */
  method CountTurn(tokens: seq<Token>, i: nat,
                   stacks: map<Component, seq<nat>>, ghost counts: map<nat, int>, toks: seq<Token>)
    returns (ok: bool, stacks': map<Component, seq<nat>>, ghost counts': map<nat, int>, toks': seq<Token>)
    requires i < |tokens| && Counted(tokens, i, stacks, counts, toks)
    ensures ok ==> Counted(tokens, i + 1, stacks', counts', toks')
    ensures !ok ==> Pairing(Signals(tokens), i + 1) == None
  {
    ghost var sigs := Signals(tokens);
    ghost var s0 := PairState(stacks, counts);
    PassStep(sigs, i, s0);
    var token := toks[i];
    assert token.signal == sigs[i];
    stacks', counts', toks' := stacks, counts, toks;
    if token.signal.Begin? {
      var k := token.signal.kind;
      var st := if k in stacks then stacks[k] else [];
      stacks' := stacks[k := st + [i]];
      assert Step(sigs, i, s0) == Some(PairState(stacks', counts'));
    } else if token.signal.End? {
      var k := token.signal.kind;
      if k !in stacks || |stacks[k]| == 0 {
        return false, stacks', counts', toks';
      }
      stacks', counts', toks' := CloseComponent(sigs, tokens, i, k, stacks, counts, toks);
    }
    ok := true;
  }

  /**
    The END_k branch of the pass: pop the innermost open BEGIN_k and write
    the span's token count into both the begin and the end token.
   */
  method CloseComponent(ghost sigs: seq<Signal>, tokens: seq<Token>, i: nat, k: Component,
                        stacks: map<Component, seq<nat>>, ghost counts: map<nat, int>, toks: seq<Token>)
    returns (stacks': map<Component, seq<nat>>, ghost counts': map<nat, int>, toks': seq<Token>)
    requires i < |tokens| == |toks| <= |sigs| && sigs[i] == End(k)
    requires k in stacks && stacks[k] != [] && Top(stacks[k]) < i
    requires toks == Apply(tokens, counts)
    ensures Step(sigs, i, PairState(stacks, counts)) == Some(PairState(stacks', counts'))
    ensures toks' == Apply(tokens, counts')
  {
    var st := stacks[k];
    var beginIndex := st[|st| - 1];
    stacks' := stacks[k := st[..|st| - 1]];
    var componentTokenCount := (i - beginIndex) + 1;
    ApplyWrite(tokens, counts, beginIndex, componentTokenCount);
    toks' := toks[beginIndex := toks[beginIndex].(componentTokenCount := componentTokenCount)];
    ApplyWrite(tokens, counts[beginIndex := componentTokenCount], i, componentTokenCount);
    toks' := toks'[i := toks'[i].(componentTokenCount := componentTokenCount)];
    counts' := counts[beginIndex := componentTokenCount][i := componentTokenCount];
  }

  // ---------------------------------------------------------------------
  // Properties of the pass.

  /**
    Every END_k receives the count of a LIFO-matched BEGIN_k, and the begin
    token receives the same count, `end - begin + 1`.
   */
  lemma CountPairsEnds(tokens: seq<Token>, j: nat)
    requires Count(tokens).Some?
    requires j < |tokens| && tokens[j].signal.End?
    ensures var u := Count(tokens).value;
      var k := tokens[j].signal.kind;
      var i := j - u[j].componentTokenCount + 1;
      && 0 <= i < j
      && tokens[i].signal == Begin(k)
      && u[i].componentTokenCount == u[j].componentTokenCount == j - i + 1
      && Matched(Signals(tokens), k, i, j)
  {
    var sigs := Signals(tokens);
    var counts := Pairing(sigs, |tokens|).value.counts;
    var i := FinalEndPair(sigs, j);
    ApplyAt(tokens, counts, j);
    ApplyAt(tokens, counts, i);
  }

  /** In the final state the END at j and the BEGIN i it pairs with both carry j - i + 1. */
  lemma FinalEndPair(sigs: seq<Signal>, j: nat) returns (i: nat)
    requires Pairing(sigs, |sigs|).Some?
    requires j < |sigs| && sigs[j].End?
    ensures var counts := Pairing(sigs, |sigs|).value.counts;
      && j in counts && i in counts
      && i == j - counts[j] + 1 && i < j
      && sigs[i] == Begin(sigs[j].kind)
      && counts[i] == counts[j] == j - i + 1
      && Matched(sigs, sigs[j].kind, i, j)
  {
    PrefixSucceeds(sigs, j + 1, |sigs|);
    EndIsWritten(sigs, j);
    WrittenStaysWritten(sigs, j + 1, |sigs|, j);
    FinalPair(sigs, |sigs|, j);
    var s := Pairing(sigs, |sigs|).value;
    i := j - s.counts[j] + 1;
  }

  lemma ApplyAt(tokens: seq<Token>, counts: map<nat, int>, x: nat)
    requires x < |tokens| && x in counts
    ensures Apply(tokens, counts)[x].componentTokenCount == counts[x]
    ensures Apply(tokens, counts)[x].signal == tokens[x].signal
  {
  }

  lemma FinalPair(sigs: seq<Signal>, n: nat, j: nat)
    requires n <= |sigs| && Pairing(sigs, n).Some?
    requires j < |sigs| && sigs[j].End? && j in Pairing(sigs, n).value.counts
    ensures PairWritten(sigs, Pairing(sigs, n).value, j)
  {
    PairingInv(sigs, n);
  }

  /** A pass that gets through m tokens got through every shorter prefix. */
  lemma {:induction false} PrefixSucceeds(sigs: seq<Signal>, n: nat, m: nat)
    requires n <= m <= |sigs|
    requires Pairing(sigs, m).Some?
    ensures Pairing(sigs, n).Some?
    decreases m - n
  {
    if n < m {
      PrefixSucceeds(sigs, n + 1, m);
    }
  }

  /** A count once written is never overwritten by a later token. */
  lemma {:induction false} WrittenStaysWritten(sigs: seq<Signal>, n: nat, m: nat, j: nat)
    requires n <= m <= |sigs|
    requires Pairing(sigs, m).Some?
    requires Pairing(sigs, n).Some? && j in Pairing(sigs, n).value.counts
    ensures j in Pairing(sigs, m).value.counts
    ensures Pairing(sigs, m).value.counts[j] == Pairing(sigs, n).value.counts[j]
    decreases m - n
  {
    if n < m {
      PrefixSucceeds(sigs, n + 1, m);
      PairingReady(sigs, n);
      StepKeepsWritten(sigs, n, Pairing(sigs, n).value, j);
      WrittenStaysWritten(sigs, n + 1, m, j);
    }
  }

  lemma PairingReady(sigs: seq<Signal>, n: nat)
    requires n < |sigs| && Pairing(sigs, n).Some?
    ensures ReadyFor(sigs, n, Pairing(sigs, n).value)
  {
    PairingInv(sigs, n);
    InvReady(sigs, n, Pairing(sigs, n).value);
  }

  /** An END has been written once its own step has run. */
  lemma EndIsWritten(sigs: seq<Signal>, j: nat)
    requires j < |sigs| && sigs[j].End?
    requires Pairing(sigs, j + 1).Some?
    ensures j in Pairing(sigs, j + 1).value.counts
  {
  }

  /** The final state's facts about one BEGIN. */
  lemma FinalBegin(sigs: seq<Signal>, n: nat, i: nat)
    requires n <= |sigs| && Pairing(sigs, n).Some?
    requires i < n && sigs[i].Begin?
    ensures BeginAccounted(sigs, n, Pairing(sigs, n).value, i)
    ensures |Stack(Pairing(sigs, n).value, sigs[i].kind)| == Balance(sigs, sigs[i].kind, 0, n)
  {
    PairingInv(sigs, n);
    assert StackInv(sigs, n, Pairing(sigs, n).value, sigs[i].kind);
  }

  lemma StackDepth(sigs: seq<Signal>, n: nat, k: Component)
    requires n <= |sigs| && Pairing(sigs, n).Some?
    ensures |Stack(Pairing(sigs, n).value, k)| == Balance(sigs, k, 0, n)
  {
    PairingInv(sigs, n);
    assert StackInv(sigs, n, Pairing(sigs, n).value, k);
  }

  lemma FinalDomain(sigs: seq<Signal>, n: nat)
    requires n <= |sigs| && Pairing(sigs, n).Some?
    ensures forall j :: j in Pairing(sigs, n).value.counts ==> j < n && (sigs[j].Begin? || sigs[j].End?)
  {
    PairingInv(sigs, n);
  }

  /**
    The pass changes nothing but componentTokenCount, and only on BEGIN and
    END tokens; the list keeps its length and its signals.
   */
  lemma CountKeepsShape(tokens: seq<Token>)
    requires Count(tokens).Some?
    ensures var u := Count(tokens).value;
      && |u| == |tokens|
      && Signals(u) == Signals(tokens)
      && (forall i :: 0 <= i < |u| ==> u[i] == tokens[i].(componentTokenCount := u[i].componentTokenCount))
      && (forall i :: 0 <= i < |u| && !tokens[i].signal.Begin? && !tokens[i].signal.End? ==> u[i] == tokens[i])
  {
    FinalDomain(Signals(tokens), |tokens|);
  }

  /** Counting the spans of a list whose spans are already counted changes nothing. */
  lemma CountIdempotent(tokens: seq<Token>)
    requires Count(tokens).Some?
    ensures Count(Count(tokens).value) == Count(tokens)
  {
    var u := Count(tokens).value;
    var s := Pairing(Signals(tokens), |tokens|).value;
    CountKeepsShape(tokens);
    assert Pairing(Signals(u), |u|) == Some(s);
    assert Apply(u, s.counts) == u;
  }

  /** Every END_k in sigs[..n) closes a BEGIN_k that is still open before it. */
  ghost predicate EndsClose(sigs: seq<Signal>, n: nat)
    requires n <= |sigs|
  {
    forall j :: 0 <= j < n && sigs[j].End? ==> Balance(sigs, sigs[j].kind, 0, j) > 0
  }

  lemma {:induction false} PairingSucceedsIff(sigs: seq<Signal>, n: nat)
    requires n <= |sigs|
    ensures Pairing(sigs, n).Some? <==> EndsClose(sigs, n)
  {
    if n > 0 {
      PairingSucceedsIff(sigs, n - 1);
      if Pairing(sigs, n - 1).Some? && sigs[n - 1].End? {
        StackDepth(sigs, n - 1, sigs[n - 1].kind);
      }
    }
  }

  /** The pass fails exactly when some END_k comes with no BEGIN_k left open before it. */
  lemma CountSucceedsIff(tokens: seq<Token>)
    ensures Count(tokens).Some? <==>
      forall j :: 0 <= j < |tokens| && tokens[j].signal.End? ==>
        Balance(Signals(tokens), tokens[j].signal.kind, 0, j) > 0
  {
    PairingSucceedsIff(Signals(tokens), |tokens|);
  }

  /** Every kind opens as many constructs as it closes. */
  ghost predicate Closed(sigs: seq<Signal>) {
    forall k :: Balance(sigs, k, 0, |sigs|) == 0
  }

  /**
    In a list where every BEGIN is closed, each BEGIN_k at i gets a count c
    whose span [i, i + c) lies within the list and ends in an END_k carrying
    the same count: the property the code generators walk by.
   */
  lemma CountSpansFit(tokens: seq<Token>, i: nat)
    requires Count(tokens).Some? && Closed(Signals(tokens))
    requires i < |tokens| && tokens[i].signal.Begin?
    ensures var u := Count(tokens).value;
      var c := u[i].componentTokenCount;
      && 1 <= c && i + c <= |u|
      && tokens[i + c - 1].signal == End(tokens[i].signal.kind)
      && u[i + c - 1].componentTokenCount == c
  {
    var sigs := Signals(tokens);
    var s := Pairing(sigs, |tokens|).value;
    ClosedSpan(sigs, i);
    var c := s.counts[i];
    ApplyAt(tokens, s.counts, i);
    ApplyAt(tokens, s.counts, i + c - 1);
  }

  /** The same on the signals: a closed list leaves no BEGIN on a stack, so each has its span written. */
  lemma ClosedSpan(sigs: seq<Signal>, i: nat)
    requires Pairing(sigs, |sigs|).Some? && Closed(sigs)
    requires i < |sigs| && sigs[i].Begin?
    ensures var s := Pairing(sigs, |sigs|).value;
      && i in s.counts && 1 <= s.counts[i] && i + s.counts[i] <= |sigs|
      && SpanEnd(sigs, s, i)
  {
    var s := Pairing(sigs, |sigs|).value;
    FinalBegin(sigs, |sigs|, i);
    assert Balance(sigs, sigs[i].kind, 0, |sigs|) == 0;
    assert i !in Stack(s, sigs[i].kind);
  }
}

=== FILE: token_codec_decoder.dfy ===
/**
  The decoder of one serialised IR token (TokenCodecDecoder): a 24-byte
  block of five little-endian int32 fields and four single-byte enum codes,
  followed by ten var-data fields read one after the other from a moving
  `limit` cursor.
 */
module TokenCodecDecoding {
  import opened Wire

  const SbeBlockLength: int := 24
  const SbeTemplateId: int := 2
  const SbeSchemaId: int := 1
  const SbeSchemaVersion: int := 0

  /** The fixed block of a token, field by field; the enum fields hold raw codes. */
  datatype TokenBlock = TokenBlock(
    tokenOffset: int32,
    tokenSize: int32,
    fieldId: int32,
    tokenVersion: int32,
    componentTokenCount: int32,
    signal: byte,
    primitiveType: byte,
    byteOrder: byte,
    presence: byte)

  /** The block read at `at`: int32s at +0, +4, +8, +12, +16 and codes at +20 .. +23. */
  function DecodeBlock(bytes: seq<byte>, at: int): TokenBlock
    requires 0 <= at && at + SbeBlockLength <= |bytes|
  {
    TokenBlock(
      LEToInt32(bytes[at..at + 4]),
      LEToInt32(bytes[at + 4..at + 8]),
      LEToInt32(bytes[at + 8..at + 12]),
      LEToInt32(bytes[at + 12..at + 16]),
      LEToInt32(bytes[at + 16..at + 20]),
      bytes[at + 20],
      bytes[at + 21],
      bytes[at + 22],
      bytes[at + 23])
  }

  /** The fixed fields as appendTo writes them. */
  function FixedText(b: TokenBlock): seq<Part> {
    Field("tokenOffset", Number(b.tokenOffset as int))
    + Field("tokenSize", Number(b.tokenSize as int))
    + Field("fieldId", Number(b.fieldId as int))
    + Field("tokenVersion", Number(b.tokenVersion as int))
    + Field("componentTokenCount", Number(b.componentTokenCount as int))
    + Field("signal", CodeName(b.signal as int))
    + Field("primitiveType", CodeName(b.primitiveType as int))
    + Field("byteOrder", CodeName(b.byteOrder as int))
    + Field("presence", CodeName(b.presence as int))
  }

  /** The var-data fields in their declared order. */
  const VarDataNames: seq<string> :=
    ["name", "constValue", "minValue", "maxValue", "nullValue",
     "characterEncoding", "epoch", "timeUnit", "semanticType", "description"]

  /** What appendTo writes for a token block and its var-data fields. */
  function TokenText(actingVersion: int, actingBlockLength: int, b: TokenBlock, fields: seq<seq<byte>>): seq<Part>
    requires |fields| == |VarDataNames|
  {
    Header("TokenCodec", SbeTemplateId, SbeSchemaId, SbeSchemaVersion, SbeBlockLength, actingVersion, actingBlockLength)
    + FixedText(b) + VarText(VarDataNames, fields, |VarDataNames|)
  }

  /** What appendTo writes for the token at `offset` read with the given acting block length and version. */
  function Rendered(bytes: seq<byte>, offset: int, actingBlockLength: int, actingVersion: int): seq<Part>
    requires 0 <= offset && offset + SbeBlockLength <= |bytes|
    requires FieldsFit(bytes, offset + actingBlockLength, |VarDataNames|)
  {
    TokenText(actingVersion, actingBlockLength, DecodeBlock(bytes, offset),
      ReadFields(bytes, offset + actingBlockLength, |VarDataNames|).0)
  }

  class TokenCodecDecoder {
    var buffer: seq<byte>
    var offset: int
    var limit: int
    var actingBlockLength: int
    var actingVersion: int

    constructor()
      ensures buffer == [] && offset == 0 && limit == 0
      ensures actingBlockLength == 0 && actingVersion == 0
    {
      buffer := [];
      offset := 0;
      limit := 0;
      actingBlockLength := 0;
      actingVersion := 0;
    }

    /** TokenCodecDecoder.wrap: the var data starts just past the acting block. */
    method Wrap(buffer: seq<byte>, offset: int, actingBlockLength: int, actingVersion: int)
      modifies this
      ensures this.buffer == buffer && this.offset == offset
      ensures this.actingBlockLength == actingBlockLength && this.actingVersion == actingVersion
      ensures limit == offset + actingBlockLength
      ensures EncodedLength() == actingBlockLength
    {
      this.buffer := buffer;
      this.offset := offset;
      this.actingBlockLength := actingBlockLength;
      this.actingVersion := actingVersion;
      limit := offset + actingBlockLength;
    }

    function EncodedLength(): int
      reads this
    {
      limit - offset
    }

    function TokenOffset(): (r: int32)
      reads this
      requires 0 <= offset && offset + 4 <= |buffer|
      ensures Int32ToLE(r) == buffer[offset..offset + 4]
    {
      GetInt32(buffer, offset)
    }

    function TokenSize(): (r: int32)
      reads this
      requires 0 <= offset + 4 && offset + 8 <= |buffer|
      ensures Int32ToLE(r) == buffer[offset + 4..offset + 8]
    {
      GetInt32(buffer, offset + 4)
    }

    function FieldId(): (r: int32)
      reads this
      requires 0 <= offset + 8 && offset + 12 <= |buffer|
      ensures Int32ToLE(r) == buffer[offset + 8..offset + 12]
    {
      GetInt32(buffer, offset + 8)
    }

    function TokenVersion(): (r: int32)
      reads this
      requires 0 <= offset + 12 && offset + 16 <= |buffer|
      ensures Int32ToLE(r) == buffer[offset + 12..offset + 16]
    {
      GetInt32(buffer, offset + 12)
    }

    function ComponentTokenCount(): (r: int32)
      reads this
      requires 0 <= offset + 16 && offset + 20 <= |buffer|
      ensures Int32ToLE(r) == buffer[offset + 16..offset + 20]
    {
      GetInt32(buffer, offset + 16)
    }

    /** getByte(index) & 0xFF: an unsigned code. */
    function CodeAt(index: int): (r: int)
      reads this
      requires 0 <= index < |buffer|
      ensures 0 <= r < 256 && Low8(r) == buffer[index]
    {
      buffer[index] as int
    }

    function SignalCode(): (r: int)
      reads this
      requires 0 <= offset + 20 < |buffer|
      ensures 0 <= r < 256 && Low8(r) == buffer[offset + 20]
    {
      CodeAt(offset + 20)
    }

    function PrimitiveTypeCode(): (r: int)
      reads this
      requires 0 <= offset + 21 < |buffer|
      ensures 0 <= r < 256 && Low8(r) == buffer[offset + 21]
    {
      CodeAt(offset + 21)
    }

    function ByteOrderCode(): (r: int)
      reads this
      requires 0 <= offset + 22 < |buffer|
      ensures 0 <= r < 256 && Low8(r) == buffer[offset + 22]
    {
      CodeAt(offset + 22)
    }

    function PresenceCode(): (r: int)
      reads this
      requires 0 <= offset + 23 < |buffer|
      ensures 0 <= r < 256 && Low8(r) == buffer[offset + 23]
    {
      CodeAt(offset + 23)
    }

    /** nameLength() and the other *Length(): the uint16 header at the cursor, which stays put. */
    function VarDataLength(): (r: int)
      reads this
      requires 0 <= limit && limit + HeaderLength <= |buffer|
      ensures 0 <= r < 0x1_0000 && Uint16ToLE(r) == buffer[limit..limit + HeaderLength]
    {
      Uint16BytesRoundTrip(buffer[limit..limit + HeaderLength]);
      LEToUint16(buffer[limit..limit + HeaderLength])
    }

    /**
      getName(dst, dstOffset, length) and the other get*(byte[], ...): copies
      min(length, dataLength) payload bytes, and moves the cursor past the
      whole field whatever was copied.
     */
    method GetVarData(dst: array<byte>, dstOffset: int, length: int) returns (bytesCopied: int)
      requires 0 <= length && 0 <= limit && limit + HeaderLength <= |buffer|
      requires limit + HeaderLength + Min(length, VarDataLength()) <= |buffer|
      requires 0 <= dstOffset && dstOffset + Min(length, VarDataLength()) <= dst.Length
      modifies this`limit, dst
      ensures bytesCopied == Min(length, LEToUint16(buffer[old(limit)..old(limit) + HeaderLength])) && 0 <= bytesCopied
      ensures limit == old(limit) + HeaderLength + LEToUint16(buffer[old(limit)..old(limit) + HeaderLength])
      ensures dst[..] == Splice(old(dst[..]), dstOffset, buffer[old(limit) + HeaderLength..old(limit) + HeaderLength + bytesCopied])
    {
      ghost var original := dst[..];
      var headerLength := HeaderLength;
      var start := limit;
      var dataLength := VarDataLength();
      bytesCopied := Min(length, dataLength);
      limit := start + headerLength + dataLength;
      var from := start + headerLength;
      var k := 0;
      while k < bytesCopied
        invariant 0 <= k <= bytesCopied
        invariant limit == start + headerLength + dataLength
        invariant forall i :: dstOffset <= i < dstOffset + k ==> dst[i] == buffer[from + (i - dstOffset)]
        invariant forall i :: 0 <= i < dst.Length && !(dstOffset <= i < dstOffset + k) ==> dst[i] == original[i]
      {
        dst[dstOffset + k] := buffer[from + k];
        k := k + 1;
      }
      SpliceOf(original, dstOffset, buffer[from..from + bytesCopied], dst[..]);
    }

    /**
      name() and the other var-data readers: the payload of the field at the
      cursor, with the cursor moved just past it.
     */
    method VarData() returns (value: seq<byte>)
      requires VarFieldFits(buffer, limit)
      modifies this`limit
      ensures (value, limit) == ReadVarField(buffer, old(limit))
    {
      var headerLength := HeaderLength;
      var start := limit;
      var dataLength := VarDataLength();
      limit := start + headerLength + dataLength;
      value := buffer[start + headerLength..start + headerLength + dataLength];
    }

    /** The fixed fields of appendTo, read from the block. */
    method AppendFixed(builder: Builder)
      requires 0 <= offset && offset + SbeBlockLength <= |buffer|
      modifies builder
      ensures builder.parts == old(builder.parts) + FixedText(DecodeBlock(buffer, offset))
    {
      var text := Field("tokenOffset", Number(TokenOffset() as int));
      text := text + Field("tokenSize", Number(TokenSize() as int));
      text := text + Field("fieldId", Number(FieldId() as int));
      text := text + Field("tokenVersion", Number(TokenVersion() as int));
      text := text + Field("componentTokenCount", Number(ComponentTokenCount() as int));
      text := text + Field("signal", CodeName(SignalCode()));
      text := text + Field("primitiveType", CodeName(PrimitiveTypeCode()));
      text := text + Field("byteOrder", CodeName(ByteOrderCode()));
      text := text + Field("presence", CodeName(PresenceCode()));
      builder.parts := builder.parts + text;
    }

    /**
      The var-data fields of appendTo, read in their declared order from the
      cursor. (The generated code repeats the same three appends for each
      field; the loop runs them over the field names.)
     */
    method AppendVarFields(builder: Builder)
      requires FieldsFit(buffer, limit, |VarDataNames|)
      modifies this`limit, builder
      ensures builder.parts == old(builder.parts) + VarText(VarDataNames, ReadFields(buffer, old(limit), |VarDataNames|).0, |VarDataNames|)
    {
      ghost var start := limit;
      ghost var fields := ReadFields(buffer, start, |VarDataNames|).0;
      ghost var starts := Starts(buffer, start, |VarDataNames|);
      var i := 0;
      while i < |VarDataNames|
        invariant 0 <= i <= |VarDataNames|
        invariant limit == starts[i]
        invariant builder.parts == old(builder.parts) + VarText(VarDataNames, fields, i)
      {
        FieldAt(buffer, start, |VarDataNames|, i);
        var name := VarDataNames[i];
        var value := VarData();
        var piece := if i + 1 == |VarDataNames| then LastField(name, Data(value)) else Field(name, Data(value));
        VarTextGrows(old(builder.parts), VarDataNames, fields, i);
        builder.parts := builder.parts + piece;
        i := i + 1;
      }
    }

    /**
      TokenCodecDecoder.appendTo: reads the var data from the acting block's
      end, writes the header and every field, and puts the caller's cursor
      back.
     */
    method AppendTo(builder: Builder)
      requires 0 <= offset && offset + SbeBlockLength <= |buffer|
      requires FieldsFit(buffer, offset + actingBlockLength, |VarDataNames|)
      modifies this`limit, builder
      ensures limit == old(limit)
      ensures builder.parts == old(builder.parts) + Rendered(buffer, offset, actingBlockLength, actingVersion)
    {
      ghost var before := builder.parts;
      var originalLimit := limit;
      limit := offset + actingBlockLength;
      var header := Header("TokenCodec", SbeTemplateId, SbeSchemaId, SbeSchemaVersion, SbeBlockLength,
                           actingVersion, actingBlockLength);
      builder.parts := builder.parts + header;
      AppendFixed(builder);
      AppendVarFields(builder);
      ghost var fixed := FixedText(DecodeBlock(buffer, offset));
      Regroup(before, header, fixed);
      Regroup(before, header + fixed,
        VarText(VarDataNames, ReadFields(buffer, offset + actingBlockLength, |VarDataNames|).0, |VarDataNames|));
      limit := originalLimit;
    }
  }
}

=== FILE: token_codec_encoder.dfy ===
/**
  The encoder of one serialised IR token (TokenCodecEncoder): setters that
  write the fixed fields of the 24-byte block in place, and var-data
  writers that append length-framed fields at a moving `limit` cursor.
 */
module TokenCodecEncoding {
  import opened Wire
  import opened TokenCodecDecoding

  /** The 24 bytes the five int32 setters and the four code setters write for a block. */
  function EncodeBlock(b: TokenBlock): (r: seq<byte>)
    ensures |r| == SbeBlockLength
    ensures r[0..4] == Int32ToLE(b.tokenOffset) && r[4..8] == Int32ToLE(b.tokenSize)
    ensures r[8..12] == Int32ToLE(b.fieldId) && r[12..16] == Int32ToLE(b.tokenVersion)
    ensures r[16..20] == Int32ToLE(b.componentTokenCount)
    ensures r[20] == b.signal && r[21] == b.primitiveType && r[22] == b.byteOrder && r[23] == b.presence
  {
    Int32ToLE(b.tokenOffset) + Int32ToLE(b.tokenSize) + Int32ToLE(b.fieldId)
    + Int32ToLE(b.tokenVersion) + Int32ToLE(b.componentTokenCount)
    + [b.signal, b.primitiveType, b.byteOrder, b.presence]
  }

  /** Decoding an encoded block, wherever it lies in the buffer, gives the block back. */
  lemma BlockRoundTrip(bytes: seq<byte>, at: int, b: TokenBlock)
    requires 0 <= at && at + SbeBlockLength <= |bytes|
    requires bytes[at..at + SbeBlockLength] == EncodeBlock(b)
    ensures DecodeBlock(bytes, at) == b
  {
    SubSlice(bytes, at, SbeBlockLength, 0, 4);
    SubSlice(bytes, at, SbeBlockLength, 4, 8);
    SubSlice(bytes, at, SbeBlockLength, 8, 12);
    SubSlice(bytes, at, SbeBlockLength, 12, 16);
    SubSlice(bytes, at, SbeBlockLength, 16, 20);
    Int32RoundTrip(b.tokenOffset);
    Int32RoundTrip(b.tokenSize);
    Int32RoundTrip(b.fieldId);
    Int32RoundTrip(b.tokenVersion);
    Int32RoundTrip(b.componentTokenCount);
  }

  /**
    What a decoder reads from a token at `at`: the block, the ten var-data
    fields ending at `end`, and the text appendTo writes for them.
   */
  predicate ReadsBack(bytes: seq<byte>, at: int, end: int, b: TokenBlock, fields: seq<seq<byte>>)
    requires |fields| == |VarDataNames|
  {
    && 0 <= at && at + SbeBlockLength <= |bytes|
    && DecodeBlock(bytes, at) == b
    && FieldsFit(bytes, at + SbeBlockLength, |VarDataNames|)
    && ReadFields(bytes, at + SbeBlockLength, |VarDataNames|) == (fields, end)
    && Rendered(bytes, at, SbeBlockLength, SbeSchemaVersion) == TokenText(SbeSchemaVersion, SbeBlockLength, b, fields)
  }

  /**
    A token encoded as its block followed by the frames of its ten var-data
    fields decodes to the same block and fields, and the decoder's text
    shows exactly those values.
   */
  lemma TokenRoundTrip(bytes: seq<byte>, at: int, end: int, b: TokenBlock, fields: seq<seq<byte>>)
    requires |fields| == |VarDataNames| && AllFit(fields)
    requires 0 <= at && end == at + SbeBlockLength + |Frames(fields)| <= |bytes|
    requires bytes[at..at + SbeBlockLength] == EncodeBlock(b)
    requires bytes[at + SbeBlockLength..end] == Frames(fields)
    ensures bytes[at..end] == EncodeBlock(b) + Frames(fields)
    ensures ReadsBack(bytes, at, end, b, fields)
  {
    assert bytes[at..end] == bytes[at..at + SbeBlockLength] + bytes[at + SbeBlockLength..end];
    BlockRoundTrip(bytes, at, b);
    ReadFramesOf(bytes, at + SbeBlockLength, fields);
  }

  /**
    A block followed by the frames of the first i fields, with the next
    field's frame written at the end: the block is untouched and the frames
    now cover i + 1 fields.
   */
  lemma NextFrame(s: seq<byte>, head: seq<byte>, at: int, limit: int, fields: seq<seq<byte>>, i: int)
    requires AllFit(fields) && 0 <= i < |fields| && AllFit(fields[..i])
    requires 0 <= at && at + |head| + |Frames(fields)| <= |s|
    requires limit == at + |head| + |Frames(fields[..i])| <= at + |head| + |Frames(fields)|
    requires s[at..at + |head|] == head && s[at + |head|..limit] == Frames(fields[..i])
    ensures AllFit(fields[..i + 1])
    ensures limit + HeaderLength + |fields[i]| == at + |head| + |Frames(fields[..i + 1])| <= at + |head| + |Frames(fields)|
    ensures var r := Splice(s, limit, VarField(fields[i]));
      && r[at..at + |head|] == head
      && r[at + |head|..limit + HeaderLength + |fields[i]|] == Frames(fields[..i + 1])
  {
    var payload := fields[i];
    assert fields[..i + 1] == fields[..i] + [payload];
    assert fields == fields[..i + 1] + fields[i + 1..];
    var rest := fields[i + 1..];
    assert AllFit(rest) by {
      forall x | 0 <= x < |rest| ensures |rest[x]| <= MaxVarDataLength {
        assert rest[x] == fields[i + 1 + x];
      }
    }
    FramesAppend(fields[..i], payload);
    FramesConcat(fields[..i + 1], rest);
    FramesExtend(s, at + |head|, limit, fields[..i], payload);
    var r := Splice(s, limit, VarField(payload));
    assert r[at..at + |head|] == r[..limit][at..at + |head|];
    assert s[at..at + |head|] == s[..limit][at..at + |head|];
  }

  class TokenCodecEncoder {
    var buffer: array<byte>
    var offset: int
    var limit: int

    constructor()
      ensures buffer.Length == 0 && offset == 0 && limit == 0
    {
      buffer := new byte[0];
      offset := 0;
      limit := 0;
    }

    /** TokenCodecEncoder.wrap: the var data starts just past the block. */
    method Wrap(buffer: array<byte>, offset: int)
      modifies this
      ensures this.buffer == buffer && this.offset == offset
      ensures limit == offset + SbeBlockLength
      ensures EncodedLength() == SbeBlockLength
    {
      this.buffer := buffer;
      this.offset := offset;
      limit := offset + SbeBlockLength;
    }

    function EncodedLength(): int
      reads this
    {
      limit - offset
    }

    /** A little-endian putInt: the four bytes at `index` become the value's encoding. */
    method PutInt32(index: int, value: int32)
      requires 0 <= index && index + 4 <= buffer.Length
      modifies buffer
      ensures buffer[..] == Splice(old(buffer[..]), index, Int32ToLE(value))
    {
      var w := Int32ToLE(value);
      buffer[index] := w[0];
      buffer[index + 1] := w[1];
      buffer[index + 2] := w[2];
      buffer[index + 3] := w[3];
      assert buffer[..] == Splice(old(buffer[..]), index, w);
    }

    method TokenOffset(value: int32)
      requires 0 <= offset && offset + 4 <= buffer.Length
      modifies buffer
      ensures buffer[..] == Splice(old(buffer[..]), offset, Int32ToLE(value))
    {
      PutInt32(offset, value);
    }

    method TokenSize(value: int32)
      requires 0 <= offset + 4 && offset + 8 <= buffer.Length
      modifies buffer
      ensures buffer[..] == Splice(old(buffer[..]), offset + 4, Int32ToLE(value))
    {
      PutInt32(offset + 4, value);
    }

    method FieldId(value: int32)
      requires 0 <= offset + 8 && offset + 12 <= buffer.Length
      modifies buffer
      ensures buffer[..] == Splice(old(buffer[..]), offset + 8, Int32ToLE(value))
    {
      PutInt32(offset + 8, value);
    }

    method TokenVersion(value: int32)
      requires 0 <= offset + 12 && offset + 16 <= buffer.Length
      modifies buffer
      ensures buffer[..] == Splice(old(buffer[..]), offset + 12, Int32ToLE(value))
    {
      PutInt32(offset + 12, value);
    }

    method ComponentTokenCount(value: int32)
      requires 0 <= offset + 16 && offset + 20 <= buffer.Length
      modifies buffer
      ensures buffer[..] == Splice(old(buffer[..]), offset + 16, Int32ToLE(value))
    {
      PutInt32(offset + 16, value);
    }

    /** putByte(index, (byte)code): only the low eight bits of the code are kept. */
    method PutCode(index: int, code: int)
      requires 0 <= index < buffer.Length
      modifies buffer
      ensures buffer[..] == old(buffer[..])[index := Low8(code)]
    {
      buffer[index] := Low8(code);
    }

    method Signal(code: int)
      requires 0 <= offset + 20 < buffer.Length
      modifies buffer
      ensures buffer[..] == old(buffer[..])[offset + 20 := Low8(code)]
    {
      PutCode(offset + 20, code);
    }

    method PrimitiveType(code: int)
      requires 0 <= offset + 21 < buffer.Length
      modifies buffer
      ensures buffer[..] == old(buffer[..])[offset + 21 := Low8(code)]
    {
      PutCode(offset + 21, code);
    }

    method ByteOrder(code: int)
      requires 0 <= offset + 22 < buffer.Length
      modifies buffer
      ensures buffer[..] == old(buffer[..])[offset + 22 := Low8(code)]
    {
      PutCode(offset + 22, code);
    }

    method Presence(code: int)
      requires 0 <= offset + 23 < buffer.Length
      modifies buffer
      ensures buffer[..] == old(buffer[..])[offset + 23 := Low8(code)]
    {
      PutCode(offset + 23, code);
    }

    /**
      The five int32 setters and the four code setters, one after the other:
      together they write exactly the 24-byte block the decoder reads, and
      nothing else.
     */
    method PutBlock(b: TokenBlock)
      requires 0 <= offset && offset + SbeBlockLength <= buffer.Length
      modifies buffer
      ensures buffer[..] == Splice(old(buffer[..]), offset, EncodeBlock(b))
    {
      ghost var s := buffer[..];
      ghost var ints := PutInts(b);
      PutCodes(s, ints, b);
      assert ints + [b.signal, b.primitiveType, b.byteOrder, b.presence] == EncodeBlock(b);
    }

    /** The five int32 setters: the first 20 bytes of the block. */
    method PutInts(b: TokenBlock) returns (ghost ints: seq<byte>)
      requires 0 <= offset && offset + SbeBlockLength <= buffer.Length
      modifies buffer
      ensures ints == Int32ToLE(b.tokenOffset) + Int32ToLE(b.tokenSize) + Int32ToLE(b.fieldId)
                      + Int32ToLE(b.tokenVersion) + Int32ToLE(b.componentTokenCount)
      ensures buffer[..] == Splice(old(buffer[..]), offset, ints)
    {
      ghost var s := buffer[..];
      ghost var w := Int32ToLE(b.tokenOffset);
      TokenOffset(b.tokenOffset);
      ghost var t := buffer[..];
      assert t == Splice(s, offset, w);
      TokenSize(b.tokenSize);
      SpliceAdjacent(s, offset, w, Int32ToLE(b.tokenSize));
      w := w + Int32ToLE(b.tokenSize);
      t := buffer[..];
      assert t == Splice(s, offset, w);
      FieldId(b.fieldId);
      SpliceAdjacent(s, offset, w, Int32ToLE(b.fieldId));
      w := w + Int32ToLE(b.fieldId);
      t := buffer[..];
      assert t == Splice(s, offset, w);
      TokenVersion(b.tokenVersion);
      SpliceAdjacent(s, offset, w, Int32ToLE(b.tokenVersion));
      w := w + Int32ToLE(b.tokenVersion);
      t := buffer[..];
      assert t == Splice(s, offset, w);
      ComponentTokenCount(b.componentTokenCount);
      SpliceAdjacent(s, offset, w, Int32ToLE(b.componentTokenCount));
      ints := w + Int32ToLE(b.componentTokenCount);
    }

    /** The four code setters after the int32 fields: the block is completed by its last four bytes. */
    method PutCodes(ghost s: seq<byte>, ghost ints: seq<byte>, b: TokenBlock)
      requires 0 <= offset && offset + SbeBlockLength <= buffer.Length == |s| && |ints| == 20
      requires buffer[..] == Splice(s, offset, ints)
      modifies buffer
      ensures buffer[..] == Splice(s, offset, ints + [b.signal, b.primitiveType, b.byteOrder, b.presence])
    {
      ghost var t := ints;
      Signal(b.signal as int);
      UpdateIsSplice(old(buffer[..]), offset + 20, b.signal);
      SpliceAdjacent(s, offset, t, [b.signal]);
      t := t + [b.signal];
      ghost var b1 := buffer[..];
      PrimitiveType(b.primitiveType as int);
      UpdateIsSplice(b1, offset + 21, b.primitiveType);
      SpliceAdjacent(s, offset, t, [b.primitiveType]);
      t := t + [b.primitiveType];
      ghost var b2 := buffer[..];
      ByteOrder(b.byteOrder as int);
      UpdateIsSplice(b2, offset + 22, b.byteOrder);
      SpliceAdjacent(s, offset, t, [b.byteOrder]);
      t := t + [b.byteOrder];
      ghost var b3 := buffer[..];
      Presence(b.presence as int);
      UpdateIsSplice(b3, offset + 23, b.presence);
      SpliceAdjacent(s, offset, t, [b.presence]);
      t := t + [b.presence];
      assert t == ints + [b.signal, b.primitiveType, b.byteOrder, b.presence];
    }

    /**
      putName(src, srcOffset, length) and the other put*(byte[], ...): a
      length over 65534 is refused (the IllegalArgumentException) and
      nothing changes; otherwise the cursor moves past the new field and
      the field's frame is written where the cursor was.
     */
    method PutVarData(src: seq<byte>, srcOffset: int, length: int) returns (ok: bool)
      requires 0 <= length
      requires length <= MaxVarDataLength ==> 0 <= srcOffset && srcOffset + length <= |src|
      requires length <= MaxVarDataLength ==> 0 <= limit && limit + HeaderLength + length <= buffer.Length
      modifies this`limit, buffer
      ensures ok <==> length <= MaxVarDataLength
      ensures !ok ==> limit == old(limit) && buffer[..] == old(buffer[..])
      ensures ok ==> limit == old(limit) + HeaderLength + length
      ensures ok ==> buffer[..] == Splice(old(buffer[..]), old(limit), VarField(src[srcOffset..srcOffset + length]))
    {
      if length > 65534 {
        return false;
      }
      ghost var original := buffer[..];
      ghost var frame := VarField(src[srcOffset..srcOffset + length]);
      var headerLength := 2;
      var start := limit;
      limit := start + headerLength + length;
      var header := Uint16ToLE(length);
      buffer[start] := header[0];
      buffer[start + 1] := header[1];
      var k := 0;
      while k < length
        invariant 0 <= k <= length
        invariant limit == start + headerLength + length
        invariant forall i :: start <= i < start + headerLength + k ==> buffer[i] == frame[i - start]
        invariant forall i :: 0 <= i < buffer.Length && !(start <= i < start + headerLength + k) ==> buffer[i] == original[i]
      {
        buffer[start + headerLength + k] := src[srcOffset + k];
        k := k + 1;
      }
      SpliceOf(original, start, frame, buffer[..]);
      ok := true;
    }

    /**
      A whole token written the way the IR encoder drives this codec: wrap,
      the nine fixed-field setters, then the ten var-data writers in their
      declared order. The bytes from the offset to the final limit are the
      block followed by the frames of the fields, and a decoder reads back
      exactly that block and those fields.
     */
    method EncodeToken(buf: array<byte>, at: int, b: TokenBlock, fields: seq<seq<byte>>)
      requires |fields| == |VarDataNames| && AllFit(fields)
      requires 0 <= at && at + SbeBlockLength + |Frames(fields)| <= buf.Length
      modifies this, buf
      ensures buffer == buf && offset == at
      ensures limit == at + SbeBlockLength + |Frames(fields)|
      ensures buf[at..limit] == EncodeBlock(b) + Frames(fields)
      ensures ReadsBack(buf[..], at, limit, b, fields)
    {
      Wrap(buf, at);
      PutBlock(b);
      PutFields(b, fields);
      TokenRoundTrip(buf[..], at, limit, b, fields);
    }

    /** The var-data writers in declared order, after the block: their frames lie end to end after it. */
    method PutFields(b: TokenBlock, fields: seq<seq<byte>>)
      requires AllFit(fields)
      requires 0 <= offset && offset + SbeBlockLength + |Frames(fields)| <= buffer.Length
      requires limit == offset + SbeBlockLength
      requires buffer[offset..offset + SbeBlockLength] == EncodeBlock(b)
      modifies this`limit, buffer
      ensures limit == offset + SbeBlockLength + |Frames(fields)|
      ensures buffer[offset..offset + SbeBlockLength] == EncodeBlock(b)
      ensures buffer[offset + SbeBlockLength..limit] == Frames(fields)
    {
      var i := 0;
      assert fields[..0] == [];
      while i < |fields|
        invariant 0 <= i <= |fields|
        invariant AllFit(fields[..i])
        invariant limit == offset + SbeBlockLength + |Frames(fields[..i])|
        invariant limit <= offset + SbeBlockLength + |Frames(fields)|
        invariant buffer[offset..offset + SbeBlockLength] == EncodeBlock(b)
        invariant buffer[offset + SbeBlockLength..limit] == Frames(fields[..i])
      {
        PutField(b, fields, i);
        i := i + 1;
      }
      assert fields[..|fields|] == fields;
    }

    /** One var-data writer of PutFields: the frames so far grow by the next field's frame. */
    method PutField(b: TokenBlock, fields: seq<seq<byte>>, i: int)
      requires AllFit(fields) && 0 <= i < |fields| && AllFit(fields[..i])
      requires 0 <= offset && offset + SbeBlockLength + |Frames(fields)| <= buffer.Length
      requires limit == offset + SbeBlockLength + |Frames(fields[..i])| <= offset + SbeBlockLength + |Frames(fields)|
      requires buffer[offset..offset + SbeBlockLength] == EncodeBlock(b)
      requires buffer[offset + SbeBlockLength..limit] == Frames(fields[..i])
      modifies this`limit, buffer
      ensures AllFit(fields[..i + 1])
      ensures limit == offset + SbeBlockLength + |Frames(fields[..i + 1])|
      ensures limit <= offset + SbeBlockLength + |Frames(fields)|
      ensures buffer[offset..offset + SbeBlockLength] == EncodeBlock(b)
      ensures buffer[offset + SbeBlockLength..limit] == Frames(fields[..i + 1])
    {
      NextFrame(buffer[..], EncodeBlock(b), offset, limit, fields, i);
      var payload := fields[i];
      assert payload[0..|payload|] == payload;
      var ok := PutVarData(payload, 0, |payload|);
      assert ok;
    }

    /**
      TokenCodecEncoder.appendTo: the text a decoder wrapped over this
      encoder's buffer with the schema's block length and version writes.
     */
    method AppendTo(builder: Builder)
      requires 0 <= offset && offset + SbeBlockLength <= buffer.Length
      requires FieldsFit(buffer[..], offset + SbeBlockLength, |VarDataNames|)
      modifies builder
      ensures builder.parts == old(builder.parts) + Rendered(old(buffer[..]), offset, SbeBlockLength, SbeSchemaVersion)
    {
      var bytes := buffer[..];
      var writer := new TokenCodecDecoder();
      writer.Wrap(bytes, offset, SbeBlockLength, SbeSchemaVersion);
      writer.AppendTo(builder);

    }
  }
}

=== FILE: tokens.dfy ===
/**
  The token data model of the intermediate representation (IR): signals,
  encodings and tokens. A schema is flattened into a sequence of tokens in
  which every structural construct is a BEGIN_X ... END_X pair.
 */
module Tokens {

  datatype Option<T> = None | Some(value: T)

  /** The structural kinds that come in BEGIN_X / END_X pairs. */
  datatype Component = Message | Composite | Field | Enum | Set | Group | VarData

  /**
    The signal of a token. BEGIN_MESSAGE is Begin(Message), END_VAR_DATA is
    End(VarData); VALID_VALUE, CHOICE and ENCODING are not paired.
   */
  datatype Signal =
    | Begin(kind: Component)
    | End(kind: Component)
    | ValidValue
    | Choice
    | EncodingSignal

  datatype Presence = Required | Optional | Constant

  /** A primitive value as the IR stores it: its text and its value as a long. */
  datatype PrimitiveValue = PrimitiveValue(text: string, longValue: int)

  /**
    The encoding of a token. `nullValue` is the applicable null value of the
    encoding (the explicit one, or the primitive type's default, which the
    Encoding class works out and which is not part of this model).
   */
  datatype Encoding = Encoding(
    presence: Presence,
    constValue: Option<PrimitiveValue>,
    nullValue: PrimitiveValue,
    characterEncoding: Option<string>)

  datatype Token = Token(
    signal: Signal,
    name: string,
    id: int,
    version: int,
    encodedLength: int,
    offset: int,
    componentTokenCount: int,
    encoding: Encoding)

  predicate IsConstantEncoding(t: Token) {
    t.encoding.presence == Constant
  }

  predicate IsOptionalEncoding(t: Token) {
    t.encoding.presence == Optional
  }

  /** `s.endsWith(suffix)` */
  predicate EndsWith(s: string, suffix: string) {
    |suffix| <= |s| && s[|s| - |suffix|..] == suffix
  }

  /** The signals of a token list, position by position. */
  function Signals(tokens: seq<Token>): (sigs: seq<Signal>)
    ensures |sigs| == |tokens|
    ensures forall i :: 0 <= i < |tokens| ==> sigs[i] == tokens[i].signal
  {
    seq(|tokens|, i requires 0 <= i < |tokens| => tokens[i].signal)
  }
}

=== FILE: wire.dfy ===
/**
  The wire format shared by the IR codecs: little-endian int32 fields,
  single-byte enum codes, and variable-length fields framed by a uint16
  little-endian length; plus the text a decoder's appendTo builds.
 */
module Wire {

  newtype byte = b: int | 0 <= b < 256

  /** A Java int. */
  newtype int32 = x: int | -0x8000_0000 <= x < 0x8000_0000

  /** The null, min and max values the codecs declare for their int32 fields. */
  const Int32NullValue: int := -2147483648
  const Int32MinValue: int := -2147483647
  const Int32MaxValue: int := 2147483647

  /** The size of the length header of a var-data field. */
  const HeaderLength: int := 2

  /** The largest var-data length the encoders accept. */
  const MaxVarDataLength: int := 65534

  // ---------------------------------------------------------------------
  // Fixed-size fields.

  /** The four bytes of a two's complement int32, least significant first. */
  function Int32ToLE(v: int32): (r: seq<byte>)
    ensures |r| == 4
  {
    var u := if v < 0 then v as int + 0x1_0000_0000 else v as int;
    [(u % 256) as byte, (u / 0x100 % 256) as byte, (u / 0x1_0000 % 256) as byte, (u / 0x100_0000) as byte]
  }

  /** The unsigned value of four little-endian bytes. */
  function LEValue4(s: seq<byte>): (u: int)
    requires |s| == 4
    ensures 0 <= u < 0x1_0000_0000
  {
    s[0] as int + 0x100 * s[1] as int + 0x1_0000 * s[2] as int + 0x100_0000 * s[3] as int
  }

  /** The int32 read from four little-endian bytes (a signed getInt). */
  function LEToInt32(s: seq<byte>): int32
    requires |s| == 4
  {
    var u := LEValue4(s);
    if u >= 0x8000_0000 then (u - 0x1_0000_0000) as int32 else u as int32
  }

  lemma Digits(u: int)
    requires 0 <= u < 0x1_0000_0000
    ensures u == u % 256 + 0x100 * (u / 0x100 % 256) + 0x1_0000 * (u / 0x1_0000 % 256) + 0x100_0000 * (u / 0x100_0000)
    ensures u / 0x100_0000 < 256
  {
    var q1 := u / 0x100;
    var q2 := q1 / 0x100;
    var q3 := q2 / 0x100;
    assert u == u % 256 + 0x100 * q1;
    assert q1 == q1 % 256 + 0x100 * q2;
    assert q2 == q2 % 256 + 0x100 * q3;
    assert q2 == u / 0x1_0000;
    assert q3 == u / 0x100_0000;
  }

  /** Writing an int32 and reading it back gives the value. */
  lemma Int32RoundTrip(v: int32)
    ensures LEToInt32(Int32ToLE(v)) == v
  {
    var u := if v < 0 then v as int + 0x1_0000_0000 else v as int;
    Digits(u);
    assert LEValue4(Int32ToLE(v)) == u;
  }

  /** Every four bytes are the encoding of the int32 read from them. */
  lemma Int32BytesRoundTrip(s: seq<byte>)
    requires |s| == 4
    ensures Int32ToLE(LEToInt32(s)) == s
  {
    var u := LEValue4(s);
    var q1 := s[1] as int + 0x100 * s[2] as int + 0x1_0000 * s[3] as int;
    var q2 := s[2] as int + 0x100 * s[3] as int;
    assert u == s[0] as int + 0x100 * q1;
    assert q1 == s[1] as int + 0x100 * q2;
    assert u % 256 == s[0] as int && u / 0x100 == q1;
    assert q1 % 256 == s[1] as int && q1 / 0x100 == q2;
    assert q2 % 256 == s[2] as int && q2 / 0x100 == s[3] as int;
    assert u / 0x1_0000 == q2;
    assert u / 0x100_0000 == s[3] as int;
  }

  /** A little-endian getInt at `index`: the value whose encoding the four bytes are. */
  function GetInt32(bytes: seq<byte>, index: int): (r: int32)
    requires 0 <= index && index + 4 <= |bytes|
    ensures Int32ToLE(r) == bytes[index..index + 4]
  {
    Int32BytesRoundTrip(bytes[index..index + 4]);
    LEToInt32(bytes[index..index + 4])
  }

  /** The two bytes a putShort of a length in 0..65535 writes, least significant first. */
  function Uint16ToLE(n: int): (r: seq<byte>)
    requires 0 <= n < 0x1_0000
    ensures |r| == 2
  {
    [(n % 256) as byte, (n / 256) as byte]
  }

  /** getShort(...) & 0xFFFF: the unsigned value of two little-endian bytes. */
  function LEToUint16(s: seq<byte>): (n: int)
    requires |s| == 2
    ensures 0 <= n < 0x1_0000
  {
    s[0] as int + 256 * s[1] as int
  }

  lemma Uint16RoundTrip(n: int)
    requires 0 <= n < 0x1_0000
    ensures LEToUint16(Uint16ToLE(n)) == n
  {
  }

  lemma Uint16BytesRoundTrip(s: seq<byte>)
    requires |s| == 2
    ensures Uint16ToLE(LEToUint16(s)) == s
  {
  }

  /** (byte)code as a putByte writes it: the low eight bits, which a read & 0xFF gives back. */
  function Low8(code: int): (b: byte)
    ensures 0 <= code < 256 ==> b as int == code
    ensures (b as int - code) % 256 == 0
  {
    (code % 256) as byte
  }

  // ---------------------------------------------------------------------
  // Writing into a buffer.

  /** `s` with `piece` written at `at`: the piece reads back there (SpliceKeeps: nothing else changes). */
  function Splice(s: seq<byte>, at: int, piece: seq<byte>): (r: seq<byte>)
    requires 0 <= at && at + |piece| <= |s|
    ensures |r| == |s|
    ensures r[at..at + |piece|] == piece
  {
    s[..at] + piece + s[at + |piece|..]
  }

  /** A splice changes no byte outside the piece. */
  lemma SpliceKeeps(s: seq<byte>, at: int, piece: seq<byte>)
    requires 0 <= at && at + |piece| <= |s|
    ensures forall i :: 0 <= i < |s| && !(at <= i < at + |piece|) ==> Splice(s, at, piece)[i] == s[i]
  {
  }

  /** A slice of a slice is a slice of the whole. */
  lemma SubSlice(s: seq<byte>, at: int, n: int, i: int, j: int)
    requires 0 <= at && at + n <= |s| && 0 <= i <= j <= n
    ensures s[at..at + n][i..j] == s[at + i..at + j]
  {
    var t := s[at..at + n][i..j];
    forall k | 0 <= k < j - i
      ensures t[k] == s[at + i + k]
    {
    }
  }

  /** A sequence that holds the piece at `at` and agrees with `s` elsewhere is the splice. */
  lemma SpliceOf(s: seq<byte>, at: int, piece: seq<byte>, r: seq<byte>)
    requires 0 <= at && at + |piece| <= |s| && |r| == |s|
    requires forall i :: at <= i < at + |piece| ==> r[i] == piece[i - at]
    requires forall i :: 0 <= i < |s| && !(at <= i < at + |piece|) ==> r[i] == s[i]
    ensures r == Splice(s, at, piece)
  {
  }

  /** Two adjacent writes are one write of both pieces. */
  lemma SpliceAdjacent(s: seq<byte>, at: int, p: seq<byte>, q: seq<byte>)
    requires 0 <= at && at + |p| + |q| <= |s|
    ensures Splice(Splice(s, at, p), at + |p|, q) == Splice(s, at, p + q)
  {
    var r := Splice(Splice(s, at, p), at + |p|, q);
    forall i | 0 <= i < |s|
      ensures r[i] == Splice(s, at, p + q)[i]
    {
      SpliceKeeps(Splice(s, at, p), at + |p|, q);
      SpliceKeeps(s, at, p);
      SpliceKeeps(s, at, p + q);
      if at <= i < at + |p| {
        assert Splice(s, at, p)[at..at + |p|][i - at] == p[i - at];
        assert Splice(s, at, p + q)[at..at + |p| + |q|][i - at] == (p + q)[i - at];
      } else if at + |p| <= i < at + |p| + |q| {
        assert r[at + |p|..at + |p| + |q|][i - at - |p|] == q[i - at - |p|];
        assert Splice(s, at, p + q)[at..at + |p| + |q|][i - at] == (p + q)[i - at];
      }
    }
  }

  /** A putByte is a one-byte write. */
  lemma UpdateIsSplice(s: seq<byte>, i: int, x: byte)
    requires 0 <= i < |s|
    ensures s[i := x] == Splice(s, i, [x])
  {
  }

  // ---------------------------------------------------------------------
  // Variable-length fields.

  /** One var-data field on the wire: the uint16 length, then the payload. */
  function VarField(payload: seq<byte>): (r: seq<byte>)
    requires |payload| <= MaxVarDataLength
    ensures |r| == HeaderLength + |payload|
  {
    Uint16ToLE(|payload|) + payload
  }

  predicate AllFit(fields: seq<seq<byte>>) {
    forall x :: 0 <= x < |fields| ==> |fields[x]| <= MaxVarDataLength
  }

  /** Var-data fields laid end to end. */
  function Frames(fields: seq<seq<byte>>): (r: seq<byte>)
    requires AllFit(fields)
    decreases |fields|
  {
    if fields == [] then [] else VarField(fields[0]) + Frames(fields[1..])
  }

  /** The length header at `at` and the payload it announces both lie within the bytes. */
  predicate VarFieldFits(bytes: seq<byte>, at: int) {
    && 0 <= at && at + HeaderLength <= |bytes|
    && at + HeaderLength + LEToUint16(bytes[at..at + HeaderLength]) <= |bytes|
  }

  /** The payload of the field at `at`, and the position just past it. */
  function ReadVarField(bytes: seq<byte>, at: int): (r: (seq<byte>, int))
    requires VarFieldFits(bytes, at)
    ensures r.1 == at + HeaderLength + |r.0|
  {
    var dataLength := LEToUint16(bytes[at..at + HeaderLength]);
    (bytes[at + HeaderLength..at + HeaderLength + dataLength], at + HeaderLength + dataLength)
  }

  /** n fields, each starting where the one before ends, lie within the bytes. */
  predicate FieldsFit(bytes: seq<byte>, at: int, n: nat)
    decreases n
  {
    n == 0 || (VarFieldFits(bytes, at) && FieldsFit(bytes, ReadVarField(bytes, at).1, n - 1))
  }

  /** The payloads of n successive fields from `at`, and the position just past the last. */
  function ReadFields(bytes: seq<byte>, at: int, n: nat): (r: (seq<seq<byte>>, int))
    requires FieldsFit(bytes, at, n)
    ensures |r.0| == n
    decreases n
  {
    if n == 0 then ([], at)
    else
      var (first, next) := ReadVarField(bytes, at);
      var (rest, end) := ReadFields(bytes, next, n - 1);
      ([first] + rest, end)
  }

  /** Reading a written field gives its payload and moves past exactly its bytes. */
  lemma ReadVarFieldOf(bytes: seq<byte>, at: int, payload: seq<byte>)
    requires |payload| <= MaxVarDataLength
    requires 0 <= at && at + HeaderLength + |payload| <= |bytes|
    requires bytes[at..at + HeaderLength + |payload|] == VarField(payload)
    ensures VarFieldFits(bytes, at)
    ensures ReadVarField(bytes, at) == (payload, at + HeaderLength + |payload|)
  {
    var w := bytes[at..at + HeaderLength + |payload|];
    assert bytes[at..at + HeaderLength] == w[..HeaderLength] == Uint16ToLE(|payload|);
    Uint16RoundTrip(|payload|);
    assert bytes[at + HeaderLength..at + HeaderLength + |payload|] == w[HeaderLength..];
  }

  lemma {:induction false} FramesAppend(fields: seq<seq<byte>>, payload: seq<byte>)
    requires AllFit(fields) && |payload| <= MaxVarDataLength
    ensures AllFit(fields + [payload])
    ensures Frames(fields + [payload]) == Frames(fields) + VarField(payload)
    decreases |fields|
  {
    var all := fields + [payload];
    assert AllFit(all) by {
      assert forall x :: 0 <= x < |fields| ==> all[x] == fields[x];
    }
    if fields == [] {
      assert all == [payload] && all[1..] == [];
    } else {
      assert all[0] == fields[0];
      assert all[1..] == fields[1..] + [payload];
      FramesAppend(fields[1..], payload);
      var head := VarField(fields[0]);
      ByteAssoc(head, Frames(fields[1..]), VarField(payload));
      assert Frames(all) == head + Frames(fields[1..] + [payload]);
    }
  }

  /** The frames of two runs of fields are the frames of the first run followed by those of the second. */
  lemma {:induction false} FramesConcat(a: seq<seq<byte>>, b: seq<seq<byte>>)
    requires AllFit(a) && AllFit(b)
    ensures AllFit(a + b)
    ensures Frames(a + b) == Frames(a) + Frames(b)
    decreases |a|
  {
    var all := a + b;
    assert AllFit(all) by {
      forall x | 0 <= x < |all| ensures |all[x]| <= MaxVarDataLength {
        if x < |a| { assert all[x] == a[x]; } else { assert all[x] == b[x - |a|]; }
      }
    }
    if a == [] {
      assert all == b;
    } else {
      assert all[0] == a[0] && all[1..] == a[1..] + b;
      FramesConcat(a[1..], b);
      ByteAssoc(VarField(a[0]), Frames(a[1..]), Frames(b));
    }
  }

  lemma ByteAssoc(a: seq<byte>, b: seq<byte>, c: seq<byte>)
    ensures a + (b + c) == a + b + c
  {
  }

  /** Reading |fields| fields from their frames gives the fields back and ends just past them. */
  lemma {:induction false} ReadFramesOf(bytes: seq<byte>, at: int, fields: seq<seq<byte>>)
    requires AllFit(fields)
    requires 0 <= at && at + |Frames(fields)| <= |bytes|
    requires bytes[at..at + |Frames(fields)|] == Frames(fields)
    ensures FieldsFit(bytes, at, |fields|)
    ensures ReadFields(bytes, at, |fields|) == (fields, at + |Frames(fields)|)
    decreases |fields|
  {
    if fields != [] {
      var f := fields[0];
      var w := Frames(fields);
      var n := at + HeaderLength + |f|;
      assert bytes[at..n] == w[..HeaderLength + |f|];
      ReadVarFieldOf(bytes, at, f);
      assert bytes[n..n + |Frames(fields[1..])|] == w[HeaderLength + |f|..];
      ReadFramesOf(bytes, n, fields[1..]);
      assert [f] + fields[1..] == fields;
    }
  }

  /**
    Writing one more field at the end of the fields written so far extends
    their frames: successive var-data writes lie end to end.
   */
  lemma FramesExtend(s: seq<byte>, start: int, limit: int, fields: seq<seq<byte>>, payload: seq<byte>)
    requires AllFit(fields) && |payload| <= MaxVarDataLength
    requires 0 <= start <= limit && limit + HeaderLength + |payload| <= |s|
    requires s[start..limit] == Frames(fields)
    ensures AllFit(fields + [payload])
    ensures Splice(s, limit, VarField(payload))[start..limit + HeaderLength + |payload|] == Frames(fields + [payload])
    ensures Splice(s, limit, VarField(payload))[..limit] == s[..limit]
  {
    FramesAppend(fields, payload);
    var r := Splice(s, limit, VarField(payload));
    assert r[start..limit] == s[start..limit];
    assert r[start..limit + HeaderLength + |payload|] == r[start..limit] + r[limit..limit + HeaderLength + |payload|];
  }

  // ---------------------------------------------------------------------
  // The text a decoder's appendTo builds.

  /**
    A piece of appended text: literal text, a number in decimal, the name of
    an enum code (the codec enums are not part of this model, so the raw
    code stands for it), or a var-data value (whose UTF-8 decoding is not
    part of this model, so the bytes stand for it).
   */
  datatype Part = Text(text: string) | Number(n: int) | CodeName(code: int) | Data(bytes: seq<byte>)

  /** The StringBuilder an appendTo writes into. */
  class Builder {
    var parts: seq<Part>

    constructor()
      ensures parts == []
    {
      parts := [];
    }
  }

  /** "acting/" before a declared value, present exactly when the acting value differs from it. */
  function ActingPrefix(acting: int, declared: int): (r: seq<Part>)
    ensures r == [] <==> acting == declared
    ensures r != [] ==> r == [Number(acting), Text("/")]
  {
    if acting != declared then [Number(acting), Text("/")] else []
  }

  /** The header of appendTo: template, schema, version and block length. */
  function Header(codec: string, templateId: int, schemaId: int, schemaVersion: int, blockLength: int,
                  actingVersion: int, actingBlockLength: int): seq<Part>
  {
    [Text("[" + codec + "](sbeTemplateId="), Number(templateId), Text("|sbeSchemaId="), Number(schemaId),
     Text("|sbeSchemaVersion=")]
    + ActingPrefix(actingVersion, schemaVersion)
    + [Number(schemaVersion), Text("|sbeBlockLength=")]
    + ActingPrefix(actingBlockLength, blockLength)
    + [Number(blockLength), Text("):")]
  }

  /** Appending in steps is appending the whole. */
  lemma Regroup(a: seq<Part>, b: seq<Part>, c: seq<Part>)
    ensures a + b + c == a + (b + c)
  {
  }

  /** name=value followed by the field separator. */
  function Field(name: string, value: Part): seq<Part> {
    [Text(name + "="), value, Text("|")]
  }

  /** name=value with no separator: the last field. */
  function LastField(name: string, value: Part): seq<Part> {
    [Text(name + "="), value]
  }

  /** One step of reading successive fields: the first field, then the rest from where it ends. */
  lemma ReadFieldsStep(bytes: seq<byte>, at: int, n: nat)
    requires FieldsFit(bytes, at, n + 1)
    ensures VarFieldFits(bytes, at)
    ensures FieldsFit(bytes, ReadVarField(bytes, at).1, n)
    ensures ReadFields(bytes, at, n + 1).0 == [ReadVarField(bytes, at).0] + ReadFields(bytes, ReadVarField(bytes, at).1, n).0
  {
  }

  /**
    The first k var-data fields as appendTo writes them: name=value for
    each, with '|' after every field but the last of the list.
   */
  function VarText(names: seq<string>, fields: seq<seq<byte>>, k: nat): seq<Part>
    requires k <= |names| && k <= |fields|
    decreases k
  {
    if k == 0 then [] else VarText(names, fields, k - 1) + NextField(names, fields[k - 1], k - 1)
  }

  /** Field i of the list, holding `value`: the last one has no separator. */
  function NextField(names: seq<string>, value: seq<byte>, i: nat): seq<Part>
    requires i < |names|
  {
    if i + 1 == |names| then LastField(names[i], Data(value)) else Field(names[i], Data(value))
  }

  /** Writing field i after the first i fields writes the first i + 1. */
  lemma VarTextGrows(prefix: seq<Part>, names: seq<string>, fields: seq<seq<byte>>, i: nat)
    requires i < |names| && i < |fields|
    ensures prefix + VarText(names, fields, i) + NextField(names, fields[i], i) == prefix + VarText(names, fields, i + 1)
  {
    Regroup(prefix, VarText(names, fields, i), NextField(names, fields[i], i));
  }

  /** Where each of n successive fields from `at` starts, and where the last one ends. */
  function Starts(bytes: seq<byte>, at: int, n: nat): (r: seq<int>)
    requires FieldsFit(bytes, at, n)
    ensures |r| == n + 1 && r[0] == at
    decreases n
  {
    if n == 0 then [at] else [at] + Starts(bytes, ReadVarField(bytes, at).1, n - 1)
  }

  /** Field i of n successive fields is the one read at its start, and ends where field i + 1 starts. */
  lemma {:induction false} FieldAt(bytes: seq<byte>, at: int, n: nat, i: nat)
    requires FieldsFit(bytes, at, n) && i < n
    ensures var p := Starts(bytes, at, n);
      && VarFieldFits(bytes, p[i])
      && ReadVarField(bytes, p[i]) == (ReadFields(bytes, at, n).0[i], p[i + 1])
    decreases n
  {
    if i > 0 {
      FieldAt(bytes, ReadVarField(bytes, at).1, n - 1, i - 1);
    }
  }

  function Min(a: int, b: int): int {
    if a < b then a else b
  }
}
